=== FILE: README.md ===
# ffapipe: a Dafny model of the search pipeline's decision logic

ffapipe processes the data of a radio survey one observing date at a time,
looking for pulsars. Its parts:

- **The worker** (`PipelineWorker`) chooses between raw and filterbank data
  for a date.
  - It resumes from a hidden history log. The log is a pickled stream: the
    configuration first, then one `Meta` dictionary per processed file.
  - It runs `Filterbank.process()` on every file the log does not list yet.
  - It appends one `Meta` and one `filelist` line per file, and deletes the
    intermediate `.fil` produced from raw data.
- **The FFA search driver** (`PipelineManager`) handles one filterbank file.
  - It picks DM trials within limits, separated by a minimum step.
  - It batches the time series and collects the peaks the searches find.
  - It groups the peaks into clusters, removes harmonics and applies the DM
    and S/N thresholds.
  - It builds candidates and saves them as `riptide_cand_NNNN.h5` plus a
    summary table.
- **`CfgManager`** derives node lists, analysis dates and directory paths
  from the YAML configuration.
- **`Meta`** checks the types of the five required keys.
- **The monitor** renders a date's history log as a table with a folding
  and an archiving status per file.

This project restates each of these as pure Dafny functions over immutable
datatypes and proves what the code promises:

- the worker's resume rule (a second run processes nothing);
- the greedy separation and coverage of the DM trial choice;
- the order and membership of the candidate filters;
- the round trip of `grouper`;
- the key and type rules of `Meta`;
- the layout of the monitor's rows.

Modules, one file each:

| file | module | models |
|---|---|---|
| wrappers.dfy | Wrappers | `Option` / `Result` (an exception becomes `Failure(message)`) |
| seqs.dfy | Seqs | flatten, map, subsequence, `filter` |
| sorting.dfy | Sorting | Python's stable `sorted(..., reverse=True)` by a key |
| text.dfy | Text | `strip`, `split`, `join`, `replace`, `endswith`, decimal rendering, `ljust` |
| paths.dfy | Paths | `posixpath.join`, `dirname`, `splitext` |
| grouping.dfy | Grouping | `grouper` (both copies) |
| dm_selection.dfy | DmSelection | DM limits, `iter_steps` / `step_iter`, `select_dm_trials` |
| detections.dfy | Detections | detections, `DetectionCluster`, batch accumulation, clustering, `fetch_*` |
| candidates.dfy | Candidates | harmonic removal, candidate filters, `build_candidates`, `save_candidates`, `configure_loaders` |
| metas.dfy | Metas | `Meta.__init__` / `_finalise` |
| config.dfy | Config | `CfgManager` properties |
| filterbank.dfy | Filterbank | output names, `fill_blank` / `fill_template`, `make_fil`, zero-DM guard, `fold_candidate` arguments, `_attrs_` |
| ledger.dfy | Ledger | `raw_or_fil`, `unpickler`, the resume / append loop of `PipelineWorker.__call__` |
| monitor.dfy | Monitor | `build_record` and the ledger display of the monitor |

Foreign code has no visible source, so it becomes a function parameter. This covers:

- riptide's `ffa_search`, `find_peaks`, `cluster_1d`, `flag_harmonics` and
  `Candidate.from_pipeline_output`;
- the DM read from a file header;
- the galactic DM limit;
- the stage counts inside `Filterbank.process()` (candidates found, profiles
  folded, profiles archived), which come from the external search, folding
  and archiving programs; the renaming and the `Meta` it builds are modelled.

## Model

| member | source | states |
|---|---|---|
| DmSelection.LowerDmLimit | src_scripts/pipeline.py:45-50 | the user's `dm_min` when given; otherwise the smallest DM trial, which is one of the trials and no larger than any; no trials and no `dm_min` raises |
| DmSelection.UpperDmLimit | src_scripts/pipeline.py:55-63 | the limit is at most the largest trial, at most `dm_max` when given, at most the galactic limit when `dmsinb_max` is given, and equal to one of those; no trials raises |
| DmSelection.SortAsc | src_scripts/utilities.py:123 | `sorted`: a permutation of the values, in ascending order |
| DmSelection.InRange | src_scripts/utilities.py:124-125 | the numpy mask keeps, in order, exactly the values within `[vmin, vmax]` |
| DmSelection.StepIter | src_scripts/pipeline.py:302-314 | `iter_steps` emits at most one value per input value; StepIterSound, StepIterKeepsFirst and StepIterCovers pin which |
| DmSelection.Thin | src_scripts/pipeline.py:309-314 | the loop's output is drawn in order from its input (a subsequence); ThinSeparated and ThinCovers pin which values it keeps |
| DmSelection.StepIterSound | src_scripts/utilities.py:103-134 | `step_iter` output ascends, every value is an input value within `[vmin, vmax]`, and consecutive values differ by at least `step·(1−1e-7)` |
| DmSelection.StepIterKeepsFirst | src_scripts/utilities.py:123-134 | the smallest in-range value is always emitted, first |
| DmSelection.StepIterCovers | src_scripts/utilities.py:123-134 | every in-range value not emitted lies less than `step·(1−1e-7)` above the last value emitted before it (greedy maximality) |
| DmSelection.ThinSeparated | src_scripts/pipeline.py:309-314 | the loop of `iter_steps` keeps values separated by at least the tolerance step from their predecessor |
| DmSelection.ThinCovers | src_scripts/pipeline.py:309-314 | on ascending input every value the loop skips is within the tolerance step of a kept one |
| DmSelection.DmTable | src_scripts/pipeline.py:294-297 | the `{dm: file}` table maps every DM read to a file carrying that DM, and every file's DM is a key |
| DmSelection.DmTableLastWins | src_scripts/pipeline.py:294-297 | when two files carry the same DM the later one is kept |
| DmSelection.Lookup | src_scripts/pipeline.py:342-343 | the files behind the chosen DMs, one per value, in the same order |
| DmSelection.Select | src_scripts/pipeline.py:339-344 | every selected file is an input file, and their DMs are, in order, the `iter_steps` output over the trials |
| DmSelection.SelectDmTrialsAsWritten | src_scripts/pipeline.py:288-344 | as written: no files and an unset `dm_min` or `dm_max` raises at the `{:.3f}` format; an unset `dm_step` always raises |
| DmSelection.SelectDmTrials | src_scripts/pipeline.py:322-344 | corrected: no files gives no trials; it fails exactly when `dm_step` is unset; with files it agrees with the code as written |
| DmSelection.SelectDmTrialsSound | src_scripts/pipeline.py:288-344 | with files, the selection is drawn from the files, lies within the computed limits, and its DMs are the `iter_steps` output |
| DmSelection.EmptyDirectoryRaises | src_scripts/pipeline.py:322-339 | counterexample: an empty directory with no configured limits raises as written and yields no trials once corrected |
| Grouping.Grouper | src_scripts/utilities.py:78-101 | no group is longer than `n` |
| Grouping.GrouperFlatten | src_scripts/utilities.py:96-101 | concatenating the groups gives the input with its `None` elements removed, in order |
| Grouping.GrouperCount | src_scripts/pipeline.py:65-77 | there are `ceil(L/n)` groups for `n > 0`; an empty input gives none |
| Grouping.GrouperSizes | src_scripts/utilities.py:96-101 | on an input without `None`, every group but the last holds exactly `n` items and the last between 1 and `n` |
| Grouping.Batches | src_scripts/pipeline.py:65-77 | batches of a real list concatenate back to the list, and there are `ceil(L/n)` of them |
| Grouping.BatchSizes | src_scripts/pipeline.py:65-77 | all batches are full except possibly the last, which is non-empty |
| Detections.TopIndex | src_scripts/pipeline.py:93-95 | `max(cluster, key=snr)` picks a member of maximal S/N, and no earlier member has that S/N |
| Detections.TopIndexUnique | src_scripts/pipeline.py:93-95 | these two properties determine the chosen index (the first maximum) |
| Detections.TopDetection | src_scripts/pipeline.py:93-95 | the top detection is a member of the cluster with S/N no smaller than any member's, and no member before it has that S/N (the first maximum) |
| Detections.Summarize | src_scripts/pipeline.py:93-99 | `to_dict` reports the period, DM, duty cycle and S/N of the first member of maximal S/N, and `num_detections` equal to the cluster's length |
| Detections.AccumulateBatch | src_scripts/pipeline.py:198-202 | a batch keeps the stored detections as a prefix and appends the flattened per-series lists; the length grows by their total |
| Detections.ProcessBatches | src_scripts/pipeline.py:570-574 | the batch loop only ever appends: the detections stored before it stay, in place, at the front; ProcessBatchesFlat pins what is appended |
| Detections.ProcessBatchesFlat | src_scripts/pipeline.py:198-202 | batch after batch appends the detections of every series in series order |
| Detections.BatchSizeIrrelevant | src_scripts/pipeline.py:198-202 | the batch size does not change what a search accumulates |
| Detections.Pick | src_scripts/pipeline.py:221-224 | a cluster holds the detections at its group's indices, in group order |
| Detections.ClusterDetections | src_scripts/pipeline.py:208-225 | no stored detections leaves the clusters as they are; otherwise there is one cluster per index group, made of those detections |
| Detections.ClusterDetectionsTotal | src_scripts/pipeline.py:208-225 | the clusters together hold as many detections as the groups list indices |
| Detections.Fetch | src_scripts/pipeline.py:360-380 | as many items as all searches' lists hold together, each tagged with the index of an existing search; FetchUntag and FetchOfSearch pin which |
| Detections.FetchUntag | src_scripts/pipeline.py:360-380 | `fetch_detections` / `fetch_clusters` without the search tags is the concatenation of every search's list |
| Detections.FetchOfSearch | src_scripts/pipeline.py:360-380 | the items tagged with a search are exactly that search's list, in order |
| Sorting.SortDesc | src_scripts/pipeline.py:400 | `sorted(..., key=..., reverse=True)`: a permutation of the input in decreasing key order, and stable: the items with any one key keep their input order |
| Candidates.SortByTopSnr | src_scripts/pipeline.py:400 | a permutation of the clusters, ordered by decreasing top S/N; the sort is stable: clusters with equal top S/N keep their input order |
| Candidates.Fundamentals | src_scripts/pipeline.py:407-419 | the zip keeps a subsequence of the clusters, no longer than the flag list |
| Candidates.FundamentalsCount | src_scripts/pipeline.py:407-419 | exactly one cluster is kept per fundamental flag within the zipped length |
| Candidates.FundamentalsFlagged | src_scripts/pipeline.py:407-419 | every kept cluster sits at a position flagged as a fundamental |
| Candidates.FundamentalsNoHarmonics | src_scripts/pipeline.py:407-419 | with one non-harmonic flag per cluster, nothing is removed |
| Candidates.Summaries | src_scripts/pipeline.py:401 | one `to_dict` summary per cluster, in cluster order |
| Candidates.RemoveHarmonics | src_scripts/pipeline.py:382-420 | disabled, or with no detections, the clusters are returned untouched, not re-sorted; otherwise the result is the fundamentals of the S/N-sorted clusters, and an out-of-range fundamental index raises |
| Candidates.RemoveHarmonicsSorted | src_scripts/pipeline.py:382-420 | the survivors are a subsequence of the sorted clusters and remain sorted by decreasing top S/N |
| Candidates.Thresholds | src_scripts/pipeline.py:441-449 | the threshold steps never add a cluster; ThresholdsSound pins which ones they keep |
| Candidates.ThresholdsSound | src_scripts/pipeline.py:423-450 | the DM and S/N filters keep, in order, exactly the clusters passing the thresholds that are switched on (0 or `None` switch a step off) |
| Candidates.ThresholdsOrder | src_scripts/pipeline.py:441-449 | with both thresholds on, the order in which they are applied does not matter |
| Candidates.ThresholdsAfterSort | src_scripts/pipeline.py:430-450 | sorting then filtering equals filtering then sorting |
| Candidates.ApplyCandidateFilters | src_scripts/pipeline.py:430-453 | the result is a prefix of the sorted, thresholded list; when `max_number` is truthy it is at most `max_number` long: exactly `min(max_number, n)` for a positive limit, and the Python slice length (all but the last `-max_number`, or nothing) for a negative one; all of it otherwise |
| Candidates.ApplyCandidateFiltersSound | src_scripts/pipeline.py:430-453 | the survivors are a subsequence of the clusters sorted by top S/N, stay sorted, and each passes the switched-on thresholds |
| Candidates.FiltersComplete | src_scripts/pipeline.py:430-453 | without truncation, a cluster survives exactly when it passes the switched-on thresholds |
| Candidates.Built | src_scripts/pipeline.py:462-484 | at most one candidate per cluster; BuiltInOrder and BuiltFrom pin which |
| Candidates.BuiltInOrder | src_scripts/pipeline.py:476-484 | the loop appends exactly the candidates of the clusters whose build succeeds, one each, in cluster order |
| Candidates.BuiltSkipsFailure | src_scripts/pipeline.py:476-484 | a cluster whose build raises is skipped without affecting the others |
| Candidates.BuiltFrom | src_scripts/pipeline.py:462-484 | a candidate is built exactly when some cluster's build produces it: every built candidate comes from a cluster, and every successful build contributes its candidate |
| Candidates.BuildCandidates | src_scripts/pipeline.py:456-488 | exactly one candidate per cluster whose build succeeds; a permutation of the built candidates sorted by decreasing `best_snr`, with ties kept in build order |
| Candidates.BuildCandidatesFrom | src_scripts/pipeline.py:456-488 | a candidate is returned exactly when some cluster builds it |
| Candidates.CandidateCount | src_scripts/pipeline.py:382-488 | harmonic removal, filtering and building never increase the number of items |
| Candidates.CandidateName | src_scripts/pipeline.py:542 | names start with `riptide_cand_` and end with `.h5`; indices below 10000 give 20-character names |
| Candidates.CandidateNameIndex | src_scripts/pipeline.py:542 | the digits between prefix and extension read back as the index |
| Candidates.CandidateNameInjective | src_scripts/pipeline.py:542 | distinct indices give distinct names |
| Candidates.SaveCandidates | src_scripts/pipeline.py:530-561 | nothing is written without candidates; otherwise candidate `k` goes to `riptide_cand_{k+1:04d}.h5` in the output directory and supplies summary row `k` (its file name and best period, DM, width, duty cycle and S/N), in candidate order, written to `summary.csv` |
| Candidates.SavedNamesDistinct | src_scripts/pipeline.py:540-556 | the saved files have pairwise distinct names |
| Candidates.ConfigureLoaders | src_scripts/pipeline.py:276-286 | the stripped, lower-cased format selects the PRESTO or the SIGPROC reader, and any other format raises |
| Candidates.ConfigureLoadersStrip | src_scripts/pipeline.py:276-286 | surrounding white space does not matter; an unknown format such as "fits" raises |
| Metas.Finalise | src_scripts/metas.py:23-61 | construction succeeds exactly when every required key is absent, `None` or of its declared type; all required keys are then present and every given key keeps its value |
| Metas.FinaliseFromValues | src_scripts/metas.py:46-61 | the keys after `_finalise`'s type check are the given keys plus the required ones; the missing required keys are `None` |
| Metas.FinaliseFromFailure | src_scripts/metas.py:57-61 | a failure reports the first violated requirement, in declaration order, with its type message |
| Metas.FinaliseEmpty | src_scripts/metas.py:52-56 | without attributes, each of the five required keys is present and `None` |
| Metas.FinaliseIdempotent | src_scripts/metas.py:46-61 | checking a finalised dictionary again changes nothing |
| Metas.FinaliseAccepts | src_scripts/metas.py:46-61 | a dictionary holding `fname` as a string or `None` and the four counts as integers, booleans or `None` passes `_finalise`'s type check unchanged |
| Metas.IsMetaFinalised | src_scripts/metas.py:46-61 | a dictionary passes `_finalise`'s type check unchanged exactly when it holds all five required keys with values of their declared types or `None` |
| Metas.FinaliseTypeCheck | src_scripts/metas.py:57-61 | a `bool` is accepted where an `int` is required (`isinstance`); a `str` raises |
| Config.CommaFields | src_scripts/cfg_manager.py:50-54 | one stripped field per comma-separated part; their count is the number of commas plus one |
| Config.CommaFieldsJoin | src_scripts/cfg_manager.py:50-54 | fields without commas or surrounding blanks are recovered from their comma-joined form |
| Config.Nodes | src_scripts/cfg_manager.py:50-54 | `nodes` has one stripped entry per comma field |
| Config.MachConfig | src_scripts/cfg_manager.py:57-67 | "single" exactly when there is one node, "multiple" otherwise |
| Config.MachConfigSingle | src_scripts/cfg_manager.py:57-67 | one node exactly when the configured node string has no comma |
| Config.AnalysisDates | src_scripts/cfg_manager.py:70-75 | at most five dates, entry `i` being the stripped `i`-th comma field; a backend without an entry raises |
| Config.NoTrailingSeparator | src_scripts/cfg_manager.py:93-100 | a prefix of the configured path, ending in no separator, with only separators removed |
| Config.NoTrailingSeparatorIdempotent | src_scripts/cfg_manager.py:93-100 | stripping separators twice is stripping once |
| Config.StorePath | src_scripts/cfg_manager.py:93-95 | `store_path` is the configured path with its trailing separators removed: a prefix of it, all of whose removed characters are separators, and not ending in one |
| Config.PipelinePath | src_scripts/cfg_manager.py:98-100 | `pipeline_path` is the configured path with its trailing separators removed: a prefix of it, all of whose removed characters are separators, and not ending in one |
| Config.PipelineChild | src_scripts/cfg_manager.py:103-120 | each pipeline directory's parent is the pipeline path |
| Config.StoreSibling | src_scripts/cfg_manager.py:123-130 | the RFI and state directories share the parent of the store directory and end with their own names |
| Config.RfiStateSiblings | src_scripts/cfg_manager.py:123-130 | the RFI and state paths are distinct siblings of the store directory |
| Config.Variables | src_scripts/cfg_manager.py:78-88 | `variables` has exactly the five keys, each equal to its property; a date lookup failure propagates |
| Config.PathTable | src_scripts/cfg_manager.py:133-144 | `paths` has exactly the eight path keys |
| Config.PathTableLayout | src_scripts/cfg_manager.py:133-144 | each entry of `paths` equals its property; the pipeline directories lie under the pipeline path and the RFI and state directories beside the store |
| Paths.Join | src_scripts/cfg_manager.py:103-130 | `os.path.join`: an absolute second part replaces the first; otherwise the two parts are joined by exactly one separator, none when the first part is empty or already ends with one |
| Paths.DirnameJoin | src_scripts/cfg_manager.py:103-130 | the directory part of a joined path is the directory it was joined to |
| Paths.SplitExt | src_scripts/filterbank_no_rfifind.py:79 | `splitext` splits a path into stem and extension; the extension is empty or a dot followed by no separator |
| Filterbank.OutputName | src_scripts/filterbank_no_rfifind.py:79 | the output name is a non-empty plain prefix of the file name, and the file name is exactly the output name followed by its extension |
| Filterbank.NewFilterbank | src_scripts/filterbank_no_rfifind.py:41-94 | a new `Filterbank` keeps its name and path, and `_attrs_` starts as `{fname: name}` |
| Filterbank.NewFilterbankLayout | src_scripts/filterbank_no_rfifind.py:79-86 | the candidates, folded and archived directories are children of the time series directory |
| Filterbank.FillBlank | src_scripts/filterbank_no_rfifind.py:255-279 | a line starting with the blank gains `" " + filler`; any other line is unchanged |
| Filterbank.FillAllMatch | src_scripts/filterbank_no_rfifind.py:317-322 | a line that starts with blank `k` is filled once, with filler `k` |
| Filterbank.FillAllNone | src_scripts/filterbank_no_rfifind.py:317-322 | a line matching no blank passes unchanged |
| Filterbank.FillLineCases | src_scripts/filterbank_no_rfifind.py:305-322 | a template line is filled with the value of the one blank it starts with, or left as it is |
| Filterbank.FillTemplate | src_scripts/filterbank_no_rfifind.py:281-322 | one output line per template line, in order, each starting with the stripped template line and ending in a newline |
| Filterbank.FillTemplateUnmatched | src_scripts/filterbank_no_rfifind.py:299-322 | a template line without blanks is written back stripped |
| Filterbank.RenameRaw | src_scripts/filterbank_no_rfifind.py:516-524 | a name ending in ".raw" ends in the new extension after `replace`; when that ending is its only ".raw", only the ending changes |
| Text.ReplaceOnlySuffix | src_scripts/filterbank_no_rfifind.py:516-524 | `str.replace` of a pattern that occurs only as the suffix keeps everything before it and swaps the suffix |
| Filterbank.MakeFil | src_scripts/filterbank_no_rfifind.py:482-524 | only ".raw" files are renamed; the name (and a ".raw" path) then end in ".fil" for GWB/SIM and ".zeroDM.fil" for any other backend; a name or path whose only ".raw" is its extension keeps its stem |
| Filterbank.MakeFilUsesZeroDmOutput | src_scripts/filterbank_no_rfifind.py:457-524 | for GSB the renamed path is the file `zerodm` wrote; zero-DM filtering runs for no other backend |
| Filterbank.NumSubbands | src_scripts/filterbank_no_rfifind.py:771-774 | 256 sub-bands above DM 400, the configured number at or below it |
| Filterbank.FoldArgs | src_scripts/filterbank_no_rfifind.py:764-803 | the fold command carries `-slow` exactly when the period is at least 1000; otherwise it carries `-n` at that position; both share the same head and tail |
| Filterbank.FoldArgsSlow | src_scripts/filterbank_no_rfifind.py:776-803 | the slow and ordinary commands differ only in the `-slow` option |
| Filterbank.StageAttrs | src_scripts/filterbank_no_rfifind.py:654-917 | the stages add the four count keys to `_attrs_` and leave every other key as it was |
| Filterbank.StageAttrsValues | src_scripts/filterbank_no_rfifind.py:654-917 | starting from `{fname: name}`, the stages leave exactly the five required keys: the name and the four stage counts |
| Filterbank.ProcessMeta | src_scripts/filterbank_no_rfifind.py:923-940 | the `_attrs_` a processed file accumulates need no `None` filled in and raise no type error when made a `Meta` |
| Filterbank.Process | src_scripts/filterbank_no_rfifind.py:923-940 | `process()` yields the renamed file and a `Meta` with exactly the five required keys: the pre-rename name as `fname` and the stage counts |
| Ledger.FilterByExt | src_scripts/utilities.py:136-152 | the files kept are, in directory order, exactly the listed files whose names end with the extension |
| Ledger.RawOrFil | src_scripts/wkr_manager.py:49-84 | ".raw" exactly when some raw file exists; ".fil" exactly when none does but a filterbank file does; `None` exactly when neither exists; a chosen extension has files |
| Ledger.Unpickle | src_scripts/utilities.py:17-38 | the records in file order; nothing for an absent or unopenable log |
| Ledger.RecordedNames | src_scripts/wkr_manager.py:191 | the `fname` of every record, elementwise, or the error of a record without one |
| Ledger.Schedule | src_scripts/wkr_manager.py:176-204 | an empty log processes every file and is rewritten to hold only the configuration; otherwise the log is kept and exactly the files whose name no record after the first carries are processed, in order; a record without `fname` raises |
| Ledger.ScheduleAllRecorded | src_scripts/wkr_manager.py:185-192 | when every file is named by a record after the first, nothing is left to process and the log is kept as it is |
| Ledger.ScheduleConfigOnly | src_scripts/wkr_manager.py:185-192 | a log holding only the configuration processes every file and is not rewritten |
| Ledger.ProcessEnvKeepsNames | src_scripts/wkr_manager.py:220-237 | the `Meta` of every processed file names the file as it was listed, before any renaming |
| Ledger.Deletion | src_scripts/wkr_manager.py:243-244 | one file is deleted exactly when the run started from raw data and the renamed path ends with ".fil"; it is that path |
| Ledger.FirstRaise | src_scripts/wkr_manager.py:214-238 | every file before this index is processed successfully, and the file at the index raises |
| Ledger.ProcessFiles | src_scripts/wkr_manager.py:214-244 | the loop raises exactly when some file's processing raises; the log and the file list each grow by the number of files processed before it |
| Ledger.ProcessFilesKeeps | src_scripts/wkr_manager.py:214-244 | the loop only appends to the log and the file list, and only adds to the deletions: what they held before stays in place |
| Ledger.ProcessFilesAppends | src_scripts/wkr_manager.py:214-237 | entry `j` appended to the log is the `Meta` of file `j` |
| Ledger.ProcessFilesNames | src_scripts/wkr_manager.py:214-238 | line `j` appended to the file list is the name of file `j` |
| Ledger.AppendedNames | src_scripts/wkr_manager.py:220-237 | every appended record carries, as `fname`, the name the next run compares against |
| Ledger.RunWith | src_scripts/wkr_manager.py:163-244 | when a record after the first carries no `fname`, the date raises that error and leaves the log and the file list unchanged, deleting nothing (an absent or unreadable log is not an error: it reads as empty and starts a fresh run); a date that raises nothing leaves a log with at least the configuration |
| Ledger.RunDateAsWritten | src_scripts/wkr_manager.py:130-251 | as written: a date without raw or filterbank data raises `UnboundLocalError` for `start_time`; otherwise it is the run with the chosen extension |
| Ledger.RunDate | src_scripts/wkr_manager.py:163-249 | corrected: a date without data changes nothing and raises nothing; otherwise it agrees with the code as written |
| Ledger.EmptyDateRaises | src_scripts/wkr_manager.py:163-170 | counterexample: an empty date directory raises as written and not once corrected |
| Ledger.FreshRun | src_scripts/wkr_manager.py:194-238 | a run from an empty log writes the configuration first, then one `Meta` per file, and lists every file |
| Ledger.RerunProcessesNothing | src_scripts/wkr_manager.py:185-238 | after a run that raised nothing, running the date again processes no file and changes neither the log nor the file list |
| Ledger.DeletionRule | src_scripts/wkr_manager.py:243-244 | a raw file converted by `make_fil` is deleted once processed |
| Monitor.PyEqSymmetric | the_monitor.py:108-120 | Python `==` between `Meta` values is symmetric |
| Monitor.Status | the_monitor.py:106-126 | "Not Done." exactly when the count is falsy (0, `False` or `None`); "Done." exactly when it is truthy and equals the expected count; "Incomplete." otherwise |
| Monitor.FoldStatus | the_monitor.py:104-114 | "Not Done." exactly when `num_fold_prfs` is falsy; "Done." exactly when it is truthy and equals `num_candidates`; "Incomplete." otherwise |
| Monitor.ArchiveStatus | the_monitor.py:116-126 | "Not Done." exactly when `num_arv_prfs` is falsy; "Done." exactly when it is truthy and equals `num_fold_prfs`; "Incomplete." otherwise |
| Monitor.StatusInts | the_monitor.py:106-126 | for integers: not done at 0, done at a matching non-zero count, incomplete at a mismatching one |
| Monitor.AllStagesDone | the_monitor.py:106-126 | a file whose candidates were all folded and whose folds were all archived shows "Done." twice |
| Monitor.PyStr | the_monitor.py:134-135 | `str()` of a non-negative count is its decimal digits |
| Monitor.Row | the_monitor.py:130-138 | a row exists exactly when `fname` is a string (a `None` name cannot be width-formatted); it starts with the name and ends with the archive status and a newline |
| Monitor.RowColumns | the_monitor.py:130-138 | fields that fit their widths put DM trials at column 53, candidates at 66, the fold status at 79 and the archive status at 95 |
| Monitor.Header | the_monitor.py:90-100 | the header columns start at 51, 63, 75 and 91, and a blank line follows |
| Monitor.Description | the_monitor.py:67-86 | the configuration block opens with its title line and ends with a blank line |
| Monitor.Collect | the_monitor.py:102-142 | the rows succeed together or the first failure is reported |
| Monitor.BuildRecord | the_monitor.py:59-144 | the record starts with the description and the header and has 2 + n lines; it fails exactly when some `fname` is not a string |
| Monitor.BuildRecordRows | the_monitor.py:102-144 | after the description and the header come the rows, one per summary entry and in ledger order |
| Monitor.Show | the_monitor.py:250-306 | an empty log shows "No files processed yet"; otherwise the first record is taken as the configuration and the record lists the rest |
| Monitor.ShowConfigOnly | the_monitor.py:250-306 | a log holding only the configuration shows the description and the header with no rows |
| Monitor.ShowListsFiles | the_monitor.py:250-306 | the line for each file the worker appended starts with that file's name |

## Left out

- External programs: gptool, filterbank, zerodm, prepsubband, prepfold, pam,
  header/grep/awk, gs, `ln`, `rm` and `cp`. They are run as subprocesses;
  only the argument choice of `fold_candidate` is modelled.
- riptide: `ffa_search`, `find_peaks`, `cluster_1d`, `flag_harmonics`,
  `Candidate.from_pipeline_output` and time series loading are function
  parameters. A failing `from_pipeline_output` is a `None` outcome.
  `cluster_1d` output is taken as index groups that are non-empty and in
  range.
- Floating point:
  - `get_galactic_dm_limit` (a sine) is the parameter `galactic`.
  - Median `tobs`, the `np.arange` DM segments, NUMOUT rounding and header
    arithmetic are not modelled.
  - Comparisons of DMs, periods and S/N use exact `real`.
- Time and clocks: `calc_time_params`, MJD conversion, `SkyCoord`
  formatting and the wall-time counters. The header fillers arrive already
  rendered as strings.
- Concurrency: the process pools across dates, DM segments, batches and fold
  jobs. Batches are processed in sequence.
- File system:
  - `file_walker` and `scandir` ordering is taken as a given listing.
  - `count_files`, `list_files`, `make_pdf` and `plot_candidates` are not
    modelled.
  - The pickle byte format is not modelled; the log is a sequence of
    records.
  - For pandas CSV writing, only row content and order are modelled.
  - The symlink `ln` in `make_fil` and the header-path replacement in
    `fill_template` are not modelled.
- Ledger.FilterByExt tests the file name, whereas `filter_by_ext` tests
  the joined path. The two agree for the extensions used, which start with
  "." and contain no separator.
- Ledger.ProcessEnv models `Filterbank.process()` only through the counts
  its stages record, given as a parameter. A `None` count outcome stands for
  a stage that raised.
- The curses loop of the monitor, and the argparse entry points
  multi_config.py, single_config.py and src_scripts/__init__.py.
- Monitor.Description: the configuration values arrive already rendered
  with `str()`. The contract states only the frame of the block, not the
  rendering of lists and numbers.
- Monitor.PyStr: renders integers, booleans and `None`. `Meta` values of
  other types never reach a row, because `_finalise` rejects them for the
  count keys.
- Monitor.Header: the header's columns (51, 63, 75, 91) do not line up with
  the rows' columns (53, 66, 79, 95). This is modelled as written. It is
  cosmetic, so it is not claimed as a defect.
- Candidates.ConfigureLoaders: the unknown-format error message is not
  modelled. The code's own `format` call raises `KeyError` before its
  `ValueError` is built; the model states only that the call fails.
- Candidates.ThresholdsOrder: the thresholds must be non-zero, since a zero
  threshold switches its step off and there is nothing to reorder.
- Config: `cores`, `bad_channels`, `freq_sig`, `ddplan` and the folding
  parameters are plain dictionary lookups and are not modelled separately.
- Values of a `Meta`: `OtherValue` stands for any type outside bool, int, str,
  float and `None`. Subclasses of `str` are not distinguished.

## Findings

| source | as written | input that shows it | evidently intended | confidence | as-written member | corrected member |
|---|---|---|---|---|---|---|
| src_scripts/wkr_manager.py:163-170, 248-249 | `start_time` is assigned only inside `if EXT:`, but `end_time - start_time` runs unconditionally | a date directory with no ".raw" and no ".fil" file | a date without data is skipped, with no error | high, not executed | Ledger.RunDateAsWritten (counterexample Ledger.EmptyDateRaises) | Ledger.RunDate |
| src_scripts/pipeline.py:322-339 | `dm_min` / `dm_max` are computed only `if filenames:`, but the log line formats them with `{:.3f}` unconditionally | a `glob` pattern that matches no file, with `dm_min` or `dm_max` left unset (`None`) | an empty directory yields no DM trials | high, not executed | DmSelection.SelectDmTrialsAsWritten (counterexample DmSelection.EmptyDirectoryRaises) | DmSelection.SelectDmTrials |

=== FILE: candidates.dfy ===
/** The candidate stage of the search driver: harmonic removal, the
    candidate filters, building candidates from the surviving clusters, the
    names of the saved candidate files, and the choice of data loader. */
module Candidates {
  import opened Wrappers
  import opened Seqs
  import opened Sorting
  import opened Text
  import opened Paths
  import opened Detections

  /** A cluster together with the search that found it. */
  type SearchCluster = Tagged<Cluster>

  /** `sorted(clusters, key=top snr, reverse=True)`. */
  function SortByTopSnr(cs: seq<SearchCluster>): (r: seq<SearchCluster>)
    ensures |r| == |cs| && multiset(r) == multiset(cs)
    ensures SortedDesc(r, TopSnr)
    ensures forall k :: WithKey(r, TopSnr, k) == WithKey(cs, TopSnr, k)
  {
    SortDesc(cs, TopSnr)
  }

  // ---------------------------------------------------------------- harmonics

  /** Per-cluster outcome of `flag_harmonics`: `is_harmonic` false, or true
      together with `fundamental_index`. */
  datatype HarmonicFlag = Fundamental | HarmonicOf(fundamentalIndex: int)

  /** `zip(clusters, flags)` keeping the clusters flagged as fundamentals;
      `zip` stops at the shorter list. */
  function Fundamentals(cs: seq<SearchCluster>, flags: seq<HarmonicFlag>): (r: seq<SearchCluster>)
    ensures IsSubsequence(r, cs)
    ensures |r| <= |flags|
  {
    if |cs| == 0 || |flags| == 0 then []
    else if flags[0].Fundamental? then
      var t := Fundamentals(cs[1..], flags[1..]);
      assert ([cs[0]] + t)[1..] == t;
      [cs[0]] + t
    else
      var t := Fundamentals(cs[1..], flags[1..]);
      SubsequenceWeaken(t, cs[1..], cs[0]);
      assert cs == [cs[0]] + cs[1..];
      t
  }

  /** Number of fundamentals among the flags. */
  function CountFundamental(flags: seq<HarmonicFlag>): nat
  {
    if |flags| == 0 then 0
    else (if flags[0].Fundamental? then 1 else 0) + CountFundamental(flags[1..])
  }

  function Min(a: int, b: int): int
  {
    if a <= b then a else b
  }

  /** One cluster is retained per fundamental flag within the zipped length. */
  lemma {:induction false} FundamentalsCount(cs: seq<SearchCluster>, flags: seq<HarmonicFlag>)
    ensures |Fundamentals(cs, flags)| == CountFundamental(flags[..Min(|cs|, |flags|)])
  {
    if |cs| > 0 && |flags| > 0 {
      FundamentalsCount(cs[1..], flags[1..]);
      var n := Min(|cs|, |flags|);
      assert flags[..n][1..] == flags[1..][..Min(|cs| - 1, |flags| - 1)];
    }
  }

  /** Every retained cluster sits at a position flagged as a fundamental. */
  lemma {:induction false} FundamentalsFlagged(cs: seq<SearchCluster>, flags: seq<HarmonicFlag>)
    ensures forall x :: x in Fundamentals(cs, flags) ==>
      exists k :: 0 <= k < |cs| && k < |flags| && cs[k] == x && flags[k].Fundamental?
  {
    if |cs| > 0 && |flags| > 0 {
      FundamentalsFlagged(cs[1..], flags[1..]);
      forall x | x in Fundamentals(cs, flags)
        ensures exists k :: 0 <= k < |cs| && k < |flags| && cs[k] == x && flags[k].Fundamental?
      {
        if x in Fundamentals(cs[1..], flags[1..]) {
          var k :| 0 <= k < |cs[1..]| && k < |flags[1..]| && cs[1..][k] == x && flags[1..][k].Fundamental?;
          assert cs[k + 1] == x && flags[k + 1].Fundamental?;
        } else {
          assert cs[0] == x && flags[0].Fundamental?;
        }
      }
    }
  }

  /** Without any harmonic flag (and with one flag per cluster) nothing is removed. */
  lemma {:induction false} FundamentalsNoHarmonics(cs: seq<SearchCluster>, flags: seq<HarmonicFlag>)
    requires |flags| == |cs|
    requires forall k :: 0 <= k < |flags| ==> flags[k].Fundamental?
    ensures Fundamentals(cs, flags) == cs
  {
    if |cs| > 0 {
      FundamentalsNoHarmonics(cs[1..], flags[1..]);
    }
  }

  /** `self.clusters[par["fundamental_index"]]` succeeds for every harmonic
      within the zipped length (Python indices run from `-n` to `n - 1`). */
  predicate FundamentalIndicesValid(flags: seq<HarmonicFlag>, n: int)
  {
    forall k :: 0 <= k < |flags| && k < n && flags[k].HarmonicOf? ==>
      -n <= flags[k].fundamentalIndex < n
  }

  /** `to_dict` of every cluster, the list handed to `flag_harmonics`. */
  function Summaries(cs: seq<SearchCluster>): (r: seq<ClusterSummary>)
    ensures |r| == |cs|
    ensures forall i :: 0 <= i < |cs| ==> r[i] == Summarize(cs[i].item)
  {
    if |cs| == 0 then [] else [Summarize(cs[0].item)] + Summaries(cs[1..])
  }

  /** `remove_harmonics`.  Disabled, or with no detections, it leaves the
      clusters exactly as they are; otherwise it sorts them by decreasing top
      S/N, asks `classify` (standing for `flag_harmonics`) about them and
      keeps the fundamentals.  An out-of-range fundamental index raises. */
  function RemoveHarmonics(enabled: bool, numDetections: nat, clusters: seq<SearchCluster>,
                           classify: seq<ClusterSummary> -> seq<HarmonicFlag>)
    : (r: Result<seq<SearchCluster>>)
    ensures !enabled || numDetections == 0 ==> r == Success(clusters)
    ensures enabled && numDetections > 0 ==>
      var sorted := SortByTopSnr(clusters);
      var flags := classify(Summaries(sorted));
      (r.Success? <==> FundamentalIndicesValid(flags, |sorted|))
      && (r.Success? ==> r.value == Fundamentals(sorted, flags))
  {
    if !enabled || numDetections == 0 then Success(clusters)
    else
      var sorted := SortByTopSnr(clusters);
      var flags := classify(Summaries(sorted));
      if FundamentalIndicesValid(flags, |sorted|) then Success(Fundamentals(sorted, flags))
      else Failure("IndexError: list index out of range")
  }

  /** What survives harmonic removal is sorted by decreasing top S/N and
      drawn, in order, from the sorted clusters. */
  lemma RemoveHarmonicsSorted(enabled: bool, numDetections: nat, clusters: seq<SearchCluster>,
                              classify: seq<ClusterSummary> -> seq<HarmonicFlag>)
    requires enabled && numDetections > 0
    requires RemoveHarmonics(enabled, numDetections, clusters, classify).Success?
    ensures var r := RemoveHarmonics(enabled, numDetections, clusters, classify).value;
      IsSubsequence(r, SortByTopSnr(clusters)) && SortedDesc(r, TopSnr) && |r| <= |clusters|
  {
    var sorted := SortByTopSnr(clusters);
    var r := Fundamentals(sorted, classify(Summaries(sorted)));
    SubsequenceSorted(r, sorted, TopSnr);
    SubsequenceMembers(r, sorted);
  }

  // ------------------------------------------------------------------ filters

  /** The two candidate filters. */
  datatype Criterion = DmAtLeast(bound: real) | SnrAtLeast(bound: real)

  predicate Meets(c: SearchCluster, k: Criterion)
  {
    match k
    case DmAtLeast(b) => TopDm(c) >= b
    case SnrAtLeast(b) => TopSnr(c) >= b
  }

  /** The filter function `_apply_candidate_filter` hands to `filter`. */
  function Test(k: Criterion): SearchCluster -> bool
  {
    c => Meets(c, k)
  }

  /** Python truthiness of an optional number: `None` and zero are false. */
  predicate Truthy(o: Option<real>)
  {
    o.Some? && o.value != 0.0
  }

  predicate TruthyInt(o: Option<int>)
  {
    o.Some? && o.value != 0
  }

  /** `s[:n]`: a negative `n` counts from the end. */
  function PySliceTo<T>(s: seq<T>, n: int): (r: seq<T>)
    ensures n >= 0 ==> |r| == Min(n, |s|)
    ensures n < 0 ==> |r| == if |s| + n > 0 then |s| + n else 0
    ensures r == s[..|r|]
  {
    if n >= 0 then s[..Min(n, |s|)]
    else if |s| + n > 0 then s[..|s| + n]
    else []
  }

  /** A cluster passes the thresholds that are switched on. */
  predicate Passes(c: SearchCluster, dmMin: Option<real>, snrMin: Option<real>)
  {
    && (Truthy(dmMin) ==> TopDm(c) >= dmMin.value)
    && (Truthy(snrMin) ==> TopSnr(c) >= snrMin.value)
  }

  /** The two threshold steps of `apply_candidate_filters`: the DM filter
      when `dm_min` is truthy, then the S/N filter when `snr_min` is. */
  function Thresholds(s: seq<SearchCluster>, dmMin: Option<real>, snrMin: Option<real>)
    : (r: seq<SearchCluster>)
    ensures |r| <= |s|
  {
    var a := if Truthy(dmMin) then FilterBy(s, Test(DmAtLeast(dmMin.value))) else s;
    if Truthy(snrMin) then FilterBy(a, Test(SnrAtLeast(snrMin.value))) else a
  }

  /** The thresholds keep, in order, exactly the clusters that pass them. */
  lemma ThresholdsSound(s: seq<SearchCluster>, dmMin: Option<real>, snrMin: Option<real>)
    ensures IsSubsequence(Thresholds(s, dmMin, snrMin), s)
    ensures forall x :: x in Thresholds(s, dmMin, snrMin) <==> x in s && Passes(x, dmMin, snrMin)
  {
    var a := if Truthy(dmMin) then FilterBy(s, Test(DmAtLeast(dmMin.value))) else s;
    SubsequenceReflexive(s);
    if Truthy(dmMin) {
      FilterBySubsequence(s, Test(DmAtLeast(dmMin.value)));
    }
    if Truthy(snrMin) {
      FilterBySubsequence(a, Test(SnrAtLeast(snrMin.value)));
      SubsequenceTransitive(Thresholds(s, dmMin, snrMin), a, s);
    }
    forall x
      ensures x in Thresholds(s, dmMin, snrMin) <==> x in s && Passes(x, dmMin, snrMin)
    {
      if Truthy(dmMin) {
        FilterByMembers(s, Test(DmAtLeast(dmMin.value)), x);
      }
      if Truthy(snrMin) {
        FilterByMembers(a, Test(SnrAtLeast(snrMin.value)), x);
      }
    }
  }

  /** With both thresholds switched on, applying the S/N threshold before
      the DM threshold changes nothing. */
  lemma ThresholdsOrder(s: seq<SearchCluster>, dm: real, snr: real)
    requires dm != 0.0 && snr != 0.0
    ensures Thresholds(s, Some(dm), Some(snr))
      == FilterBy(FilterBy(s, Test(SnrAtLeast(snr))), Test(DmAtLeast(dm)))
  {
    FilterByCommute(s, Test(DmAtLeast(dm)), Test(SnrAtLeast(snr)));
  }

  /** Sorting before filtering, as `apply_candidate_filters` does, gives the
      same list as filtering first and sorting afterwards. */
  lemma ThresholdsAfterSort(s: seq<SearchCluster>, dmMin: Option<real>, snrMin: Option<real>)
    ensures Thresholds(SortByTopSnr(s), dmMin, snrMin) == SortByTopSnr(Thresholds(s, dmMin, snrMin))
  {
    var a := if Truthy(dmMin) then FilterBy(s, Test(DmAtLeast(dmMin.value))) else s;
    if Truthy(dmMin) {
      FilterBySortDesc(s, Test(DmAtLeast(dmMin.value)), TopSnr);
    }
    if Truthy(snrMin) {
      FilterBySortDesc(a, Test(SnrAtLeast(snrMin.value)), TopSnr);
    }
  }

  /** `apply_candidate_filters`: sort by decreasing top S/N, apply the
      thresholds that are truthy, then keep `clusters[:max_number]` when
      `max_number` is truthy (a negative value drops that many from the end). */
  function ApplyCandidateFilters(clusters: seq<SearchCluster>, dmMin: Option<real>,
                                 snrMin: Option<real>, maxNumber: Option<int>)
    : (r: seq<SearchCluster>)
    ensures var passing := Thresholds(SortByTopSnr(clusters), dmMin, snrMin);
      && |r| <= |passing| && r == passing[..|r|]
      && (!TruthyInt(maxNumber) ==> r == passing)
      && (TruthyInt(maxNumber) && maxNumber.value > 0 ==> |r| == Min(maxNumber.value, |passing|))
      && (TruthyInt(maxNumber) && maxNumber.value < 0 ==>
            |r| == if |passing| + maxNumber.value > 0 then |passing| + maxNumber.value else 0)
  {
    var passing := Thresholds(SortByTopSnr(clusters), dmMin, snrMin);
    if TruthyInt(maxNumber) then PySliceTo(passing, maxNumber.value) else passing
  }

  /** The surviving clusters are drawn in order from the sorted clusters,
      stay sorted, and each passes the switched-on thresholds. */
  lemma ApplyCandidateFiltersSound(clusters: seq<SearchCluster>, dmMin: Option<real>,
                                   snrMin: Option<real>, maxNumber: Option<int>)
    ensures var r := ApplyCandidateFilters(clusters, dmMin, snrMin, maxNumber);
      && IsSubsequence(r, SortByTopSnr(clusters))
      && SortedDesc(r, TopSnr)
      && forall x :: x in r ==> x in clusters && Passes(x, dmMin, snrMin)
  {
    var sorted := SortByTopSnr(clusters);
    var passing := Thresholds(sorted, dmMin, snrMin);
    var r := ApplyCandidateFilters(clusters, dmMin, snrMin, maxNumber);
    ThresholdsSound(sorted, dmMin, snrMin);
    SubsequenceReflexive(passing);
    SubsequencePrefix(passing, passing, |r|);
    SubsequenceTransitive(r, passing, sorted);
    SubsequenceSorted(r, sorted, TopSnr);
    SubsequenceMembers(r, passing);
    forall x | x in r
      ensures x in clusters
    {
      assert x in multiset(sorted);
    }
  }

  /** The same list is obtained by thresholding first, then sorting, then
      truncating. */
  lemma ApplyCandidateFiltersFilterFirst(clusters: seq<SearchCluster>, dmMin: Option<real>,
                                         snrMin: Option<real>, maxNumber: Option<int>)
    ensures ApplyCandidateFilters(clusters, dmMin, snrMin, maxNumber)
      == var t := SortByTopSnr(Thresholds(clusters, dmMin, snrMin));
         if TruthyInt(maxNumber) then PySliceTo(t, maxNumber.value) else t
  {
    ThresholdsAfterSort(clusters, dmMin, snrMin);
  }

  /** Without truncation, a cluster survives the filters exactly when it
      passes the switched-on thresholds. */
  lemma FiltersComplete(clusters: seq<SearchCluster>, dmMin: Option<real>, snrMin: Option<real>,
                        maxNumber: Option<int>, x: SearchCluster)
    requires !TruthyInt(maxNumber)
    ensures x in ApplyCandidateFilters(clusters, dmMin, snrMin, maxNumber)
        <==> x in clusters && Passes(x, dmMin, snrMin)
  {
    var sorted := SortByTopSnr(clusters);
    ThresholdsSound(sorted, dmMin, snrMin);
    assert x in clusters <==> x in multiset(sorted);
  }

  // --------------------------------------------------------------- candidates

  /** The metadata of a built `Candidate` that the summary reports. */
  datatype Candidate = Candidate(bestPeriod: real, bestDm: real, bestWidth: int,
                                 bestDucy: real, bestSnr: real)

  function BestSnr(c: Candidate): real
  {
    c.bestSnr
  }

  /** The candidates whose construction succeeded, in cluster order.
      `build` stands for reloading the top detection's time series and
      `Candidate.from_pipeline_output`; `None` is a raised exception, which
      the loop catches and logs. */
  function Built(cs: seq<SearchCluster>, build: SearchCluster -> Option<Candidate>)
    : (r: seq<Candidate>)
    ensures |r| <= |cs|
  {
    if |cs| == 0 then [] else Own(cs[0], build) + Built(cs[1..], build)
  }

  /** The candidate built from one cluster, if any. */
  function Own(c: SearchCluster, build: SearchCluster -> Option<Candidate>): (r: seq<Candidate>)
    ensures |r| <= 1
  {
    if build(c).Some? then [build(c).value] else []
  }

  lemma {:induction false} BuiltAppend(a: seq<SearchCluster>, b: seq<SearchCluster>,
                                       build: SearchCluster -> Option<Candidate>)
    ensures Built(a + b, build) == Built(a, build) + Built(b, build)
  {
    if |a| == 0 {
      assert a + b == b;
    } else {
      assert (a + b)[0] == a[0];
      assert (a + b)[1..] == a[1..] + b;
      BuiltAppend(a[1..], b, build);
    }
  }

  /** A cluster whose build fails is skipped and does not affect the others. */
  lemma BuiltSkipsFailure(a: seq<SearchCluster>, c: SearchCluster, b: seq<SearchCluster>,
                          build: SearchCluster -> Option<Candidate>)
    requires build(c).None?
    ensures Built(a + [c] + b, build) == Built(a + b, build)
  {
    BuiltAppend(a + [c], b, build);
    BuiltAppend(a, [c], build);
    BuiltAppend(a, b, build);
    assert Built([c], build) == Own(c, build) + Built([], build);
  }

  /** Whether a cluster's candidate builds without raising. */
  function Buildable(build: SearchCluster -> Option<Candidate>): SearchCluster -> bool
  {
    c => build(c).Some?
  }

  /** Every built candidate comes from one of the clusters, and every
      cluster that builds contributes its candidate. */
  lemma {:induction false} BuiltFrom(cs: seq<SearchCluster>, build: SearchCluster -> Option<Candidate>)
    ensures forall x :: x in Built(cs, build) <==> exists c :: c in cs && build(c) == Some(x)
  {
    if |cs| > 0 {
      BuiltFrom(cs[1..], build);
      forall x
        ensures x in Built(cs, build) <==> exists c :: c in cs && build(c) == Some(x)
      {
        if x in Built(cs, build) {
          if x !in Built(cs[1..], build) {
            assert x in Own(cs[0], build);
            assert build(cs[0]) == Some(x);
          } else {
            var c :| c in cs[1..] && build(c) == Some(x);
            assert c in cs;
          }
        }
        if exists c :: c in cs && build(c) == Some(x) {
          var c :| c in cs && build(c) == Some(x);
          if c == cs[0] {
            assert x in Own(cs[0], build);
          } else {
            assert c in cs[1..];
          }
        }
      }
    }
  }

  /** The loop appends exactly the candidates of the clusters that build,
      in cluster order. */
  lemma {:induction false} BuiltInOrder(cs: seq<SearchCluster>, build: SearchCluster -> Option<Candidate>)
    ensures var ok := FilterBy(cs, Buildable(build));
      && |Built(cs, build)| == |ok|
      && forall k :: 0 <= k < |ok| ==> build(ok[k]).Some? && Built(cs, build)[k] == build(ok[k]).value
  {
    if |cs| > 0 {
      BuiltInOrder(cs[1..], build);
      var ok, rest := FilterBy(cs, Buildable(build)), FilterBy(cs[1..], Buildable(build));
      assert ok == Kept(cs[0], Buildable(build)) + rest;
      assert Built(cs, build) == Own(cs[0], build) + Built(cs[1..], build);
      if build(cs[0]).Some? {
        assert ok == [cs[0]] + rest;
        forall k | 0 < k < |ok|
          ensures build(ok[k]).Some? && Built(cs, build)[k] == build(ok[k]).value
        {
          assert ok[k] == rest[k - 1];
        }
      } else {
        assert ok == rest;
      }
    }
  }

  /** `build_candidates`: build what can be built, then sort by decreasing
      `best_snr` (stable). */
  function BuildCandidates(cs: seq<SearchCluster>, build: SearchCluster -> Option<Candidate>)
    : (r: seq<Candidate>)
    ensures |r| == |FilterBy(cs, Buildable(build))| <= |cs|
    ensures multiset(r) == multiset(Built(cs, build))
    ensures SortedDesc(r, BestSnr)
    ensures forall k :: WithKey(r, BestSnr, k) == WithKey(Built(cs, build), BestSnr, k)
  {
    BuiltInOrder(cs, build);
    SortDesc(Built(cs, build), BestSnr)
  }

  /** A candidate survives exactly when some cluster builds it. */
  lemma BuildCandidatesFrom(cs: seq<SearchCluster>, build: SearchCluster -> Option<Candidate>, x: Candidate)
    ensures x in BuildCandidates(cs, build) <==> exists c :: c in cs && build(c) == Some(x)
  {
    var r := BuildCandidates(cs, build);
    assert x in r <==> x in multiset(r);
    assert x in Built(cs, build) <==> x in multiset(Built(cs, build));
    BuiltFrom(cs, build);
  }

  /** Harmonic removal, the filters and the build together: at most one
      candidate per cluster found. */
  lemma CandidateCount(enabled: bool, numDetections: nat, clusters: seq<SearchCluster>,
                       classify: seq<ClusterSummary> -> seq<HarmonicFlag>,
                       dmMin: Option<real>, snrMin: Option<real>, maxNumber: Option<int>,
                       build: SearchCluster -> Option<Candidate>)
    requires RemoveHarmonics(enabled, numDetections, clusters, classify).Success?
    ensures var kept := RemoveHarmonics(enabled, numDetections, clusters, classify).value;
      var filtered := ApplyCandidateFilters(kept, dmMin, snrMin, maxNumber);
      |BuildCandidates(filtered, build)| <= |filtered| <= |kept| <= |clusters|
  {
    var kept := RemoveHarmonics(enabled, numDetections, clusters, classify).value;
    if enabled && numDetections > 0 {
      RemoveHarmonicsSorted(enabled, numDetections, clusters, classify);
    }
    var filtered := ApplyCandidateFilters(kept, dmMin, snrMin, maxNumber);
  }

  // ------------------------------------------------------------------ saving

  const CandidatePrefix := "riptide_cand"

  /** `"{:s}_{:04d}.h5".format(CANDIDATE_NAME_PREFIX, index)`. */
  function CandidateName(index: nat): (r: string)
    ensures StartsWith(r, CandidatePrefix + "_") && EndsWith(r, ".h5")
    ensures index < 10000 ==> |r| == 20
  {
    var r := CandidatePrefix + "_" + ZeroPad(index, 4) + ".h5";
    assert r[..13] == CandidatePrefix + "_";
    assert r[|r| - 3..] == ".h5";
    NatToStringLength(index);
    r
  }

  lemma {:induction false} NatToStringLength(n: nat)
    ensures n < 10 ==> |NatToString(n)| == 1
    ensures n < 100 ==> |NatToString(n)| <= 2
    ensures n < 1000 ==> |NatToString(n)| <= 3
    ensures n < 10000 ==> |NatToString(n)| <= 4
  {
    if n >= 10 {
      NatToStringLength(n / 10);
    }
  }

  /** The index can be read back from the name, so distinct indices give
      distinct names. */
  lemma CandidateNameIndex(index: nat)
    ensures var r := CandidateName(index);
      AllDigits(r[13..|r| - 3]) && DigitsValue(r[13..|r| - 3]) == index
  {
    var r := CandidateName(index);
    assert r[13..|r| - 3] == ZeroPad(index, 4);
  }

  lemma CandidateNameInjective(i: nat, j: nat)
    requires CandidateName(i) == CandidateName(j)
    ensures i == j
  {
    CandidateNameIndex(i);
    CandidateNameIndex(j);
  }

  /** One line of the candidate summary table. */
  datatype SummaryRow = SummaryRow(fname: string, period: real, dm: real, width: int,
                                   ducy: real, snr: real)

  datatype SavedOutput = SavedOutput(files: seq<(string, Candidate)>, summaryPath: string,
                                     rows: seq<SummaryRow>)

  /** `save_candidates`: nothing is written without candidates; otherwise
      candidate `k` (from 1) goes to `riptide_cand_kkkk.h5` in `outdir` and
      contributes the `k`-th summary row, written to `summary.csv`. */
  function SaveCandidates(cands: seq<Candidate>, outdir: string): (r: Option<SavedOutput>)
    ensures r.None? <==> |cands| == 0
    ensures r.Some? ==> |r.value.rows| == |cands| && |r.value.files| == |cands|
    ensures r.Some? ==> r.value.summaryPath == Paths.Join(outdir, "summary.csv")
    ensures r.Some? ==> forall k :: 0 <= k < |cands| ==>
      r.value.rows[k] == SummaryRow(CandidateName(k + 1), cands[k].bestPeriod, cands[k].bestDm,
                                    cands[k].bestWidth, cands[k].bestDucy, cands[k].bestSnr)
      && r.value.files[k] == (Paths.Join(outdir, CandidateName(k + 1)), cands[k])
  {
    if |cands| == 0 then None
    else
      var files := seq(|cands|, k requires 0 <= k < |cands| =>
        (Paths.Join(outdir, CandidateName(k + 1)), cands[k]));
      var rows := seq(|cands|, k requires 0 <= k < |cands| =>
        var md := cands[k];
        SummaryRow(CandidateName(k + 1), md.bestPeriod, md.bestDm, md.bestWidth, md.bestDucy, md.bestSnr));
      Some(SavedOutput(files, Paths.Join(outdir, "summary.csv"), rows))
  }

  /** The saved files have pairwise distinct names. */
  lemma SavedNamesDistinct(cands: seq<Candidate>, outdir: string, i: nat, j: nat)
    requires i < j < |cands|
    ensures var r := SaveCandidates(cands, outdir).value;
      r.rows[i].fname != r.rows[j].fname
  {
    if CandidateName(i + 1) == CandidateName(j + 1) {
      CandidateNameInjective(i + 1, j + 1);
    }
  }

  // ----------------------------------------------------------------- loaders

  datatype DataFormat = Presto | Sigproc

  /** `configure_loaders`: the configured format, stripped and lower-cased,
      selects the PRESTO or SIGPROC reader; anything else raises. */
  function ConfigureLoaders(fmt: string): (r: Result<DataFormat>)
    ensures r == Success(Presto) <==> LowerAscii(Strip(fmt)) == "presto"
    ensures r == Success(Sigproc) <==> LowerAscii(Strip(fmt)) == "sigproc"
    ensures r.Failure? <==> LowerAscii(Strip(fmt)) !in {"presto", "sigproc"}
  {
    var f := LowerAscii(Strip(fmt));
    if f == "presto" then Success(Presto)
    else if f == "sigproc" then Success(Sigproc)
    else Failure("Invalid data format")
  }

  /** Surrounding white space does not matter, and an unknown format is
      refused. */
  lemma ConfigureLoadersStrip(fmt: string)
    ensures ConfigureLoaders(Strip(fmt)) == ConfigureLoaders(fmt)
    ensures ConfigureLoaders("fits").Failure?
  {
    assert Strip("fits") == "fits";
    assert |LowerAscii("fits")| == 4;
  }
}

=== FILE: config.dfy ===
/** `CfgManager`: the pipeline and path variables derived from the parsed
    YAML configuration and the backend name. */
module Config {
  import opened Wrappers
  import opened Seqs
  import opened Text
  import Paths

  /** The parts of the parsed configuration the derivations read.  `dates`
      maps a backend to `str()` of its configured dates entry. */
  datatype Settings = Settings(cores: int, nodes: string, dates: map<string, string>,
                               storePath: string, pipelinePath: string)

  /** A configuration manager: the settings and the backend it serves. */
  datatype CfgManager = CfgManager(settings: Settings, backend: string)

  /** `[d.strip() for d in s.split(",")]`. */
  function CommaFields(s: string): (r: seq<string>)
    ensures |r| == Count(s, ',') + 1
    ensures forall i :: 0 <= i < |r| ==> r[i] == Strip(Split(s, ',')[i])
  {
    Map(Strip, Split(s, ','))
  }

  /** Fields written without commas or surrounding white space are
      recovered from their comma-joined form. */
  lemma CommaFieldsJoin(names: seq<string>)
    requires |names| > 0
    requires forall i :: 0 <= i < |names| ==> ',' !in names[i] && Strip(names[i]) == names[i]
    ensures CommaFields(Join(names, ',')) == names
  {
    SplitJoin(names, ',');
  }

  /** `nodes`: the node IDs, one per comma-separated field. */
  function Nodes(m: CfgManager): (r: seq<string>)
    ensures |r| == Count(m.settings.nodes, ',') + 1
    ensures forall i :: 0 <= i < |r| ==> r[i] == Strip(Split(m.settings.nodes, ',')[i])
  {
    CommaFields(m.settings.nodes)
  }

  /** `mach_config`: "single" with one node, "multiple" otherwise. */
  function MachConfig(m: CfgManager): (r: string)
    ensures r == "single" <==> |Nodes(m)| == 1
    ensures r == "single" || r == "multiple"
  {
    if |Nodes(m)| == 1 then "single" else "multiple"
  }

  /** One machine exactly when the configured node list has no comma. */
  lemma MachConfigSingle(m: CfgManager)
    ensures MachConfig(m) == "single" <==> ',' !in m.settings.nodes
  {
    CountZero(m.settings.nodes, ',');
  }

  const MaxDates := 5

  /** `analysis_dates`: the first five stripped comma fields of the
      backend's dates entry; a backend without an entry raises `KeyError`. */
  function AnalysisDates(m: CfgManager): (r: Result<seq<string>>)
    ensures r.Failure? <==> m.backend !in m.settings.dates
    ensures r.Success? ==>
      var fields := Split(m.settings.dates[m.backend], ',');
      && |r.value| == (if |fields| < MaxDates then |fields| else MaxDates)
      && forall i :: 0 <= i < |r.value| ==> r.value[i] == Strip(fields[i])
  {
    if m.backend !in m.settings.dates then Failure("KeyError: " + m.backend)
    else
      var dates := CommaFields(m.settings.dates[m.backend]);
      Success(if |dates| < MaxDates then dates else dates[..MaxDates])
  }

  /** `rstrip(os.path.sep)`. */
  function NoTrailingSeparator(p: string): (r: string)
    ensures StartsWith(p, r)
    ensures |r| > 0 ==> r[|r| - 1] != '/'
    ensures forall i :: |r| <= i < |p| ==> p[i] == '/'
  {
    TrimEnd(p, c => c == '/')
  }

  /** Removing trailing separators a second time changes nothing. */
  lemma NoTrailingSeparatorIdempotent(p: string)
    ensures NoTrailingSeparator(NoTrailingSeparator(p)) == NoTrailingSeparator(p)
  {
  }

  function StorePath(m: CfgManager): (r: string)
    ensures StartsWith(m.settings.storePath, r)
    ensures |r| > 0 ==> r[|r| - 1] != '/'
    ensures forall i :: |r| <= i < |m.settings.storePath| ==> m.settings.storePath[i] == '/'
  {
    NoTrailingSeparator(m.settings.storePath)
  }

  function PipelinePath(m: CfgManager): (r: string)
    ensures StartsWith(m.settings.pipelinePath, r)
    ensures |r| > 0 ==> r[|r| - 1] != '/'
    ensures forall i :: |r| <= i < |m.settings.pipelinePath| ==> m.settings.pipelinePath[i] == '/'
  {
    NoTrailingSeparator(m.settings.pipelinePath)
  }

  /** A directory of the pipeline: `os.path.join(pipeline_path, child)`;
      its parent directory is the pipeline path. */
  function PipelineChild(m: CfgManager, child: string): (r: string)
    requires |child| > 0 && '/' !in child
    ensures Paths.Dirname(r) == PipelinePath(m)
    ensures |PipelinePath(m)| > 0 ==> r == PipelinePath(m) + "/" + child
  {
    Paths.DirnameJoin(PipelinePath(m), child);
    assert !StartsWith(child, "/") by {
      assert child[0] in child;
    }
    Paths.Join(PipelinePath(m), child)
  }

  function ConfigurationsPath(m: CfgManager): string
  {
    PipelineChild(m, "configurations")
  }

  function ScriptsPath(m: CfgManager): string
  {
    PipelineChild(m, "src_scripts")
  }

  function PreprocessingPath(m: CfgManager): string
  {
    PipelineChild(m, "preprocessing")
  }

  function SourcesPath(m: CfgManager): string
  {
    PipelineChild(m, "sources")
  }

  /** A sibling of the store directory: `os.path.join(dirname(store_path), name)`;
      it shares the store directory's parent. */
  function StoreSibling(m: CfgManager, name: string): (r: string)
    requires |name| > 0 && '/' !in name
    ensures Paths.Dirname(r) == Paths.Dirname(StorePath(m))
    ensures EndsWith(r, name)
  {
    var parent := Paths.Dirname(StorePath(m));
    DirnameShape(StorePath(m));
    Paths.DirnameJoin(parent, name);
    Paths.Join(parent, name)
  }

  /** A directory name has no trailing separator unless it is the root. */
  lemma DirnameShape(p: string)
    ensures var d := Paths.Dirname(p);
      |d| == 0 || Paths.AllSlashes(d) || d[|d| - 1] != '/'
  {
  }

  function RfiPath(m: CfgManager): string
  {
    StoreSibling(m, "RFI")
  }

  function StatePath(m: CfgManager): string
  {
    StoreSibling(m, "state")
  }

  /** The RFI and state directories sit beside the store directory. */
  lemma RfiStateSiblings(m: CfgManager)
    ensures Paths.Dirname(RfiPath(m)) == Paths.Dirname(StatePath(m)) == Paths.Dirname(StorePath(m))
    ensures RfiPath(m) != StatePath(m)
  {
    var parent := Paths.Dirname(StorePath(m));
    var rfi, state := Paths.Join(parent, "RFI"), Paths.Join(parent, "state");
    assert rfi[|rfi| - 3..] == "RFI";
    assert state[|state| - 5..] == "state";
    assert rfi[|rfi| - 1] != state[|state| - 1];
  }

  /** A value of the `variables` dictionary. */
  datatype Variable = ListVar(items: seq<string>) | StrVar(s: string) | IntVar(i: int)

  /** `variables`: exactly the five pipeline variables. */
  function Variables(m: CfgManager): (r: Result<map<string, Variable>>)
    ensures r.Failure? <==> AnalysisDates(m).Failure?
    ensures r.Success? ==> r.value.Keys == {"nodes", "mach_config", "backend", "cores", "analysis_dates"}
    ensures r.Success? ==>
      && r.value["nodes"] == ListVar(Nodes(m))
      && r.value["mach_config"] == StrVar(MachConfig(m))
      && r.value["backend"] == StrVar(m.backend)
      && r.value["cores"] == IntVar(m.settings.cores)
      && r.value["analysis_dates"] == ListVar(AnalysisDates(m).value)
  {
    var dates := AnalysisDates(m);
    if dates.Failure? then Failure(dates.error)
    else Success(VariableMap(ListVar(Nodes(m)), StrVar(MachConfig(m)), StrVar(m.backend),
                             IntVar(m.settings.cores), ListVar(dates.value)))
  }

  /** The dictionary literal of `variables`, one entry per argument. */
  function VariableMap(nodes: Variable, machConfig: Variable, backend: Variable, cores: Variable,
                       dates: Variable): (r: map<string, Variable>)
    ensures r.Keys == {"nodes", "mach_config", "backend", "cores", "analysis_dates"}
    ensures && r["nodes"] == nodes && r["mach_config"] == machConfig && r["backend"] == backend
            && r["cores"] == cores && r["analysis_dates"] == dates
  {
    VariableKeysDistinct();
    map["nodes" := nodes, "mach_config" := machConfig, "backend" := backend,
        "cores" := cores, "analysis_dates" := dates]
  }

  lemma VariableKeysDistinct()
    ensures |"nodes"| == 5 && |"mach_config"| == 11 && |"backend"| == 7
    ensures |"cores"| == 5 && |"analysis_dates"| == 14
    ensures "nodes" != "cores"
  {
    assert "nodes"[0] != "cores"[0];
  }

  const PathKeys: set<string> := {
    "store_path", "pipeline_path", "configurations_path", "scripts_path",
    "preprocessing_path", "sources_path", "rfi_path", "state_path"}

  /** `paths`: exactly the eight path variables. */
  function PathTable(m: CfgManager): (r: map<string, string>)
    ensures r.Keys == PathKeys
  {
    PathMap(StorePath(m), PipelinePath(m), ConfigurationsPath(m), ScriptsPath(m),
            PreprocessingPath(m), SourcesPath(m), RfiPath(m), StatePath(m))
  }

  /** The dictionary literal of `paths`, one entry per argument. */
  function PathMap(store: string, pipeline: string, configurations: string, scripts: string,
                   preprocessing: string, sources: string, rfi: string, state: string): (r: map<string, string>)
    ensures r.Keys == PathKeys
    ensures && r["store_path"] == store && r["pipeline_path"] == pipeline
            && r["configurations_path"] == configurations && r["scripts_path"] == scripts
            && r["preprocessing_path"] == preprocessing && r["sources_path"] == sources
            && r["rfi_path"] == rfi && r["state_path"] == state
  {
    PathKeysDistinct();
    map[
      "store_path" := store,
      "pipeline_path" := pipeline,
      "configurations_path" := configurations,
      "scripts_path" := scripts,
      "preprocessing_path" := preprocessing,
      "sources_path" := sources,
      "rfi_path" := rfi,
      "state_path" := state]
  }

  lemma PathKeysDistinct()
    ensures |"store_path"| == 10 && |"pipeline_path"| == 13 && |"configurations_path"| == 19
    ensures |"scripts_path"| == 12 && |"preprocessing_path"| == 18 && |"sources_path"| == 12
    ensures |"rfi_path"| == 8 && |"state_path"| == 10
    ensures "store_path" != "state_path" && "scripts_path" != "sources_path"
  {
    assert "store_path"[2] != "state_path"[2] && "scripts_path"[1] != "sources_path"[1];
  }

  /** Every pipeline directory in the table lies directly under the
      pipeline path, and the RFI and state directories beside the store. */
  lemma PathTableLayout(m: CfgManager)
    ensures var t := PathTable(m);
      && t["store_path"] == StorePath(m) && t["pipeline_path"] == PipelinePath(m)
      && Paths.Dirname(t["configurations_path"]) == t["pipeline_path"]
      && Paths.Dirname(t["scripts_path"]) == t["pipeline_path"]
      && Paths.Dirname(t["preprocessing_path"]) == t["pipeline_path"]
      && Paths.Dirname(t["sources_path"]) == t["pipeline_path"]
      && Paths.Dirname(t["rfi_path"]) == Paths.Dirname(t["store_path"])
      && Paths.Dirname(t["state_path"]) == Paths.Dirname(t["store_path"])
  {
    PathTableEntries(m);
    RfiStateSiblings(m);
  }

  lemma PathTableEntries(m: CfgManager)
    ensures var t := PathTable(m);
      && t["store_path"] == StorePath(m) && t["pipeline_path"] == PipelinePath(m)
      && t["configurations_path"] == ConfigurationsPath(m) && t["scripts_path"] == ScriptsPath(m)
      && t["preprocessing_path"] == PreprocessingPath(m) && t["sources_path"] == SourcesPath(m)
      && t["rfi_path"] == RfiPath(m) && t["state_path"] == StatePath(m)
  {
  }
}

=== FILE: detections.dfy ===
/** Detections and detection clusters of the FFA search driver: the top
    detection of a cluster and its summary, the accumulation of detections
    batch after batch, the grouping of detections into clusters, and the
    gathering of every search's results into one list. */
module Detections {
  import opened Seqs
  import opened Grouping

  /** One periodogram peak found by `find_peaks`, with the `tobs` and `fname`
      entries of its metadata. */
  datatype Detection = Detection(period: real, dm: real, width: int, ducy: real, snr: real,
                                 tobs: real, fname: string)

  const NoDetection := Detection(0.0, 0.0, 0, 0.0, 0.0, 0.0, "")

  /** A `DetectionCluster`: the detections `cluster_1d` grouped together.
      Clusters are never empty because `cluster_1d` builds each group around
      at least one point. */
  type Cluster = members: seq<Detection> | |members| > 0 witness [NoDetection]

  /** An item together with the index of the `PulsarSearch` it came from
      (the `search` attribute set by `fetch_detections` / `fetch_clusters`). */
  datatype Tagged<T> = Tagged(item: T, search: nat)

  /** Index of the member `max(cluster, key=snr)` returns: the first member
      of largest S/N (a later member replaces the current best only when its
      S/N is strictly larger). */
  function TopIndex(c: seq<Detection>): (r: nat)
    requires |c| > 0
    ensures r < |c|
    ensures forall i :: 0 <= i < |c| ==> c[i].snr <= c[r].snr
    ensures forall i :: 0 <= i < r ==> c[i].snr < c[r].snr
  {
    if |c| == 1 then 0
    else
      var j := TopIndex(c[..|c| - 1]);
      assert forall i :: 0 <= i < |c| - 1 ==> c[..|c| - 1][i] == c[i];
      if c[|c| - 1].snr > c[j].snr then |c| - 1 else j
  }

  /** The two properties determine the index: it is the first maximum. */
  lemma TopIndexUnique(c: seq<Detection>, k: nat)
    requires k < |c|
    requires forall i :: 0 <= i < |c| ==> c[i].snr <= c[k].snr
    requires forall i :: 0 <= i < k ==> c[i].snr < c[k].snr
    ensures TopIndex(c) == k
  {
  }

  /** `DetectionCluster.top_detection`. */
  function TopDetection(c: Cluster): (d: Detection)
    ensures d in c
    ensures forall x :: x in c ==> x.snr <= d.snr
    ensures exists i :: 0 <= i < |c| && d == c[i] && forall j :: 0 <= j < i ==> c[j].snr < d.snr
  {
    var i := TopIndex(c);
    assert 0 <= i < |c| && c[i] == c[i] && forall j :: 0 <= j < i ==> c[j].snr < c[i].snr;
    c[i]
  }

  /** The dictionary `to_dict` returns. */
  datatype ClusterSummary = ClusterSummary(period: real, ducy: real, dm: real, snr: real,
                                           numDetections: nat)

  /** `DetectionCluster.to_dict`: the top detection's parameters and the
      cluster size. */
  function Summarize(c: Cluster): (s: ClusterSummary)
    ensures s.numDetections == |c|
    ensures exists i :: 0 <= i < |c| && c[i].snr == s.snr && c[i].dm == s.dm
                        && c[i].period == s.period && c[i].ducy == s.ducy
                        && forall j :: 0 <= j < i ==> c[j].snr < s.snr
    ensures forall x :: x in c ==> x.snr <= s.snr
  {
    var t := TopDetection(c);
    assert t == c[TopIndex(c)];
    ClusterSummary(t.period, t.ducy, t.dm, t.snr, |c|)
  }

  function TopSnr(c: Tagged<Cluster>): real
  {
    TopDetection(c.item).snr
  }

  function TopDm(c: Tagged<Cluster>): real
  {
    TopDetection(c.item).dm
  }

  /** `process_time_series_batch`: the detections of the batch's series, in
      batch order, appended after the stored ones.  `search` stands for the
      worker (`ffa_search` then `find_peaks`); `pool.map` keeps the order of
      the batch. */
  function AccumulateBatch<S>(stored: seq<Detection>, batch: seq<S>, search: S -> seq<Detection>)
    : (r: seq<Detection>)
    ensures |r| == |stored| + TotalLength(Map(search, batch))
    ensures r[..|stored|] == stored
    ensures r[|stored|..] == Flatten(Map(search, batch))
  {
    FlattenLength(Map(search, batch));
    stored + Flatten(Map(search, batch))
  }

  /** The loop of `run` for one search: every batch in turn. */
  function ProcessBatches<S>(stored: seq<Detection>, batches: seq<seq<S>>, search: S -> seq<Detection>)
    : (r: seq<Detection>)
    ensures |stored| <= |r| && r[..|stored|] == stored
    decreases |batches|
  {
    if |batches| == 0 then stored
    else
      var a := AccumulateBatch(stored, batches[0], search);
      var r := ProcessBatches(a, batches[1..], search);
      assert r[..|stored|] == r[..|a|][..|stored|] == a[..|stored|];
      r
  }

  lemma MapAppend<A, B>(f: A -> B, a: seq<A>, b: seq<A>)
    ensures Map(f, a + b) == Map(f, a) + Map(f, b)
  {
  }

  /** Processing batch after batch appends the detections of every series,
      in order: nothing is removed, duplicated or reordered. */
  lemma {:induction false} ProcessBatchesFlat<S>(stored: seq<Detection>, batches: seq<seq<S>>,
                                                 search: S -> seq<Detection>)
    ensures ProcessBatches(stored, batches, search) == stored + Flatten(Map(search, Flatten(batches)))
    decreases |batches|
  {
    if |batches| > 0 {
      var first, rest := batches[0], batches[1..];
      var next := AccumulateBatch(stored, first, search);
      ProcessBatchesFlat(next, rest, search);
      assert Flatten(batches) == first + Flatten(rest);
      AppendSearched(stored, first, Flatten(rest), search);
    }
  }

  lemma AppendSearched<S>(stored: seq<Detection>, a: seq<S>, b: seq<S>, search: S -> seq<Detection>)
    ensures (stored + Flatten(Map(search, a))) + Flatten(Map(search, b))
         == stored + Flatten(Map(search, a + b))
  {
    MapAppend(search, a, b);
    FlattenAppend(Map(search, a), Map(search, b));
  }

  /** The batch size (`num_processes`) does not change what a search
      accumulates. */
  lemma BatchSizeIrrelevant<S>(series: seq<S>, n: int, m: int, search: S -> seq<Detection>)
    requires n > 0 && m > 0
    ensures ProcessBatches([], Batches(series, n), search) == ProcessBatches([], Batches(series, m), search)
  {
    ProcessBatchesFlat([], Batches(series, n), search);
    ProcessBatchesFlat([], Batches(series, m), search);
  }

  predicate ValidGroups(groups: seq<seq<nat>>, n: nat)
  {
    forall k, m :: 0 <= k < |groups| && 0 <= m < |groups[k]| ==> groups[k][m] < n
  }

  predicate NonEmptyGroups(groups: seq<seq<nat>>)
  {
    forall k :: 0 <= k < |groups| ==> |groups[k]| > 0
  }

  /** `[dets[ii] for ii in indices]`. */
  function Pick(dets: seq<Detection>, indices: seq<nat>): (r: seq<Detection>)
    requires forall m :: 0 <= m < |indices| ==> indices[m] < |dets|
    ensures |r| == |indices|
    ensures forall m :: 0 <= m < |indices| ==> r[m] == dets[indices[m]]
  {
    if |indices| == 0 then [] else [dets[indices[0]]] + Pick(dets, indices[1..])
  }

  /** `cluster_detections`: with no stored detections the clusters stay as
      they were; otherwise cluster `k` holds the detections at the indices of
      the `k`-th group `cluster_1d` returned.  The groups are an input. */
  function ClusterDetections(dets: seq<Detection>, groups: seq<seq<nat>>, existing: seq<Cluster>)
    : (r: seq<Cluster>)
    requires ValidGroups(groups, |dets|) && NonEmptyGroups(groups)
    ensures |dets| == 0 ==> r == existing
    ensures |dets| > 0 ==> |r| == |groups|
    ensures |dets| > 0 ==> forall k :: 0 <= k < |groups| ==> r[k] == Pick(dets, groups[k])
    decreases |groups|
  {
    if |dets| == 0 then existing
    else if |groups| == 0 then []
    else
      assert forall m :: 0 <= m < |groups[0]| ==> groups[0][m] < |dets|;
      var c: Cluster := Pick(dets, groups[0]);
      [c] + ClusterDetections(dets, groups[1..], existing)
  }

  /** Clustering loses no member of any group: the cluster sizes add up to
      the group sizes (so to the number of detections whenever `cluster_1d`
      partitions them). */
  lemma {:induction false} ClusterDetectionsTotal(dets: seq<Detection>, groups: seq<seq<nat>>,
                                                  existing: seq<Cluster>)
    requires |dets| > 0
    requires ValidGroups(groups, |dets|) && NonEmptyGroups(groups)
    ensures TotalLength(ClusterDetections(dets, groups, existing)) == TotalLength(groups)
    decreases |groups|
  {
    if |groups| > 0 {
      var r := ClusterDetections(dets, groups, existing);
      ClusterDetectionsTotal(dets, groups[1..], existing);
      assert r[1..] == ClusterDetections(dets, groups[1..], existing);
    }
  }

  /** Items of one list, each tagged with that list's search index. */
  function Tag<T>(items: seq<T>, search: nat): (r: seq<Tagged<T>>)
    ensures |r| == |items|
    ensures forall i :: 0 <= i < |items| ==> r[i] == Tagged(items[i], search)
  {
    if |items| == 0 then [] else [Tagged(items[0], search)] + Tag(items[1..], search)
  }

  function FetchFrom<T>(lists: seq<seq<T>>, first: nat): (r: seq<Tagged<T>>)
    ensures |r| == TotalLength(lists)
    ensures forall i :: 0 <= i < |r| ==> first <= r[i].search < first + |lists|
  {
    if |lists| == 0 then []
    else
      var t, rest := Tag(lists[0], first), FetchFrom(lists[1..], first + 1);
      assert forall i :: |t| <= i < |t| + |rest| ==> (t + rest)[i] == rest[i - |t|];
      t + rest
  }

  /** `fetch_detections` / `fetch_clusters`: every search's list, in search
      order, each item tagged with its search. */
  function Fetch<T>(lists: seq<seq<T>>): (r: seq<Tagged<T>>)
    ensures |r| == TotalLength(lists)
    ensures forall i :: 0 <= i < |r| ==> r[i].search < |lists|
  {
    FetchFrom(lists, 0)
  }

  function Untag<T>(ts: seq<Tagged<T>>): (r: seq<T>)
    ensures |r| == |ts|
    ensures forall i :: 0 <= i < |ts| ==> r[i] == ts[i].item
  {
    if |ts| == 0 then [] else [ts[0].item] + Untag(ts[1..])
  }

  /** The items of `ts` tagged with search `s`, in order. */
  function OfSearch<T>(ts: seq<Tagged<T>>, s: nat): seq<T>
  {
    if |ts| == 0 then []
    else OwnTagged(ts[0], s) + OfSearch(ts[1..], s)
  }

  function OwnTagged<T>(t: Tagged<T>, s: nat): seq<T>
  {
    if t.search == s then [t.item] else []
  }

  lemma {:induction false} UntagAppend<T>(a: seq<Tagged<T>>, b: seq<Tagged<T>>)
    ensures Untag(a + b) == Untag(a) + Untag(b)
  {
    assert Untag(a + b) == Untag(a) + Untag(b);
  }

  lemma {:induction false} OfSearchAppend<T>(a: seq<Tagged<T>>, b: seq<Tagged<T>>, s: nat)
    ensures OfSearch(a + b, s) == OfSearch(a, s) + OfSearch(b, s)
  {
    if |a| == 0 {
      assert a + b == b;
    } else {
      assert (a + b)[0] == a[0];
      assert (a + b)[1..] == a[1..] + b;
      OfSearchAppend(a[1..], b, s);
    }
  }

  lemma {:induction false} OfSearchTag<T>(items: seq<T>, t: nat, s: nat)
    ensures OfSearch(Tag(items, t), s) == if t == s then items else []
  {
    if |items| > 0 {
      OfSearchTag(items[1..], t, s);
      assert Tag(items, t)[1..] == Tag(items[1..], t);
    }
  }

  /** Fetching loses nothing and adds nothing: without the tags it is the
      concatenation of the searches' lists. */
  lemma {:induction false} FetchUntag<T>(lists: seq<seq<T>>, first: nat)
    ensures Untag(FetchFrom(lists, first)) == Flatten(lists)
  {
    if |lists| > 0 {
      FetchUntag(lists[1..], first + 1);
      UntagAppend(Tag(lists[0], first), FetchFrom(lists[1..], first + 1));
      assert Untag(Tag(lists[0], first)) == lists[0];
    }
  }

  /** The items tagged with a search are exactly that search's list, in its
      order. */
  lemma {:induction false} FetchOfSearch<T>(lists: seq<seq<T>>, first: nat, s: nat)
    ensures OfSearch(FetchFrom(lists, first), s)
         == if first <= s < first + |lists| then lists[s - first] else []
  {
    if |lists| > 0 {
      var head, rest := Tag(lists[0], first), FetchFrom(lists[1..], first + 1);
      assert FetchFrom(lists, first) == head + rest;
      FetchOfSearch(lists[1..], first + 1, s);
      OfSearchAppend(head, rest, s);
      OfSearchTag(lists[0], first, s);
      if s == first {
        assert OfSearch(rest, s) == [];
        assert lists[0] + [] == lists[0];
      } else {
        assert OfSearch(head, s) == [];
        assert [] + OfSearch(rest, s) == OfSearch(rest, s);
      }
    }
  }
}

=== FILE: dm_selection.dfy ===
/** Choice of the DM trials a search processes: the DM limits, the greedy
    step thinning done by `iter_steps` / `step_iter`, and the assembly of
    the list of time-series files in `select_dm_trials`. */
module DmSelection {
  import opened Wrappers
  import opened Seqs
  import opened Sorting

  /** Relative tolerance that absorbs float rounding in the step test. */
  const RelativeTolerance: real := 0.0000001

  /** Two kept DM values must be at least this far apart. */
  function MinSeparation(step: real): real
  {
    step * (1.0 - RelativeTolerance)
  }

  predicate Ascending(s: seq<real>)
  {
    forall i, j :: 0 <= i < j < |s| ==> s[i] <= s[j]
  }

  function Neg(x: real): real
  {
    -x
  }

  lemma AscendingNeg(s: seq<real>)
    ensures Ascending(s) <==> SortedDesc(s, Neg)
  {
    assert forall i, j :: 0 <= i < j < |s| ==> (s[i] <= s[j] <==> Neg(s[i]) >= Neg(s[j]));
  }

  /** A subsequence of an ascending sequence ascends. */
  lemma SubsequenceAscending(a: seq<real>, b: seq<real>)
    requires IsSubsequence(a, b) && Ascending(b)
    ensures Ascending(a)
  {
    AscendingNeg(a);
    AscendingNeg(b);
    SubsequenceSorted(a, b, Neg);
  }

  /** `sorted(values)`: ascending order. */
  function SortAsc(s: seq<real>): (r: seq<real>)
    ensures multiset(r) == multiset(s)
    ensures Ascending(r)
  {
    var r := SortDesc(s, Neg);
    assert forall i, j :: 0 <= i < j < |r| ==> Neg(r[i]) >= Neg(r[j]);
    r
  }

  /** The numpy mask `(a >= vmin) & (a <= vmax)` applied to `s`. */
  function InRange(s: seq<real>, vmin: real, vmax: real): (r: seq<real>)
    ensures IsSubsequence(r, s)
    ensures forall x :: x in r <==> x in s && vmin <= x <= vmax
  {
    if |s| == 0 then []
    else if vmin <= s[0] <= vmax then
      var t := InRange(s[1..], vmin, vmax);
      assert [s[0]] + t == [s[0]] + t && ([s[0]] + t)[1..] == t;
      assert s == [s[0]] + s[1..];
      [s[0]] + t
    else
      var t := InRange(s[1..], vmin, vmax);
      SubsequenceWeaken(t, s[1..], s[0]);
      assert s == [s[0]] + s[1..];
      t
  }

  /** The loop of `iter_steps`: keep a value when nothing has been kept yet
      or when it lies at least `MinSeparation(step)` above the last kept one. */
  function Thin(xs: seq<real>, last: Option<real>, step: real): (r: seq<real>)
    ensures IsSubsequence(r, xs)
  {
    if |xs| == 0 then []
    else if last.None? || xs[0] - last.value >= MinSeparation(step) then
      assert ([xs[0]] + Thin(xs[1..], Some(xs[0]), step))[1..] == Thin(xs[1..], Some(xs[0]), step);
      [xs[0]] + Thin(xs[1..], Some(xs[0]), step)
    else
      SubsequenceWeaken(Thin(xs[1..], last, step), xs[1..], xs[0]);
      assert xs == [xs[0]] + xs[1..];
      Thin(xs[1..], last, step)
  }

  /** `iter_steps(values, vmin, vmax, step)` (identical to `step_iter`). */
  function StepIter(values: seq<real>, vmin: real, vmax: real, step: real): (r: seq<real>)
    ensures |r| <= |values|
  {
    var sorted := SortAsc(values);
    var xs := InRange(sorted, vmin, vmax);
    var r := Thin(xs, None, step);
    SubsequenceMembers(r, xs);
    SubsequenceMembers(xs, sorted);
    assert |sorted| == |multiset(sorted)| == |multiset(values)| == |values|;
    r
  }

  /** The last kept value (or the one preceding the thinning) is `C[j]`, the
      value `x` is less than a separation above it and below the next kept one. */
  predicate Covered(x: real, c: seq<real>, sep: real)
  {
    exists j :: 0 <= j < |c| && c[j] <= x < c[j] + sep && (j + 1 == |c| || x < c[j + 1])
  }

  lemma CoveredShift(x: real, p: seq<real>, c: seq<real>, sep: real)
    requires Covered(x, c, sep)
    ensures Covered(x, p + c, sep)
  {
    var j :| 0 <= j < |c| && c[j] <= x < c[j] + sep && (j + 1 == |c| || x < c[j + 1]);
    var pc := p + c;
    assert pc[j + |p|] == c[j];
    assert j + 1 < |c| ==> pc[j + 1 + |p|] == c[j + 1];
  }

  /** Each element lies at least `sep` above its predecessor. */
  predicate Separated(c: seq<real>, sep: real)
  {
    forall i :: 0 < i < |c| ==> c[i] - c[i - 1] >= sep
  }

  function Prefix(last: Option<real>): seq<real>
  {
    if last.Some? then [last.value] else []
  }

  /** Kept values are separated: each lies at least `MinSeparation(step)`
      above the one kept before it (and above `last`). */
  lemma {:induction false} ThinSeparated(xs: seq<real>, last: Option<real>, step: real)
    ensures Separated(Prefix(last) + Thin(xs, last, step), MinSeparation(step))
  {
    if |xs| > 0 {
      var r := Thin(xs, last, step);
      if last.None? || xs[0] - last.value >= MinSeparation(step) {
        ThinSeparated(xs[1..], Some(xs[0]), step);
        var c := Prefix(last) + r;
        var c' := Prefix(Some(xs[0])) + Thin(xs[1..], Some(xs[0]), step);
        var p := |Prefix(last)|;
        assert c == Prefix(last) + c';
        assert Separated(c', MinSeparation(step));
        forall i | 0 < i < |c|
          ensures c[i] - c[i - 1] >= MinSeparation(step)
        {
          if i > p {
            assert c[i] == c'[i - p] && c[i - 1] == c'[i - 1 - p];
          } else {
            assert c[i] == xs[0] && c[i - 1] == last.value;
          }
        }
      } else {
        ThinSeparated(xs[1..], last, step);
        assert r == Thin(xs[1..], last, step);
      }
    }
  }

  /** Greedy maximality: every value of an ascending input that is not kept
      lies less than `MinSeparation(step)` above the last value kept before
      it, and below the next kept value. */
  lemma {:induction false} ThinCovers(xs: seq<real>, last: Option<real>, step: real)
    requires Ascending(xs)
    requires last.Some? ==> forall k :: 0 <= k < |xs| ==> last.value <= xs[k]
    ensures var r := Thin(xs, last, step);
      forall k :: 0 <= k < |xs| ==> xs[k] in r || Covered(xs[k], Prefix(last) + r, MinSeparation(step))
  {
    if |xs| > 0 {
      if last.None? || xs[0] - last.value >= MinSeparation(step) {
        ThinCovers(xs[1..], Some(xs[0]), step);
        ThinCoversKept(xs, last, step);
      } else {
        ThinCovers(xs[1..], last, step);
        ThinCoversSkipped(xs, last, step);
      }
    }
  }

  /** The step of `ThinCovers` when the first value is kept. */
  lemma ThinCoversKept(xs: seq<real>, last: Option<real>, step: real)
    requires |xs| > 0 && (last.None? || xs[0] - last.value >= MinSeparation(step))
    requires var t := Thin(xs[1..], Some(xs[0]), step);
      forall k :: 0 <= k < |xs[1..]| ==> xs[1..][k] in t || Covered(xs[1..][k], [xs[0]] + t, MinSeparation(step))
    ensures var r := Thin(xs, last, step);
      forall k :: 0 <= k < |xs| ==> xs[k] in r || Covered(xs[k], Prefix(last) + r, MinSeparation(step))
  {
    var r := Thin(xs, last, step);
    var sep := MinSeparation(step);
    var x0 := xs[0];
    var t := Thin(xs[1..], Some(x0), step);
    assert r == [x0] + t;
    forall k | 0 <= k < |xs|
      ensures xs[k] in r || Covered(xs[k], Prefix(last) + r, sep)
    {
      if k > 0 {
        assert xs[k] == xs[1..][k - 1];
        if xs[k] !in t {
          assert Covered(xs[k], [x0] + t, sep);
          CoveredShift(xs[k], Prefix(last), [x0] + t, sep);
        }
      }
    }
  }

  /** The step of `ThinCovers` when the first value is skipped. */
  lemma ThinCoversSkipped(xs: seq<real>, last: Option<real>, step: real)
    requires Ascending(xs) && |xs| > 0 && last.Some? && xs[0] - last.value < MinSeparation(step)
    requires last.value <= xs[0]
    requires var t := Thin(xs[1..], last, step);
      forall k :: 0 <= k < |xs[1..]| ==> xs[1..][k] in t || Covered(xs[1..][k], Prefix(last) + t, MinSeparation(step))
    ensures var r := Thin(xs, last, step);
      forall k :: 0 <= k < |xs| ==> xs[k] in r || Covered(xs[k], Prefix(last) + r, MinSeparation(step))
  {
    var r := Thin(xs, last, step);
    assert r == Thin(xs[1..], last, step);
    forall k | 0 <= k < |xs|
      ensures xs[k] in r || Covered(xs[k], Prefix(last) + r, MinSeparation(step))
    {
      if k > 0 {
        assert xs[k] == xs[1..][k - 1];
      } else {
        ThinSkippedFirst(xs, last, step);
      }
    }
  }

  /** A skipped first value is covered by `last`. */
  lemma ThinSkippedFirst(xs: seq<real>, last: Option<real>, step: real)
    requires Ascending(xs) && |xs| > 0 && last.Some? && last.value <= xs[0]
    requires xs[0] - last.value < MinSeparation(step)
    ensures var r := Thin(xs[1..], last, step);
      xs[0] in r || Covered(xs[0], Prefix(last) + r, MinSeparation(step))
  {
    var r := Thin(xs[1..], last, step);
    var c := [last.value] + r;
    assert Prefix(last) + r == c;
    if xs[0] !in r && |r| > 0 {
      SubsequenceMembers(r, xs[1..]);
      assert r[0] in xs[1..];
      var m :| 0 <= m < |xs[1..]| && xs[1..][m] == r[0];
      assert xs[m + 1] == r[0];
      assert c[1] == r[0];
    }
    assert c[0] == last.value;
  }


  lemma ThinFirst(xs: seq<real>, step: real)
    requires |xs| > 0
    ensures |Thin(xs, None, step)| > 0 && Thin(xs, None, step)[0] == xs[0]
  {
  }

  /** What `iter_steps` promises: its values come from the input, lie in
      `[vmin, vmax]`, ascend, and are separated by `MinSeparation(step)`. */
  lemma StepIterSound(values: seq<real>, vmin: real, vmax: real, step: real)
    ensures var r := StepIter(values, vmin, vmax, step);
      && Ascending(r)
      && (forall v :: v in r ==> v in values && vmin <= v <= vmax)
      && Separated(r, MinSeparation(step))
  {
    var sorted := SortAsc(values);
    var xs := InRange(sorted, vmin, vmax);
    var r := Thin(xs, None, step);
    assert r == StepIter(values, vmin, vmax, step);
    SubsequenceMembers(r, xs);
    SubsequenceAscending(xs, sorted);
    SubsequenceAscending(r, xs);
    ThinSeparated(xs, None, step);
    assert Prefix(None) + r == r;
    forall v | v in r
      ensures v in values && vmin <= v <= vmax
    {
      assert v in xs;
      assert v in multiset(sorted);
    }
  }

  /** The smallest in-range value is always kept, first. */
  lemma StepIterKeepsFirst(values: seq<real>, vmin: real, vmax: real, step: real, v: real)
    requires v in values && vmin <= v <= vmax
    ensures var r := StepIter(values, vmin, vmax, step);
      |r| > 0 && r[0] <= v
      && (forall w :: w in values && vmin <= w <= vmax ==> r[0] <= w)
  {
    var sorted := SortAsc(values);
    var xs := InRange(sorted, vmin, vmax);
    assert v in multiset(values);
    assert v in xs;
    ThinFirst(xs, step);
    SubsequenceAscending(xs, sorted);
    forall w | w in values && vmin <= w <= vmax
      ensures xs[0] <= w
    {
      assert w in multiset(values);
      assert w in xs;
      var m :| 0 <= m < |xs| && xs[m] == w;
    }
  }

  /** Every in-range input value that is not kept lies less than
      `MinSeparation(step)` above the last value kept before it. */
  lemma StepIterCovers(values: seq<real>, vmin: real, vmax: real, step: real, v: real)
    requires v in values && vmin <= v <= vmax
    ensures var r := StepIter(values, vmin, vmax, step);
      v in r || Covered(v, r, MinSeparation(step))
  {
    var sorted := SortAsc(values);
    var xs := InRange(sorted, vmin, vmax);
    assert v in multiset(values);
    assert v in xs;
    SubsequenceAscending(xs, sorted);
    ThinCovers(xs, None, step);
    var k :| 0 <= k < |xs| && xs[k] == v;
    assert Prefix(None) + StepIter(values, vmin, vmax, step) == StepIter(values, vmin, vmax, step);
  }

  /** Smallest element of a non-empty list (`min`). */
  function SeqMin(s: seq<real>): (m: real)
    requires |s| > 0
    ensures m in s && forall x :: x in s ==> m <= x
  {
    if |s| == 1 then s[0]
    else
      var t := SeqMin(s[1..]);
      assert forall x :: x in s ==> x == s[0] || x in s[1..];
      if s[0] <= t then s[0] else t
  }

  /** Largest element of a non-empty list (`max`). */
  function SeqMax(s: seq<real>): (m: real)
    requires |s| > 0
    ensures m in s && forall x :: x in s ==> x <= m
  {
    if |s| == 1 then s[0]
    else
      var t := SeqMax(s[1..]);
      assert forall x :: x in s ==> x == s[0] || x in s[1..];
      if s[0] >= t then s[0] else t
  }

  /** `get_lower_dm_limit`: the user's `dm_min` when given, else the
      smallest DM trial; `min` of no trials raises. */
  function LowerDmLimit(trials: seq<real>, dmMin: Option<real>): (r: Result<real>)
    ensures dmMin.Some? ==> r == Success(dmMin.value)
    ensures dmMin.None? && |trials| == 0 ==> r.Failure?
    ensures dmMin.None? && |trials| > 0 ==>
      r.Success? && r.value in trials && forall t :: t in trials ==> r.value <= t
  {
    if dmMin.Some? then Success(dmMin.value)
    else if |trials| == 0 then Failure("ValueError: min() arg is an empty sequence")
    else Success(SeqMin(trials))
  }

  /** `get_upper_dm_limit`: the largest DM trial, lowered to `dm_max` and to
      the galactic limit derived from `dmsinb_max` when those are given.
      `galactic` stands for `get_galactic_dm_limit` at the observed latitude. */
  function UpperDmLimit(trials: seq<real>, dmMax: Option<real>, dmsinbMax: Option<real>,
                        galactic: real -> real): (r: Result<real>)
    ensures |trials| == 0 <==> r.Failure?
    ensures r.Success? ==>
      && r.value <= SeqMax(trials)
      && (dmMax.Some? ==> r.value <= dmMax.value)
      && (dmsinbMax.Some? ==> r.value <= galactic(dmsinbMax.value))
      && (r.value == SeqMax(trials)
          || (dmMax.Some? && r.value == dmMax.value)
          || (dmsinbMax.Some? && r.value == galactic(dmsinbMax.value)))
  {
    if |trials| == 0 then Failure("ValueError: max() arg is an empty sequence")
    else
      var top := SeqMax(trials);
      var capped := if dmMax.Some? then PyMin(top, dmMax.value) else top;
      Success(if dmsinbMax.Some? then PyMin(capped, galactic(dmsinbMax.value)) else capped)
  }

  /** Python's two-argument `min`: the first argument unless the second is smaller. */
  function PyMin(a: real, b: real): (r: real)
    ensures r <= a && r <= b && (r == a || r == b)
  {
    if b < a then b else a
  }

  /** The distinct values of `s` in order of first occurrence (the key order
      of a dict built from `s`). */
  function Distinct(s: seq<real>): (r: seq<real>)
    ensures forall x :: x in r <==> x in s
    ensures forall i, j :: 0 <= i < j < |r| ==> r[i] != r[j]
  {
    if |s| == 0 then []
    else
      var d := Distinct(s[..|s| - 1]);
      assert forall x :: x in s ==> x in s[..|s| - 1] || x == s[|s| - 1];
      assert forall x :: x in s[..|s| - 1] ==> x in s;
      if s[|s| - 1] in d then d else d + [s[|s| - 1]]
  }

  /** `{dm_getter(f): f for f in files}`: a later file with the same DM
      replaces an earlier one. */
  function DmTable(files: seq<string>, dmOf: string -> real): (t: map<real, string>)
    ensures forall v :: v in t ==> t[v] in files && dmOf(t[v]) == v
    ensures forall f :: f in files ==> dmOf(f) in t
  {
    if |files| == 0 then map[]
    else
      var init := files[..|files| - 1];
      var f := files[|files| - 1];
      assert forall g :: g in files ==> g in init || g == f;
      assert forall g :: g in init ==> g in files;
      DmTable(init, dmOf)[dmOf(f) := f]
  }

  /** The table keeps, for every DM, the last file carrying it. */
  lemma {:induction false} DmTableLastWins(files: seq<string>, dmOf: string -> real, i: nat)
    requires i < |files|
    requires forall j :: i < j < |files| ==> dmOf(files[j]) != dmOf(files[i])
    ensures DmTable(files, dmOf)[dmOf(files[i])] == files[i]
  {
    if i < |files| - 1 {
      var init := files[..|files| - 1];
      DmTableLastWins(init, dmOf, i);
    }
  }

  /** The files behind the selected DM values, `[dm_trials[v] for v in values]`. */
  function Lookup(values: seq<real>, table: map<real, string>): (r: seq<string>)
    requires forall i :: 0 <= i < |values| ==> values[i] in table
    ensures |r| == |values|
    ensures forall i :: 0 <= i < |values| ==> r[i] == table[values[i]]
  {
    if |values| == 0 then [] else [table[values[0]]] + Lookup(values[1..], table)
  }

  datatype DmConfig = DmConfig(dmMin: Option<real>, dmMax: Option<real>, dmStep: Option<real>,
                               dmsinbMax: Option<real>)

  /** The DM trial values read from `files` (the keys of the table). */
  function Trials(files: seq<string>, dmOf: string -> real): seq<real>
  {
    Distinct(Map(dmOf, files))
  }

  /** Selection once the limits are known: input files whose DMs are,
      in order, the `iter_steps` output over the DM trials. */
  function Select(files: seq<string>, dmOf: string -> real, lo: real, hi: real, step: real): (r: seq<string>)
    ensures forall f :: f in r ==> f in files
    ensures Map(dmOf, r) == StepIter(Trials(files, dmOf), lo, hi, step)
  {
    var table := DmTable(files, dmOf);
    var values := StepIter(Trials(files, dmOf), lo, hi, step);
    StepIterSound(Trials(files, dmOf), lo, hi, step);
    forall i | 0 <= i < |values|
      ensures values[i] in table
    {
      assert values[i] in values;
      var k :| 0 <= k < |Map(dmOf, files)| && Map(dmOf, files)[k] == values[i];
      assert files[k] in files;
    }
    var r := Lookup(values, table);
    assert Map(dmOf, r) == values;
    r
  }

  /** `select_dm_trials` as the code is written.  `files` is the sorted glob
      result; `dmOf` reads a file's DM from its header; `galactic` is the
      galactic DM limit at the first file's latitude.  The log line that
      formats the limits with `{:.3f}` raises `TypeError` for any `None`:
      with files the limits have been computed by then, without files they
      are still the configured values. */
  function SelectDmTrialsAsWritten(files: seq<string>, dmOf: string -> real, cfg: DmConfig,
                                   galactic: real -> real): (r: Result<seq<string>>)
    ensures |files| == 0 && (cfg.dmMin.None? || cfg.dmMax.None?) ==> r.Failure?
    ensures cfg.dmStep.None? ==> r.Failure?
  {
    if |files| > 0 then SelectWithFiles(files, dmOf, cfg, galactic)
    else if cfg.dmMin.None? || cfg.dmMax.None? || cfg.dmStep.None? then
      Failure("TypeError: unsupported format string passed to NoneType.__format__")
    else Success(Select(files, dmOf, cfg.dmMin.value, cfg.dmMax.value, cfg.dmStep.value))
  }

  /** The branch with at least one file: the limits come from the trials. */
  function SelectWithFiles(files: seq<string>, dmOf: string -> real, cfg: DmConfig,
                           galactic: real -> real): (r: Result<seq<string>>)
    requires |files| > 0
    ensures r.Failure? <==> cfg.dmStep.None?
  {
    var trials := Trials(files, dmOf);
    assert files[0] in files && dmOf(files[0]) == Map(dmOf, files)[0];
    var lo := LowerDmLimit(trials, cfg.dmMin);
    var hi := UpperDmLimit(trials, cfg.dmMax, cfg.dmsinbMax, galactic);
    if cfg.dmStep.None? then
      Failure("TypeError: unsupported format string passed to NoneType.__format__")
    else Success(Select(files, dmOf, lo.value, hi.value, cfg.dmStep.value))
  }

  /** `select_dm_trials` with the empty-directory case handled as the
      `if filenames:` guard intends: no files, no trials. */
  function SelectDmTrials(files: seq<string>, dmOf: string -> real, cfg: DmConfig,
                          galactic: real -> real): (r: Result<seq<string>>)
    ensures |files| == 0 && cfg.dmStep.Some? ==> r == Success([])
    ensures r.Failure? <==> cfg.dmStep.None?
    ensures |files| > 0 ==> r == SelectDmTrialsAsWritten(files, dmOf, cfg, galactic)
  {
    if |files| > 0 then SelectWithFiles(files, dmOf, cfg, galactic)
    else if cfg.dmStep.None? then
      Failure("TypeError: unsupported format string passed to NoneType.__format__")
    else Success([])
  }

  /** An empty directory with an unset `dm_min` makes the code as written raise. */
  lemma EmptyDirectoryRaises(dmOf: string -> real, galactic: real -> real)
    ensures SelectDmTrialsAsWritten([], dmOf, DmConfig(None, None, Some(2.0), None), galactic).Failure?
    ensures SelectDmTrials([], dmOf, DmConfig(None, None, Some(2.0), None), galactic) == Success([])
  {
  }

  /** The selected files: each is one of the inputs, and their DMs are the
      `iter_steps` output over the DM trials within the computed limits, so
      they ascend, lie within the limits and are separated by at least
      `MinSeparation(step)`. */
  lemma SelectDmTrialsSound(files: seq<string>, dmOf: string -> real, cfg: DmConfig,
                            galactic: real -> real)
    requires |files| > 0 && cfg.dmStep.Some?
    ensures var r := SelectDmTrials(files, dmOf, cfg, galactic);
      var trials := Trials(files, dmOf);
      var lo := LowerDmLimit(trials, cfg.dmMin).value;
      var hi := UpperDmLimit(trials, cfg.dmMax, cfg.dmsinbMax, galactic).value;
      && r.Success?
      && (forall f :: f in r.value ==> f in files && lo <= dmOf(f) <= hi)
      && Map(dmOf, r.value) == StepIter(trials, lo, hi, cfg.dmStep.value)
  {
    var trials := Trials(files, dmOf);
    assert files[0] in files && dmOf(files[0]) == Map(dmOf, files)[0];
    var lo := LowerDmLimit(trials, cfg.dmMin).value;
    var hi := UpperDmLimit(trials, cfg.dmMax, cfg.dmsinbMax, galactic).value;
    var values := StepIter(trials, lo, hi, cfg.dmStep.value);
    var r := Select(files, dmOf, lo, hi, cfg.dmStep.value);
    StepIterSound(trials, lo, hi, cfg.dmStep.value);
    forall f | f in r
      ensures lo <= dmOf(f) <= hi
    {
      var i :| 0 <= i < |r| && r[i] == f;
      assert values[i] == Map(dmOf, r)[i] && values[i] in values;
    }
  }
}

=== FILE: filterbank.dfy ===
/** The `Filterbank` container: where its outputs go, the header-template
    blank filling, the renaming of a raw file to its filterbank name, the
    zero-DM guard, the folding command and the metadata gathered by the
    processing stages. */
module Filterbank {
  import opened Wrappers
  import opened Text
  import Paths
  import opened Metas

  // ------------------------------------------------------------- output names

  /** A filterbank file and the places its outputs go. */
  datatype Filterbank = Filterbank(
    name: string, path: string, outputName: string,
    outputRfiPath: string, timeseriesPath: string,
    candsPath: string, foldPrfPath: string, arvPrfPath: string,
    attrs: map<string, Value>)

  /** A plain file name: non-empty and without separators. */
  predicate PlainName(name: string)
  {
    |name| > 0 && '/' !in name
  }

  /** `os.path.splitext(name)[0]`: never empty for a plain name. */
  function OutputName(name: string): (r: string)
    requires PlainName(name)
    ensures PlainName(r)
    ensures StartsWith(name, r)
    ensures name == r + Paths.SplitExt(name).1
  {
    var r := Paths.SplitExt(name).0;
    assert name == r + Paths.SplitExt(name).1;
    assert name[..|r|] == r;
    assert |r| > 0;
    assert forall i :: 0 <= i < |r| ==> r[i] == name[i];
    r
  }

  /** `Filterbank.__init__`: the output directories and the initial
      `_attrs_`. */
  function NewFilterbank(name: string, path: string, beamRfiPath: string, beamStatePath: string)
    : (f: Filterbank)
    requires PlainName(name)
    ensures f.name == name && f.path == path && f.outputName == OutputName(name)
    ensures f.attrs == map["fname" := StrValue(name)]
  {
    var out := OutputName(name);
    var ts := Paths.Join(beamStatePath, out);
    Filterbank(name, path, out,
      Paths.Join(beamRfiPath, out), ts,
      Paths.Join(ts, "candidates"), Paths.Join(ts, "folded_profiles"), Paths.Join(ts, "archived_profiles"),
      map["fname" := StrValue(name)])
  }

  /** The time series directory is named after the file, and the
      candidate, folded-profile and archived-profile directories lie
      directly inside it. */
  lemma NewFilterbankLayout(name: string, path: string, beamRfiPath: string, beamStatePath: string)
    requires PlainName(name)
    ensures var f := NewFilterbank(name, path, beamRfiPath, beamStatePath);
      && EndsWith(f.timeseriesPath, f.outputName) && EndsWith(f.outputRfiPath, f.outputName)
      && Paths.Dirname(f.candsPath) == f.timeseriesPath
      && Paths.Dirname(f.foldPrfPath) == f.timeseriesPath
      && Paths.Dirname(f.arvPrfPath) == f.timeseriesPath
  {
    var out := OutputName(name);
    var ts := Paths.Join(beamStatePath, out);
    JoinPlain(beamStatePath, out);
    JoinPlain(beamRfiPath, out);
    ChildrenOf(ts);
  }

  lemma ChildrenOf(ts: string)
    requires |ts| > 0 && ts[|ts| - 1] != '/'
    ensures Paths.Dirname(Paths.Join(ts, "candidates")) == ts
    ensures Paths.Dirname(Paths.Join(ts, "folded_profiles")) == ts
    ensures Paths.Dirname(Paths.Join(ts, "archived_profiles")) == ts
  {
    ChildOf(ts, "candidates");
    ChildOf(ts, "folded_profiles");
    ChildOf(ts, "archived_profiles");
  }

  lemma ChildOf(dir: string, child: string)
    requires PlainName(child) && |dir| > 0 && dir[|dir| - 1] != '/'
    ensures Paths.Dirname(Paths.Join(dir, child)) == dir
  {
    Paths.DirnameJoin(dir, child);
  }

  /** Joining a plain name gives a path that ends with it, hence not with
      a separator. */
  lemma JoinPlain(dir: string, child: string)
    requires PlainName(child)
    ensures var p := Paths.Join(dir, child);
      EndsWith(p, child) && |p| > 0 && p[|p| - 1] != '/'
  {
    assert !StartsWith(child, "/") by {
      assert child[0] in child;
    }
    var p := Paths.Join(dir, child);
    assert p[|p| - 1] == child[|child| - 1] by {
      assert p[|p| - |child|..] == child;
    }
    assert child[|child| - 1] in child;
  }

  // ------------------------------------------------------------ header blanks

  /** `fill_blank` for a blank name without regular-expression
      metacharacters, where `re.match` is a prefix test: a matching line
      gets the filler appended after a space. */
  function FillBlank(blank: string, line: string, filler: string): (r: string)
    ensures StartsWith(r, line)
    ensures StartsWith(line, blank) ==> |r| == |line| + 1 + |filler| && r[|line|..] == " " + filler
    ensures !StartsWith(line, blank) ==> r == line
  {
    if StartsWith(line, blank) then line + " " + filler else line
  }

  /** The blank names of the header template, in filling order. */
  const Blanks: seq<string> := ["Date", "MJD", "UTC", "Source", "Coordinates"]

  /** The values the blanks are filled with, already rendered with `str`. */
  datatype HeaderFields = HeaderFields(utcDate: string, mjd: string, utcTime: string,
                                       sourceId: string, coords: string)

  function Fillers(h: HeaderFields): (r: seq<string>)
    ensures |r| == |Blanks|
  {
    [h.utcDate, h.mjd, h.utcTime, h.sourceId, h.coords]
  }

  /** `for filler, blank in zip(fillers, blanks): string = fill_blank(...)`. */
  function FillAll(line: string, blanks: seq<string>, fillers: seq<string>): string
    decreases |blanks|
  {
    if |blanks| == 0 || |fillers| == 0 then line
    else FillAll(FillBlank(blanks[0], line, fillers[0]), blanks[1..], fillers[1..])
  }

  /** Non-empty blank names with pairwise different first characters: a
      line can start with at most one of them. */
  predicate DistinctHeads(blanks: seq<string>)
  {
    && (forall i :: 0 <= i < |blanks| ==> |blanks[i]| > 0)
    && (forall i, j :: 0 <= i < j < |blanks| ==> blanks[i][0] != blanks[j][0])
  }

  /** A line matching none of the blanks passes through unchanged. */
  lemma {:induction false} FillAllNone(line: string, blanks: seq<string>, fillers: seq<string>)
    requires forall i :: 0 <= i < |blanks| ==> !StartsWith(line, blanks[i])
    ensures FillAll(line, blanks, fillers) == line
    decreases |blanks|
  {
    if |blanks| > 0 && |fillers| > 0 {
      FillAllNone(line, blanks[1..], fillers[1..]);
    }
  }

  /** A line matching blank `k` is filled once, with filler `k`. */
  lemma {:induction false} FillAllMatch(line: string, blanks: seq<string>, fillers: seq<string>, k: nat)
    requires |fillers| == |blanks| && k < |blanks|
    requires DistinctHeads(blanks)
    requires StartsWith(line, blanks[k])
    ensures FillAll(line, blanks, fillers) == line + " " + fillers[k]
    decreases |blanks|
  {
    var filled := FillBlank(blanks[0], line, fillers[0]);
    assert line[0] == blanks[k][0];
    if k == 0 {
      forall i | 0 <= i < |blanks[1..]|
        ensures !StartsWith(filled, blanks[1..][i])
      {
        assert filled[0] == blanks[0][0] != blanks[i + 1][0];
      }
      FillAllNone(filled, blanks[1..], fillers[1..]);
    } else {
      assert blanks[0][0] != blanks[k][0];
      assert filled == line;
      FillAllMatch(line, blanks[1..], fillers[1..], k - 1);
    }
  }

  /** The filling of one template line. */
  function FillLine(line: string, h: HeaderFields): string
  {
    FillAll(line, Blanks, Fillers(h))
  }

  /** A template line is filled with the value of the one blank it starts
      with, or left as it is. */
  lemma FillLineCases(line: string, h: HeaderFields)
    ensures forall k :: 0 <= k < |Blanks| && StartsWith(line, Blanks[k]) ==>
      FillLine(line, h) == line + " " + Fillers(h)[k]
    ensures (forall k :: 0 <= k < |Blanks| ==> !StartsWith(line, Blanks[k])) ==> FillLine(line, h) == line
  {
    assert DistinctHeads(Blanks) by {
      assert Blanks[0][0] == 'D' && Blanks[1][0] == 'M' && Blanks[2][0] == 'U';
      assert Blanks[3][0] == 'S' && Blanks[4][0] == 'C';
    }
    forall k | 0 <= k < |Blanks| && StartsWith(line, Blanks[k])
      ensures FillLine(line, h) == line + " " + Fillers(h)[k]
    {
      FillAllMatch(line, Blanks, Fillers(h), k);
    }
    if forall k :: 0 <= k < |Blanks| ==> !StartsWith(line, Blanks[k]) {
      FillAllNone(line, Blanks, Fillers(h));
    }
  }

  /** The substitution loop of `fill_template`: every template line,
      stripped and filled, is written followed by a newline, in order. */
  function FillTemplate(template: seq<string>, h: HeaderFields): (r: seq<string>)
    ensures |r| == |template|
    ensures forall i :: 0 <= i < |r| ==> StartsWith(r[i], Strip(template[i]))
    ensures forall i :: 0 <= i < |r| ==> |r[i]| > 0 && r[i][|r[i]| - 1] == '\n'
  {
    seq(|template|, i requires 0 <= i < |template| =>
      FillTemplateLine(template[i], h))
  }

  function FillTemplateLine(line: string, h: HeaderFields): (r: string)
    ensures StartsWith(r, Strip(line)) && |r| > 0 && r[|r| - 1] == '\n'
  {
    var filled := FillLine(Strip(line), h);
    FillAllPrefix(Strip(line), Blanks, Fillers(h));
    StartsWithExtend(filled, Strip(line), "\n");
    filled + "\n"
  }

  lemma {:induction false} FillAllPrefix(line: string, blanks: seq<string>, fillers: seq<string>)
    ensures StartsWith(FillAll(line, blanks, fillers), line)
    decreases |blanks|
  {
    if |blanks| > 0 && |fillers| > 0 {
      var filled := FillBlank(blanks[0], line, fillers[0]);
      FillAllPrefix(filled, blanks[1..], fillers[1..]);
      var r := FillAll(filled, blanks[1..], fillers[1..]);
      assert r[..|line|] == r[..|filled|][..|line|];
    }
  }

  /** A template line without blanks is written back stripped. */
  lemma FillTemplateUnmatched(template: seq<string>, h: HeaderFields, i: nat)
    requires i < |template|
    requires forall k :: 0 <= k < |Blanks| ==> !StartsWith(Strip(template[i]), Blanks[k])
    ensures FillTemplate(template, h)[i] == Strip(template[i]) + "\n"
  {
    FillLineCases(Strip(template[i]), h);
  }

  // --------------------------------------------------------------- renaming

  lemma RawOverlapFree()
    ensures SelfOverlapFree(".raw")
  {
    assert ".raw"[1..] != ".raw"[..3] by { assert ".raw"[1..][0] == 'r'; }
    assert ".raw"[2..] != ".raw"[..2] by { assert ".raw"[2..][0] == 'a'; }
    assert ".raw"[3..] != ".raw"[..1] by { assert ".raw"[3..][0] == 'w'; }
  }

  /** ".raw" occurs in `s` once, as its extension. */
  predicate RawOnlySuffix(s: string)
  {
    EndsWith(s, ".raw") && forall i :: 0 <= i < |s| - 4 ==> !OccursAt(s, ".raw", i)
  }

  /** `name.replace(".raw", ext)`: a name ending in ".raw" ends in `ext`,
      and one whose only ".raw" is that ending keeps its stem. */
  function RenameRaw(s: string, ext: string): (r: string)
    ensures EndsWith(s, ".raw") ==> EndsWith(r, ext)
    ensures RawOnlySuffix(s) ==> r == s[..|s| - 4] + ext
  {
    RawOverlapFree();
    if EndsWith(s, ".raw") then
      ReplaceKeepsSuffix(s, ".raw", ext);
      if RawOnlySuffix(s) then
        var stem := s[..|s| - 4];
        assert s == stem + ".raw";
        ReplaceOnlySuffix(stem, ".raw", ext);
        Replace(s, ".raw", ext)
      else Replace(s, ".raw", ext)
    else Replace(s, ".raw", ext)
  }

  /** Backends whose filterbank files are not zero-DM filtered. */
  predicate UnfilteredBackend(backend: string)
  {
    backend == "GWB" || backend == "SIM"
  }

  /** The new extension after `make_fil`. */
  function FilExtension(backend: string): string
  {
    if UnfilteredBackend(backend) then ".fil" else ".zeroDM.fil"
  }

  /** `make_fil`'s renaming: only a ".raw" file is converted; its name and
      path take ".fil" (GWB, SIM) or ".zeroDM.fil" (any other backend). */
  function MakeFil(name: string, path: string, backend: string): (r: (string, string))
    ensures !EndsWith(name, ".raw") ==> r == (name, path)
    ensures EndsWith(name, ".raw") ==> EndsWith(r.0, FilExtension(backend))
    ensures EndsWith(name, ".raw") && EndsWith(path, ".raw") ==> EndsWith(r.1, FilExtension(backend))
    ensures EndsWith(name, ".raw") ==> EndsWith(r.0, ".fil")
    ensures RawOnlySuffix(name) ==> r.0 == name[..|name| - 4] + FilExtension(backend)
    ensures EndsWith(name, ".raw") && RawOnlySuffix(path) ==> r.1 == path[..|path| - 4] + FilExtension(backend)
  {
    if EndsWith(name, ".raw") then
      var ext := FilExtension(backend);
      var r := (RenameRaw(name, ext), RenameRaw(path, ext));
      assert EndsWith(ext, ".fil");
      assert r.0[|r.0| - 4..] == r.0[|r.0| - |ext|..][|ext| - 4..];
      r
    else (name, path)
  }

  /** `zeroDM_filtering` runs only for the GSB backend. */
  predicate ZeroDmApplies(backend: string)
  {
    backend == "GSB"
  }

  /** The file `zerodm` writes, `path.replace(".raw", ".zeroDM.fil")`. */
  function ZeroDmOutput(path: string): string
  {
    RenameRaw(path, ".zeroDM.fil")
  }

  /** For GSB data the renamed path is the zero-DM filtered file; for the
      other filtered-extension backends no such file is written. */
  lemma MakeFilUsesZeroDmOutput(name: string, path: string, backend: string)
    requires EndsWith(name, ".raw")
    ensures ZeroDmApplies(backend) ==> MakeFil(name, path, backend).1 == ZeroDmOutput(path)
    ensures UnfilteredBackend(backend) ==> !ZeroDmApplies(backend)
    ensures !UnfilteredBackend(backend) && !ZeroDmApplies(backend) ==>
      MakeFil(name, path, backend).1 == ZeroDmOutput(path)
  {
  }

  // ---------------------------------------------------------------- folding

  /** The folding parameters of the configuration, rendered with `str`. */
  datatype FoldingParams = FoldingParams(pd: string, pdd: string, numBins: string,
                                         nSubChan: string, nPart: string)

  /** `num_sub`: 256 sub-bands above a DM of 400, the configured number otherwise. */
  function NumSubbands(dm: real, params: FoldingParams): (r: string)
    ensures dm > 400.0 ==> r == "256"
    ensures dm <= 400.0 ==> r == params.nSubChan
  {
    if dm > 400.0 then "256" else params.nSubChan
  }

  /** The common arguments of the two `prepfold` commands before and after
      the `-slow` option. */
  function FoldHead(dmText: string, periodText: string, params: FoldingParams): seq<string>
  {
    ["prepfold", "-dm", dmText, "-p", periodText, "-pd", params.pd, "-pdd", params.pdd,
     "-nosearch", "-topo"]
  }

  function FoldTail(dm: real, dmText: string, params: FoldingParams, path: string, outputName: string)
    : seq<string>
  {
    ["-n", params.numBins, "-nsub", NumSubbands(dm, params), "-npart", params.nPart,
     "-noxwin", path, "-o", outputName + "_dm_" + dmText]
  }

  /** The argument list of `fold_candidate`'s `prepfold` command; periods
      of 1000 or more get the `-slow` option.  `dmText` and `periodText` are
      the `str` renderings of the candidate's DM and period. */
  function FoldArgs(dm: real, dmText: string, period: real, periodText: string,
                    params: FoldingParams, path: string, outputName: string): (r: seq<string>)
    ensures period >= 1000.0 ==> |r| == 22 && r[11] == "-slow"
    ensures period < 1000.0 ==> |r| == 21 && r[11] == "-n"
    ensures r[..11] == FoldHead(dmText, periodText, params)
    ensures r[|r| - 10..] == FoldTail(dm, dmText, params, path, outputName)
    ensures r[|r| - 7] == NumSubbands(dm, params)
  {
    var head := FoldHead(dmText, periodText, params);
    var tail := FoldTail(dm, dmText, params, path, outputName);
    if period >= 1000.0 then head + ["-slow"] + tail else head + tail
  }

  /** The slow and the ordinary command differ only in the `-slow` option. */
  lemma FoldArgsSlow(dm: real, dmText: string, slow: real, fast: real, periodText: string,
                     params: FoldingParams, path: string, outputName: string)
    requires slow >= 1000.0 > fast
    ensures var s := FoldArgs(dm, dmText, slow, periodText, params, path, outputName);
      var f := FoldArgs(dm, dmText, fast, periodText, params, path, outputName);
      s == f[..11] + ["-slow"] + f[11..]
  {
  }

  // ----------------------------------------------------------------- process

  /** The counts the processing stages record in `_attrs_`. */
  datatype StageCounts = StageCounts(procDmTrials: int, numCandidates: int,
                                     numFoldPrfs: int, numArvPrfs: int)

  /** `_attrs_` after `para_dedisp`, `fast_folding`, `fold_profiles` and
      `archive_profiles`, each adding its count. */
  function StageAttrs(f: Filterbank, c: StageCounts): (r: map<string, Value>)
    ensures r.Keys == f.attrs.Keys + {"proc_dm_trials", "num_candidates", "num_fold_prfs", "num_arv_prfs"}
    ensures forall k :: (k in f.attrs && k !in {"proc_dm_trials", "num_candidates", "num_fold_prfs", "num_arv_prfs"}
      ==> r[k] == f.attrs[k])
  {
    f.attrs["proc_dm_trials" := IntValue(c.procDmTrials)]
           ["num_candidates" := IntValue(c.numCandidates)]
           ["num_fold_prfs" := IntValue(c.numFoldPrfs)]
           ["num_arv_prfs" := IntValue(c.numArvPrfs)]
  }

  /** The outcome of `process`: the renamed file and its `Meta`. */
  datatype Processed = Processed(name: string, path: string, meta: map<string, Value>)

  /** `process` for a fresh `Filterbank`, given the counts of its stages:
      the file is renamed by `make_fil` and the `Meta` is built from the
      accumulated `_attrs_`.  Its `fname` is the name the file had before
      renaming. */
  function Process(name: string, path: string, beamRfiPath: string, beamStatePath: string,
                   backend: string, c: StageCounts): (r: Result<Processed>)
    requires PlainName(name)
    ensures r.Success?
    ensures r.value.meta.Keys == {"fname", "proc_dm_trials", "num_candidates", "num_fold_prfs", "num_arv_prfs"}
    ensures r.value.meta["fname"] == StrValue(name)
    ensures (r.value.name, r.value.path) == MakeFil(name, path, backend)
    ensures r.value.meta["num_candidates"] == IntValue(c.numCandidates)
    ensures r.value.meta["num_fold_prfs"] == IntValue(c.numFoldPrfs)
    ensures r.value.meta["num_arv_prfs"] == IntValue(c.numArvPrfs)
    ensures r.value.meta["proc_dm_trials"] == IntValue(c.procDmTrials)
  {
    var renamed := MakeFil(name, path, backend);
    var attrs := StageAttrs(NewFilterbank(name, path, beamRfiPath, beamStatePath), c);
    StageAttrsValues(NewFilterbank(name, path, beamRfiPath, beamStatePath), c);
    ProcessMeta(name, path, beamRfiPath, beamStatePath, c);
    Success(Processed(renamed.0, renamed.1, Finalise(attrs).value))
  }

  /** The stages add their four counts next to the file name. */
  lemma StageAttrsValues(f: Filterbank, c: StageCounts)
    requires f.attrs.Keys == {"fname"}
    ensures var attrs := StageAttrs(f, c);
      && attrs.Keys == {"fname", "proc_dm_trials", "num_candidates", "num_fold_prfs", "num_arv_prfs"}
      && attrs["fname"] == f.attrs["fname"]
      && attrs["proc_dm_trials"] == IntValue(c.procDmTrials)
      && attrs["num_candidates"] == IntValue(c.numCandidates)
      && attrs["num_fold_prfs"] == IntValue(c.numFoldPrfs)
      && attrs["num_arv_prfs"] == IntValue(c.numArvPrfs)
  {
    AttrsKeys();
  }

  /** The accumulated `_attrs_` of a fresh file already satisfy `Meta`:
      finalising them changes nothing. */
  lemma ProcessMeta(name: string, path: string, beamRfiPath: string, beamStatePath: string,
                    c: StageCounts)
    requires PlainName(name)
    ensures var attrs := StageAttrs(NewFilterbank(name, path, beamRfiPath, beamStatePath), c);
      Finalise(attrs) == Success(attrs)
  {
    var f := NewFilterbank(name, path, beamRfiPath, beamStatePath);
    StageAttrsValues(f, c);
    FinaliseAccepts(StageAttrs(f, c));
  }

  lemma AttrsKeys()
    ensures "fname" !in {"proc_dm_trials", "num_candidates", "num_fold_prfs", "num_arv_prfs"}
    ensures RequiredAttrs[0].0 == "fname" && RequiredAttrs[1].0 == "proc_dm_trials"
    ensures RequiredAttrs[2].0 == "num_candidates" && RequiredAttrs[3].0 == "num_fold_prfs"
    ensures RequiredAttrs[4].0 == "num_arv_prfs"
    ensures |"fname"| == 5 && |"proc_dm_trials"| == 14 && |"num_candidates"| == 14
    ensures |"num_fold_prfs"| == 13 && |"num_arv_prfs"| == 12
    ensures "proc_dm_trials" != "num_candidates"
  {
    assert "proc_dm_trials"[0] != "num_candidates"[0];
  }
}

=== FILE: grouping.dfy ===
/** The `grouper` recipe: `zip_longest(*[iter(xs)] * n, fillvalue=None)`
    with every `None` dropped from each group.  Both the search driver and
    the filterbank stage use it to cut work into batches. */
module Grouping {
  import opened Wrappers
  import opened Seqs

  /** The values of `xs` that are not `None`, in order. */
  function Somes<T>(xs: seq<Option<T>>): (r: seq<T>)
    ensures |r| <= |xs|
  {
    if |xs| == 0 then [] else AsList(xs[0]) + Somes(xs[1..])
  }

  /** The list comprehension's view of one position: kept or dropped. */
  function AsList<T>(o: Option<T>): (r: seq<T>)
    ensures |r| <= 1
  {
    if o.Some? then [o.value] else []
  }

  predicate NoneFree<T>(xs: seq<Option<T>>)
  {
    forall i :: 0 <= i < |xs| ==> xs[i].Some?
  }

  lemma {:induction false} SomesAppend<T>(a: seq<Option<T>>, b: seq<Option<T>>)
    ensures Somes(a + b) == Somes(a) + Somes(b)
  {
    if |a| == 0 {
      assert a + b == b;
    } else {
      assert (a + b)[0] == a[0];
      assert (a + b)[1..] == a[1..] + b;
      SomesAppend(a[1..], b);
    }
  }

  lemma {:induction false} SomesNoneFree<T>(xs: seq<Option<T>>)
    requires NoneFree(xs)
    ensures |Somes(xs)| == |xs|
  {
    if |xs| > 0 {
      SomesNoneFree(xs[1..]);
    }
  }

  /** Groups of `n` consecutive input positions, the last one possibly
      shorter, each with its `None` values removed.  A group whose positions
      all hold `None` is still produced, as an empty list.  With `n <= 0`
      there are no iterators to zip and nothing is produced. */
  function Grouper<T>(xs: seq<Option<T>>, n: int): (r: seq<seq<T>>)
    ensures forall i :: 0 <= i < |r| ==> |r[i]| <= n
    decreases |xs|
  {
    if n <= 0 || |xs| == 0 then []
    else if |xs| <= n then [Somes(xs)]
    else [Somes(xs[..n])] + Grouper(xs[n..], n)
  }

  /** Concatenating the groups gives back the input without its `None`
      values, in order. */
  lemma {:induction false} GrouperFlatten<T>(xs: seq<Option<T>>, n: int)
    requires n > 0
    ensures Flatten(Grouper(xs, n)) == Somes(xs)
    decreases |xs|
  {
    if |xs| > n {
      var g := Grouper(xs, n);
      GrouperFlatten(xs[n..], n);
      assert g[1..] == Grouper(xs[n..], n);
      SomesAppend(xs[..n], xs[n..]);
      assert xs[..n] + xs[n..] == xs;
    }
  }

  /** There are `ceil(|xs| / n)` groups, and none when `n <= 0`. */
  lemma {:induction false} GrouperCount<T>(xs: seq<Option<T>>, n: int)
    ensures n > 0 ==> |Grouper(xs, n)| == (|xs| + n - 1) / n
    ensures n <= 0 ==> |Grouper(xs, n)| == 0
    decreases |xs|
  {
    if n > 0 && |xs| > n {
      GrouperCount(xs[n..], n);
      DivStep(|xs| - 1, n);
    } else if n > 0 && |xs| == 0 {
      DivSmall(n - 1, n);
    } else if n > 0 {
      DivSmall(|xs| - 1, n);
      DivStep(|xs| - 1, n);
    }
  }

  lemma DivSmall(x: int, n: int)
    requires 0 <= x < n
    ensures x / n == 0
  {
    var q, r := x / n, x % n;
    assert x == q * n + r;
    MulSmall(q, n);
  }

  lemma DivStep(x: int, n: int)
    requires n > 0 && x >= 0
    ensures x / n + 1 == (x + n) / n
  {
    var q, r := x / n, x % n;
    var q2, r2 := (x + n) / n, (x + n) % n;
    assert x == q * n + r;
    assert x + n == q2 * n + r2;
    assert (q2 - q - 1) * n == r - r2;
    MulSmall(q2 - q - 1, n);
  }

  /** The only multiple of `n` strictly between `-n` and `n` is zero. */
  lemma MulSmall(k: int, n: int)
    requires n > 0 && -n < k * n < n
    ensures k == 0
  {
    if k > 0 {
      assert k * n == (k - 1) * n + n;
      MulNonneg(k - 1, n);
    } else if k < 0 {
      assert k * n == -((-k - 1) * n) - n;
      MulNonneg(-k - 1, n);
    }
  }

  lemma MulNonneg(a: int, b: int)
    requires a >= 0 && b >= 0
    ensures a * b >= 0
  {
  }

  /** On an input without `None`, every group but the last holds exactly
      `n` values and the last holds between 1 and `n`. */
  lemma {:induction false} GrouperSizes<T>(xs: seq<Option<T>>, n: int)
    requires n > 0 && NoneFree(xs)
    ensures var g := Grouper(xs, n);
      (forall i :: 0 <= i < |g| - 1 ==> |g[i]| == n)
      && (|g| > 0 ==> 0 < |g[|g| - 1]| <= n)
    decreases |xs|
  {
    var g := Grouper(xs, n);
    if |xs| > 0 && |xs| <= n {
      SomesNoneFree(xs);
    } else if |xs| > n {
      SomesNoneFree(xs[..n]);
      GrouperSizes(xs[n..], n);
      assert g[1..] == Grouper(xs[n..], n);
      GrouperCount(xs[n..], n);
    }
  }

  /** `grouper(items, n)` over a list of real items (file paths,
      candidates), none of which is `None`. */
  function Batches<T>(items: seq<T>, n: int): (r: seq<seq<T>>)
    ensures n > 0 ==> Flatten(r) == items
    ensures n > 0 ==> |r| == (|items| + n - 1) / n
    ensures n <= 0 ==> r == []
  {
    var xs := Map(x => Some(x), items);
    GrouperFlatten(xs, if n > 0 then n else 1);
    GrouperCount(xs, n);
    SomesOfMapped(items);
    Grouper(xs, n)
  }

  lemma {:induction false} SomesOfMapped<T>(items: seq<T>)
    ensures Somes(Map(x => Some(x), items)) == items
  {
    if |items| > 0 {
      SomesOfMapped(items[1..]);
      assert Map(x => Some(x), items)[1..] == Map(x => Some(x), items[1..]);
    }
  }

  /** Batches of a real list: all full except possibly the last, which is
      non-empty. */
  lemma BatchSizes<T>(items: seq<T>, n: int)
    requires n > 0
    ensures var b := Batches(items, n);
      (forall i :: 0 <= i < |b| - 1 ==> |b[i]| == n)
      && (|b| > 0 ==> 0 < |b[|b| - 1]| <= n)
  {
    GrouperSizes(Map(x => Some(x), items), n);
  }
}

=== FILE: ledger.dfy ===
/** The per-date worker: which files to process, the hidden history log
    ("ledger") of pickled records that lets a run resume, the human-readable
    file list, and the deletion of intermediate filterbank files. */
module Ledger {
  import opened Wrappers
  import opened Seqs
  import opened Text
  import opened Metas
  import FB = Filterbank

  /** A directory entry of the date directory. */
  datatype DataFile = DataFile(name: string, path: string)

  function HasExt(ext: string): DataFile -> bool
  {
    (f: DataFile) => EndsWith(f.name, ext)
  }

  /** `filter_by_ext(folder, extension=ext)` over the directory listing:
      the entries whose path ends with `ext`, in listing order. */
  function FilterByExt(dir: seq<DataFile>, ext: string): (r: seq<DataFile>)
    ensures IsSubsequence(r, dir)
    ensures forall f :: f in r <==> f in dir && EndsWith(f.name, ext)
  {
    FilterByExtMembers(dir, ext);
    FilterBy(dir, HasExt(ext))
  }

  lemma FilterByExtMembers(dir: seq<DataFile>, ext: string)
    ensures IsSubsequence(FilterBy(dir, HasExt(ext)), dir)
    ensures forall f :: f in FilterBy(dir, HasExt(ext)) <==> f in dir && EndsWith(f.name, ext)
  {
    FilterBySubsequence(dir, HasExt(ext));
    forall f
      ensures f in FilterBy(dir, HasExt(ext)) <==> f in dir && EndsWith(f.name, ext)
    {
      FilterByMembers(dir, HasExt(ext), f);
    }
  }

  /** `raw_or_fil`: ".raw" when there is raw data, else ".fil" when there
      are filterbank files, else `None`. */
  function RawOrFil(dir: seq<DataFile>): (r: Option<string>)
    ensures r == Some(".raw") <==> exists f :: f in dir && EndsWith(f.name, ".raw")
    ensures r == Some(".fil") <==>
      (forall f :: f in dir ==> !EndsWith(f.name, ".raw")) && exists f :: f in dir && EndsWith(f.name, ".fil")
    ensures r.None? <==> forall f :: f in dir ==> !EndsWith(f.name, ".raw") && !EndsWith(f.name, ".fil")
    ensures r.Some? ==> |FilterByExt(dir, r.value)| > 0
  {
    var raw := FilterByExt(dir, ".raw");
    var fil := FilterByExt(dir, ".fil");
    assert |raw| > 0 ==> raw[0] in raw;
    assert |fil| > 0 ==> fil[0] in fil;
    if |raw| > 0 then Some(".raw")
    else if |fil| > 0 then Some(".fil")
    else None
  }

  // ------------------------------------------------------------------ ledger

  /** A pickled record: the configuration (written first) or a `Meta`. */
  datatype Record = ConfigRecord | MetaRecord(meta: map<string, Value>)

  /** The hidden history log: missing (or failing to open), or the records
      it holds. */
  datatype LedgerFile = Absent | Present(records: seq<Record>)

  /** `unpickler`: the records in file order; nothing for a file that
      cannot be opened. */
  function Unpickle(l: LedgerFile): (r: seq<Record>)
    ensures l.Absent? ==> r == []
    ensures l.Present? ==> r == l.records
  {
    if l.Absent? then [] else l.records
  }

  /** `meta["fname"]` of one record. */
  function FnameOf(rec: Record): Result<Value>
  {
    match rec
    case ConfigRecord => Failure("TypeError: 'CfgManager' object is not subscriptable")
    case MetaRecord(m) => if "fname" in m then Success(m["fname"]) else Failure("KeyError: 'fname'")
  }

  /** `[meta["fname"] for meta in records]`. */
  function RecordedNames(records: seq<Record>): (r: Result<seq<Value>>)
    ensures r.Success? <==> forall i :: 0 <= i < |records| ==> FnameOf(records[i]).Success?
    ensures r.Success? ==>
      && |r.value| == |records|
      && forall i :: 0 <= i < |records| ==> r.value[i] == FnameOf(records[i]).value
  {
    if |records| == 0 then Success([])
    else
      var head := FnameOf(records[0]);
      var rest := RecordedNames(records[1..]);
      if head.Failure? then Failure(head.error)
      else if rest.Failure? then Failure(rest.error)
      else Success([head.value] + rest.value)
  }

  function NotRecorded(names: seq<Value>): DataFile -> bool
  {
    (f: DataFile) => StrValue(f.name) !in names
  }

  /** The files to process and the ledger contents before the first of them. */
  datatype Plan = Plan(files: seq<DataFile>, ledger: seq<Record>)

  /** The resume decision of the worker.  An absent or empty ledger means a
      run from scratch: every file, and the ledger is rewritten to hold the
      configuration alone.  Otherwise the first record is skipped and the
      files named by the remaining records are left out. */
  function Schedule(candidates: seq<DataFile>, ledger: LedgerFile): (r: Result<Plan>)
    ensures |Unpickle(ledger)| == 0 ==> r == Success(Plan(candidates, [ConfigRecord]))
    ensures |Unpickle(ledger)| > 0 ==> (r.Success? <==> RecordedNames(Unpickle(ledger)[1..]).Success?)
    ensures |Unpickle(ledger)| > 0 && r.Success? ==>
      && r.value.ledger == Unpickle(ledger)
      && IsSubsequence(r.value.files, candidates)
      && forall f :: f in r.value.files <==>
           f in candidates && StrValue(f.name) !in RecordedNames(Unpickle(ledger)[1..]).value
  {
    var records := Unpickle(ledger);
    if |records| == 0 then Success(Plan(candidates, [ConfigRecord]))
    else
      var names := RecordedNames(records[1..]);
      if names.Failure? then Failure(names.error)
      else
        var keep := NotRecorded(names.value);
        FilterBySubsequence(candidates, keep);
        assert forall f :: f in FilterBy(candidates, keep) <==>
          f in candidates && StrValue(f.name) !in names.value by {
          forall f
            ensures f in FilterBy(candidates, keep) <==> f in candidates && StrValue(f.name) !in names.value
          {
            FilterByMembers(candidates, keep, f);
          }
        }
        Success(Plan(FilterBy(candidates, keep), records))
  }

  /** A ledger holding only the configuration: every file is processed and
      the configuration is not written again. */
  lemma ScheduleConfigOnly(candidates: seq<DataFile>, first: Record)
    ensures Schedule(candidates, Present([first])) == Success(Plan(candidates, [first]))
  {
    var r := Schedule(candidates, Present([first]));
    assert RecordedNames([first][1..]) == Success([]);
    FilterByAll(candidates, NotRecorded([]));
  }

  /** A ledger naming every candidate leaves nothing to process and is
      kept as it is. */
  lemma ScheduleAllRecorded(candidates: seq<DataFile>, records: seq<Record>)
    requires |records| > 0 && RecordedNames(records[1..]).Success?
    requires forall f :: f in candidates ==> StrValue(f.name) in RecordedNames(records[1..]).value
    ensures Schedule(candidates, Present(records)) == Success(Plan([], records))
  {
    FilterByNone(candidates, NotRecorded(RecordedNames(records[1..]).value));
  }

  lemma {:induction false} FilterByNone<T>(s: seq<T>, p: T -> bool)
    requires forall x :: x in s ==> !p(x)
    ensures FilterBy(s, p) == []
  {
    if |s| > 0 {
      FilterByNone(s[1..], p);
      assert s[0] in s;
    }
  }

  lemma {:induction false} FilterByAll<T>(s: seq<T>, p: T -> bool)
    requires forall x :: x in s ==> p(x)
    ensures FilterBy(s, p) == s
  {
    if |s| > 0 {
      FilterByAll(s[1..], p);
      assert s == [s[0]] + s[1..];
    }
  }

  // -------------------------------------------------------------- the loop

  /** What the worker needs besides the ledger: the output directories, the
      backend and, for each data file, the outcome of `Filterbank.process()`
      on it, `None` when one of its external stages raises. */
  datatype Env = Env(beamRfiPath: string, beamStatePath: string, backend: string,
                     process: DataFile -> Option<FB.Processed>)

  /** The outcome of `Filterbank.process()` given the counts its stages
      report for each file (`None` when a stage raises). */
  function ProcessEnv(beamRfiPath: string, beamStatePath: string, backend: string,
                      counts: DataFile -> Option<FB.StageCounts>): Env
  {
    Env(beamRfiPath, beamStatePath, backend,
      (f: DataFile) =>
        if counts(f).Some? && FB.PlainName(f.name)
        then Some(FB.Process(f.name, f.path, beamRfiPath, beamStatePath, backend, counts(f).value).value)
        else None)
  }

  /** Every processed file's `Meta` names the file as it was listed. */
  ghost predicate KeepsNames(env: Env)
  {
    forall f :: env.process(f).Some? ==>
      "fname" in env.process(f).value.meta && env.process(f).value.meta["fname"] == StrValue(f.name)
  }

  /** `Filterbank.process()` records the name a file had before renaming. */
  lemma ProcessEnvKeepsNames(beamRfiPath: string, beamStatePath: string, backend: string,
                             counts: DataFile -> Option<FB.StageCounts>)
    ensures KeepsNames(ProcessEnv(beamRfiPath, beamStatePath, backend, counts))
  {
    var env := ProcessEnv(beamRfiPath, beamStatePath, backend, counts);
    forall f | env.process(f).Some?
      ensures "fname" in env.process(f).value.meta && env.process(f).value.meta["fname"] == StrValue(f.name)
    {
      var p := FB.Process(f.name, f.path, beamRfiPath, beamStatePath, backend, counts(f).value);
      assert env.process(f) == Some(p.value);
    }
  }

  /** The files the worker writes to. */
  datatype RunState = RunState(ledger: seq<Record>, filelist: seq<string>, deleted: seq<string>)

  /** The file removed after processing: the renamed file, when the run
      started from raw data and it is a filterbank file. */
  function Deletion(ext: string, p: FB.Processed): (r: seq<string>)
    ensures |r| <= 1
    ensures |r| == 1 <==> ext == ".raw" && EndsWith(p.path, ".fil")
    ensures |r| == 1 ==> r[0] == p.path
  {
    if ext == ".raw" && EndsWith(p.path, ".fil") then [p.path] else []
  }

  /** Number of files processed before the first that raises. */
  function FirstRaise(files: seq<DataFile>, process: DataFile -> Option<FB.Processed>): (k: nat)
    ensures k <= |files|
    ensures forall j :: 0 <= j < k ==> process(files[j]).Some?
    ensures k < |files| ==> process(files[k]).None?
  {
    if |files| == 0 || process(files[0]).None? then 0
    else 1 + FirstRaise(files[1..], process)
  }

  /** The ledger record of a processed file. */
  function MetaOf(f: DataFile, env: Env): Record
    requires env.process(f).Some?
  {
    MetaRecord(env.process(f).value.meta)
  }

  /** `for FILE in FILES`: each file whose processing returns appends its
      `Meta` to the ledger and its name to the file list; the first file
      that raises ends the loop with nothing written for it. */
  function ProcessFiles(files: seq<DataFile>, ext: string, st: RunState, env: Env)
    : (r: (RunState, bool))
    ensures var k := FirstRaise(files, env.process);
      && (r.1 <==> k < |files|)
      && |r.0.ledger| == |st.ledger| + k
      && |r.0.filelist| == |st.filelist| + k
      && |st.deleted| <= |r.0.deleted| <= |st.deleted| + k
    decreases |files|
  {
    if |files| == 0 then (st, false)
    else
      var f := files[0];
      match env.process(f)
      case None => (st, true)
      case Some(p) =>
        var next := RunState(st.ledger + [MetaRecord(p.meta)], st.filelist + [f.name],
                             st.deleted + Deletion(ext, p));
        ProcessFiles(files[1..], ext, next, env)
  }

  /** The loop only appends: what the files held before stays in place. */
  lemma {:induction false} ProcessFilesKeeps(files: seq<DataFile>, ext: string, st: RunState, env: Env)
    ensures var r := ProcessFiles(files, ext, st, env).0;
      && r.ledger[..|st.ledger|] == st.ledger
      && r.filelist[..|st.filelist|] == st.filelist
      && r.deleted[..|st.deleted|] == st.deleted
    decreases |files|
  {
    if |files| > 0 && env.process(files[0]).Some? {
      var f := files[0];
      var p := env.process(f).value;
      var next := RunState(st.ledger + [MetaRecord(p.meta)], st.filelist + [f.name],
                           st.deleted + Deletion(ext, p));
      ProcessFilesKeeps(files[1..], ext, next, env);
      var r := ProcessFiles(files[1..], ext, next, env).0;
      assert r.ledger[..|st.ledger|] == r.ledger[..|next.ledger|][..|st.ledger|];
      assert r.filelist[..|st.filelist|] == r.filelist[..|next.filelist|][..|st.filelist|];
      assert r.deleted[..|st.deleted|] == r.deleted[..|next.deleted|][..|st.deleted|];
    }
  }

  /** One `Meta` per processed file, in order, after what the ledger held
      before. */
  lemma {:induction false} ProcessFilesAppends(files: seq<DataFile>, ext: string, st: RunState, env: Env)
    ensures var r := ProcessFiles(files, ext, st, env).0;
      forall j :: 0 <= j < FirstRaise(files, env.process) ==> r.ledger[|st.ledger| + j] == MetaOf(files[j], env)
    decreases |files|
  {
    if |files| > 0 && env.process(files[0]).Some? {
      var f := files[0];
      var p := env.process(f).value;
      var next := RunState(st.ledger + [MetaRecord(p.meta)], st.filelist + [f.name],
                           st.deleted + Deletion(ext, p));
      ProcessFilesAppends(files[1..], ext, next, env);
      ProcessFilesKeeps(files[1..], ext, next, env);
      var r := ProcessFiles(files[1..], ext, next, env).0;
      forall j | 1 <= j < FirstRaise(files, env.process)
        ensures r.ledger[|st.ledger| + j] == MetaOf(files[j], env)
      {
        assert files[1..][j - 1] == files[j];
      }
      assert r.ledger[|st.ledger|] == r.ledger[..|next.ledger|][|st.ledger|];
    }
  }

  /** One file-list line per processed file, in order, after what the list
      held before. */
  lemma {:induction false} ProcessFilesNames(files: seq<DataFile>, ext: string, st: RunState, env: Env)
    ensures var r := ProcessFiles(files, ext, st, env).0;
      forall j :: 0 <= j < FirstRaise(files, env.process) ==> r.filelist[|st.filelist| + j] == files[j].name
    decreases |files|
  {
    if |files| > 0 && env.process(files[0]).Some? {
      var f := files[0];
      var p := env.process(f).value;
      var next := RunState(st.ledger + [MetaRecord(p.meta)], st.filelist + [f.name],
                           st.deleted + Deletion(ext, p));
      ProcessFilesNames(files[1..], ext, next, env);
      ProcessFilesKeeps(files[1..], ext, next, env);
      var r := ProcessFiles(files[1..], ext, next, env).0;
      forall j | 1 <= j < FirstRaise(files, env.process)
        ensures r.filelist[|st.filelist| + j] == files[j].name
      {
        assert files[1..][j - 1] == files[j];
      }
      assert r.filelist[|st.filelist|] == r.filelist[..|next.filelist|][|st.filelist|];
    }
  }

  /** Every record the loop appends names the file it was made for, which
      is what the next run compares with. */
  lemma AppendedNames(files: seq<DataFile>, ext: string, st: RunState, env: Env, j: nat)
    requires KeepsNames(env)
    requires j < FirstRaise(files, env.process)
    ensures var r := ProcessFiles(files, ext, st, env).0;
      FnameOf(r.ledger[|st.ledger| + j]) == Success(StrValue(files[j].name))
  {
    ProcessFilesAppends(files, ext, st, env);
  }

  // --------------------------------------------------------------- one date

  /** The result of processing one date: the ledger, the file list, the
      deleted files and the exception that ended the call, if any. */
  datatype RunOutcome = RunOutcome(ledger: LedgerFile, filelist: seq<string>, deleted: seq<string>,
                                   error: Option<string>)

  const UnboundStartTime := "UnboundLocalError: local variable 'start_time' referenced before assignment"

  /** A date with data of extension `ext`: schedule, then loop. */
  function RunWith(dir: seq<DataFile>, ext: string, ledger: LedgerFile, filelist: seq<string>, env: Env)
    : (r: RunOutcome)
    ensures var plan := Schedule(FilterByExt(dir, ext), ledger);
      plan.Failure? ==> r == RunOutcome(ledger, filelist, [], Some(plan.error))
    ensures r.error.None? ==> r.ledger.Present? && |r.ledger.records| > 0
  {
    var plan := Schedule(FilterByExt(dir, ext), ledger);
    if plan.Failure? then RunOutcome(ledger, filelist, [], Some(plan.error))
    else
      var (st, raised) := ProcessFiles(plan.value.files, ext, RunState(plan.value.ledger, filelist, []), env);
      RunOutcome(Present(st.ledger), st.filelist, st.deleted,
                 if raised then Some("exception raised by Filterbank.process()") else None)
  }

  lemma PlanLedgerNonEmpty(candidates: seq<DataFile>, ledger: LedgerFile)
    requires Schedule(candidates, ledger).Success?
    ensures |Schedule(candidates, ledger).value.ledger| > 0
  {
  }

  /** `PipelineWorker.__call__` as written: with neither raw nor filterbank
      data it reaches `end_time - start_time` with `start_time` unbound. */
  function RunDateAsWritten(dir: seq<DataFile>, ledger: LedgerFile, filelist: seq<string>, env: Env)
    : (r: RunOutcome)
    ensures RawOrFil(dir).None? ==> r == RunOutcome(ledger, filelist, [], Some(UnboundStartTime))
    ensures RawOrFil(dir).Some? ==> r == RunWith(dir, RawOrFil(dir).value, ledger, filelist, env)
  {
    var ext := RawOrFil(dir);
    if ext.None? then RunOutcome(ledger, filelist, [], Some(UnboundStartTime))
    else RunWith(dir, ext.value, ledger, filelist, env)
  }

  /** `__call__` with the timing confined to the branch that has data: a
      date without data leaves everything as it was and raises nothing. */
  function RunDate(dir: seq<DataFile>, ledger: LedgerFile, filelist: seq<string>, env: Env)
    : (r: RunOutcome)
    ensures RawOrFil(dir).None? ==> r == RunOutcome(ledger, filelist, [], None)
    ensures RawOrFil(dir).Some? ==> r == RunDateAsWritten(dir, ledger, filelist, env)
  {
    var ext := RawOrFil(dir);
    if ext.None? then RunOutcome(ledger, filelist, [], None)
    else RunWith(dir, ext.value, ledger, filelist, env)
  }

  /** An empty date directory makes the worker as written raise, where the
      corrected one finishes quietly. */
  lemma EmptyDateRaises(env: Env)
    ensures RunDateAsWritten([], Absent, [], env).error == Some(UnboundStartTime)
    ensures RunDate([], Absent, [], env).error.None?
  {
  }

  /** A run from scratch that raises nothing writes the configuration and
      then one `Meta` per data file, and lists every data file. */
  lemma FreshRun(dir: seq<DataFile>, ext: string, ledger: LedgerFile, filelist: seq<string>, env: Env)
    requires |Unpickle(ledger)| == 0
    requires RunWith(dir, ext, ledger, filelist, env).error.None?
    ensures var r := RunWith(dir, ext, ledger, filelist, env);
      var files := FilterByExt(dir, ext);
      && r.ledger.records[0] == ConfigRecord
      && |r.ledger.records| == 1 + |files|
      && |r.filelist| == |filelist| + |files|
      && r.filelist[..|filelist|] == filelist
      && forall j :: 0 <= j < |files| ==> r.filelist[|filelist| + j] == files[j].name
  {
    var files := FilterByExt(dir, ext);
    var st0 := RunState([ConfigRecord], filelist, []);
    RunWithFresh(dir, ext, ledger, filelist, env);
    var r := ProcessFiles(files, ext, st0, env).0;
    ProcessFilesNames(files, ext, st0, env);
    ProcessFilesKeeps(files, ext, st0, env);
    assert r.ledger[0] == r.ledger[..1][0];
  }

  /** From an empty ledger the loop starts on every file, after the
      configuration. */
  lemma RunWithFresh(dir: seq<DataFile>, ext: string, ledger: LedgerFile, filelist: seq<string>, env: Env)
    requires |Unpickle(ledger)| == 0
    ensures var res := ProcessFiles(FilterByExt(dir, ext), ext, RunState([ConfigRecord], filelist, []), env);
      RunWith(dir, ext, ledger, filelist, env)
        == RunOutcome(Present(res.0.ledger), res.0.filelist, res.0.deleted,
                      if res.1 then Some("exception raised by Filterbank.process()") else None)
  {
  }

  lemma MetaOfNamed(f: DataFile, env: Env)
    requires KeepsNames(env) && env.process(f).Some?
    ensures FnameOf(MetaOf(f, env)) == Success(StrValue(f.name))
  {
  }

  /** After a loop that raised nothing, the records after the first name
      every name recorded before it and every file it processed. */
  lemma NamesAfterLoop(before: seq<Record>, files: seq<DataFile>, ext: string, filelist: seq<string>, env: Env)
    requires KeepsNames(env)
    requires |before| > 0 && RecordedNames(before[1..]).Success?
    requires FirstRaise(files, env.process) == |files|
    ensures var after := ProcessFiles(files, ext, RunState(before, filelist, []), env).0.ledger;
      && RecordedNames(after[1..]).Success?
      && (forall x :: x in RecordedNames(before[1..]).value ==> x in RecordedNames(after[1..]).value)
      && (forall f :: f in files ==> StrValue(f.name) in RecordedNames(after[1..]).value)
  {
    var st := RunState(before, filelist, []);
    var after := ProcessFiles(files, ext, st, env).0.ledger;
    ProcessFilesKeeps(files, ext, st, env);
    forall j | 0 <= j < |files|
      ensures FnameOf(after[|before| + j]) == Success(StrValue(files[j].name))
    {
      AppendedNames(files, ext, st, env, j);
    }
    NamesOfExtension(before, after, files);
  }

  /** A ledger that extends `before` by one record per file, each naming its
      file, keeps every recorded name and adds the files' names. */
  lemma NamesOfExtension(before: seq<Record>, after: seq<Record>, files: seq<DataFile>)
    requires |before| > 0 && RecordedNames(before[1..]).Success?
    requires |after| == |before| + |files| && after[..|before|] == before
    requires forall j :: 0 <= j < |files| ==> FnameOf(after[|before| + j]) == Success(StrValue(files[j].name))
    ensures RecordedNames(after[1..]).Success?
    ensures forall x :: x in RecordedNames(before[1..]).value ==> x in RecordedNames(after[1..]).value
    ensures forall f :: f in files ==> StrValue(f.name) in RecordedNames(after[1..]).value
  {
    var n := |before|;
    forall i | 0 <= i < |after[1..]|
      ensures FnameOf(after[1..][i]).Success?
    {
      if i + 1 < n {
        assert after[1..][i] == after[..n][i + 1] == before[1..][i];
        assert FnameOf(before[1..][i]).Success?;
      } else {
        var j := i + 1 - n;
        assert after[1..][i] == after[n + j];
        assert FnameOf(after[n + j]) == Success(StrValue(files[j].name));
      }
    }
    var oldNames := RecordedNames(before[1..]).value;
    var names := RecordedNames(after[1..]).value;
    forall x | x in oldNames
      ensures x in names
    {
      var i :| 0 <= i < |oldNames| && oldNames[i] == x;
      assert after[1..][i] == after[..n][i + 1];
      assert names[i] == x;
    }
    forall f | f in files
      ensures StrValue(f.name) in names
    {
      var j :| 0 <= j < |files| && files[j] == f;
      assert after[1..][n + j - 1] == after[n + j];
      assert names[n + j - 1] == StrValue(f.name);
    }
  }

  /** Running a date again after a run that raised nothing processes no
      file and changes neither the ledger nor the file list: every data file
      is recorded under the name the next run compares. */
  lemma RerunProcessesNothing(dir: seq<DataFile>, ext: string, ledger: LedgerFile,
                              filelist: seq<string>, env: Env)
    requires KeepsNames(env)
    requires RunWith(dir, ext, ledger, filelist, env).error.None?
    ensures var first := RunWith(dir, ext, ledger, filelist, env);
      RunWith(dir, ext, first.ledger, first.filelist, env)
        == RunOutcome(first.ledger, first.filelist, [], None)
  {
    var files := FilterByExt(dir, ext);
    var plan := Schedule(files, ledger).value;
    var records := ProcessFiles(plan.files, ext, RunState(plan.ledger, filelist, []), env).0.ledger;
    assert RecordedNames(plan.ledger[1..]).Success? by {
      if |Unpickle(ledger)| == 0 {
        assert plan.ledger[1..] == [];
      }
    }
    NamesAfterLoop(plan.ledger, plan.files, ext, filelist, env);
    var names := RecordedNames(records[1..]).value;
    forall f | f in files
      ensures StrValue(f.name) in names
    {
      if f !in plan.files {
        assert StrValue(f.name) in RecordedNames(plan.ledger[1..]).value;
      }
    }
    ScheduleAllRecorded(files, records);
  }

  /** Files converted from raw data are deleted once processed, under the
      name `make_fil` gave them. */
  lemma DeletionRule(f: DataFile, backend: string, p: FB.Processed)
    requires EndsWith(f.name, ".raw") && EndsWith(f.path, ".raw")
    requires p.path == FB.MakeFil(f.name, f.path, backend).1
    ensures Deletion(".raw", p) == [p.path]
  {
    var ext := FB.FilExtension(backend);
    assert EndsWith(p.path, ext);
    assert p.path[|p.path| - 4..] == p.path[|p.path| - |ext|..][|ext| - 4..];
  }
}

=== FILE: metas.dfy ===
/** `Meta`: the dictionary that carries what is known about one observation
    through the pipeline.  Construction checks the required keys: each is
    either absent or `None` (and is then set to `None`) or holds a value of
    its declared type. */
module Metas {
  import opened Wrappers

  /** The Python values a `Meta` entry can hold, as far as `_finalise`'s type check cares. */
  datatype Value =
    | NoneValue
    | BoolValue(b: bool)
    | IntValue(i: int)
    | StrValue(s: string)
    | FloatValue(f: real)
    | OtherValue(typeName: string)

  /** The two types required keys may declare. */
  datatype PyType = StrType | IntType

  /** `type(val).__name__`. */
  function TypeName(v: Value): string
  {
    match v
    case NoneValue => "NoneType"
    case BoolValue(_) => "bool"
    case IntValue(_) => "int"
    case StrValue(_) => "str"
    case FloatValue(_) => "float"
    case OtherValue(n) => n
  }

  /** `req[key].__name__`. */
  function PyTypeName(t: PyType): string
  {
    match t
    case StrType => "str"
    case IntType => "int"
  }

  /** `isinstance(val, t)`: `bool` is a subclass of `int`. */
  predicate IsInstance(v: Value, t: PyType)
  {
    match t
    case StrType => v.StrValue?
    case IntType => v.IntValue? || v.BoolValue?
  }

  /** `_required_attrs_`, in declaration order. */
  const RequiredAttrs: seq<(string, PyType)> := [
    ("fname", StrType),
    ("proc_dm_trials", IntType),
    ("num_candidates", IntType),
    ("num_fold_prfs", IntType),
    ("num_arv_prfs", IntType)
  ]

  /** `self.get(key, None)`. */
  function Get(attrs: map<string, Value>, key: string): Value
  {
    if key in attrs then attrs[key] else NoneValue
  }

  /** `_finalise`'s type check accepts this requirement. */
  predicate Acceptable(attrs: map<string, Value>, req: (string, PyType))
  {
    Get(attrs, req.0).NoneValue? || IsInstance(Get(attrs, req.0), req.1)
  }

  function TypeError(key: string, t: PyType, v: Value): string
  {
    "Meta key '" + key + "' must have type '" + PyTypeName(t) + "' instead of '" + TypeName(v) + "'"
  }

  function KeysOf(req: seq<(string, PyType)>): set<string>
  {
    set i | 0 <= i < |req| :: req[i].0
  }

  /** The loop of `_finalise` over the requirements `req`, in order: a
      missing or `None` entry is set to `None`, a mistyped one raises. */
  function FinaliseFrom(attrs: map<string, Value>, req: seq<(string, PyType)>)
    : (r: Result<map<string, Value>>)
    ensures r.Success? <==> forall i :: 0 <= i < |req| ==> Acceptable(attrs, req[i])
    decreases |req|
  {
    if |req| == 0 then Success(attrs)
    else
      var key := req[0].0;
      var v := Get(attrs, key);
      if v.NoneValue? then
        var next := attrs[key := NoneValue];
        assert forall x :: Acceptable(next, x) == Acceptable(attrs, x);
        FinaliseFrom(next, req[1..])
      else if !IsInstance(v, req[0].1) then
        Failure(TypeError(key, req[0].1, v))
      else
        FinaliseFrom(attrs, req[1..])
  }

  lemma KeysOfCons(req: seq<(string, PyType)>)
    requires |req| > 0
    ensures KeysOf(req) == {req[0].0} + KeysOf(req[1..])
  {
    forall k | k in KeysOf(req)
      ensures k in {req[0].0} + KeysOf(req[1..])
    {
      var i :| 0 <= i < |req| && req[i].0 == k;
      if i > 0 {
        assert req[1..][i - 1].0 == k;
      }
    }
  }

  /** On success every key keeps its value, and the required keys that
      were missing are added as `None`. */
  lemma {:induction false} FinaliseFromValues(attrs: map<string, Value>, req: seq<(string, PyType)>)
    requires FinaliseFrom(attrs, req).Success?
    ensures var m := FinaliseFrom(attrs, req).value;
      && m.Keys == attrs.Keys + KeysOf(req)
      && (forall k :: k in attrs ==> m[k] == attrs[k])
      && (forall k :: k in KeysOf(req) && k !in attrs ==> m[k] == NoneValue)
    decreases |req|
  {
    if |req| > 0 {
      KeysOfCons(req);
      var key := req[0].0;
      if Get(attrs, key).NoneValue? {
        FinaliseFromValues(attrs[key := NoneValue], req[1..]);
      } else {
        FinaliseFromValues(attrs, req[1..]);
      }
    }
  }

  /** A failure reports the first requirement, in declaration order, that
      the attributes violate. */
  lemma {:induction false} FinaliseFromFailure(attrs: map<string, Value>, req: seq<(string, PyType)>)
    requires FinaliseFrom(attrs, req).Failure?
    ensures exists i :: (0 <= i < |req| && !Acceptable(attrs, req[i])
      && (forall j :: 0 <= j < i ==> Acceptable(attrs, req[j]))
      && FinaliseFrom(attrs, req).error == TypeError(req[i].0, req[i].1, Get(attrs, req[i].0)))
    decreases |req|
  {
    var key := req[0].0;
    var v := Get(attrs, key);
    if v.NoneValue? || IsInstance(v, req[0].1) {
      var next := if v.NoneValue? then attrs[key := NoneValue] else attrs;
      FinaliseFromFailure(next, req[1..]);
      var i :| 0 <= i < |req[1..]| && !Acceptable(next, req[1..][i])
        && (forall j :: 0 <= j < i ==> Acceptable(next, req[1..][j]))
        && FinaliseFrom(next, req[1..]).error
          == TypeError(req[1..][i].0, req[1..][i].1, Get(next, req[1..][i].0));
      FailureStep(attrs, req, next, i);
      assert FinaliseFrom(attrs, req) == FinaliseFrom(next, req[1..]);
      assert req[1..][i] == req[i + 1];
    } else {
      assert !Acceptable(attrs, req[0]);
    }
  }

  /** The first requirement the updated attributes violate after the head
      is the first the original attributes violate. */
  lemma FailureStep(attrs: map<string, Value>, req: seq<(string, PyType)>, next: map<string, Value>, i: nat)
    requires |req| > 0 && Acceptable(attrs, req[0])
    requires next == if Get(attrs, req[0].0).NoneValue? then attrs[req[0].0 := NoneValue] else attrs
    requires i < |req| - 1 && !Acceptable(next, req[1..][i])
    requires forall j :: 0 <= j < i ==> Acceptable(next, req[1..][j])
    ensures !Acceptable(attrs, req[i + 1]) && Get(next, req[i + 1].0) == Get(attrs, req[i + 1].0)
    ensures forall j :: 0 <= j < i + 1 ==> Acceptable(attrs, req[j])
  {
    var v := Get(attrs, req[0].0);
    forall j | 0 < j < i + 1
      ensures Acceptable(attrs, req[j])
    {
      assert req[j] == req[1..][j - 1];
      if v.NoneValue? {
        DefaultNone(attrs, req[0].0, req[j].0);
      }
    }
    assert req[i + 1] == req[1..][i];
    if v.NoneValue? {
      DefaultNone(attrs, req[0].0, req[i + 1].0);
    }
  }

  /** Storing `None` under a key that reads as `None` changes no read. */
  lemma DefaultNone(attrs: map<string, Value>, key: string, k: string)
    requires Get(attrs, key).NoneValue?
    ensures Get(attrs[key := NoneValue], k) == Get(attrs, k)
  {
  }

  /** Attributes that already hold every required key acceptably pass
      through unchanged. */
  lemma {:induction false} FinaliseFromIdentity(m: map<string, Value>, req: seq<(string, PyType)>)
    requires forall i :: 0 <= i < |req| ==> req[i].0 in m && Acceptable(m, req[i])
    ensures FinaliseFrom(m, req) == Success(m)
    decreases |req|
  {
    if |req| > 0 {
      var key := req[0].0;
      if m[key].NoneValue? {
        assert m[key := NoneValue] == m;
      }
      FinaliseFromIdentity(m, req[1..]);
    }
  }

  /** The value of `key` is present and may stand where an `int` is required. */
  predicate IntLike(m: map<string, Value>, key: string)
  {
    key in m && (m[key].IntValue? || m[key].BoolValue? || m[key].NoneValue?)
  }

  /** A `Meta` object: all five required keys are present, with values of
      their declared types or `None`.  These are exactly the dictionaries
      `_finalise` accepts unchanged (`IsMetaFinalised`). */
  predicate IsMeta(m: map<string, Value>)
  {
    && "fname" in m && (m["fname"].StrValue? || m["fname"].NoneValue?)
    && IntLike(m, "proc_dm_trials") && IntLike(m, "num_candidates")
    && IntLike(m, "num_fold_prfs") && IntLike(m, "num_arv_prfs")
  }

  /** A dictionary that already holds all five required keys with values of
      their declared types (or `None`) passes `_finalise`'s type check unchanged. */
  lemma FinaliseAccepts(m: map<string, Value>)
    requires IsMeta(m)
    ensures FinaliseFrom(m, RequiredAttrs) == Success(m)
  {
    forall i | 0 <= i < |RequiredAttrs|
      ensures RequiredAttrs[i].0 in m && Acceptable(m, RequiredAttrs[i])
    {
      if i == 0 {
        assert RequiredAttrs[0] == ("fname", StrType);
      } else if i == 1 {
        assert RequiredAttrs[1] == ("proc_dm_trials", IntType);
      } else if i == 2 {
        assert RequiredAttrs[2] == ("num_candidates", IntType);
      } else if i == 3 {
        assert RequiredAttrs[3] == ("num_fold_prfs", IntType);
      } else {
        assert RequiredAttrs[4] == ("num_arv_prfs", IntType);
      }
    }
    FinaliseFromIdentity(m, RequiredAttrs);
  }

  /** `Meta(attrs)`: the dictionary after `_finalise`, or the `ValueError`
      it raises. */
  function Finalise(attrs: map<string, Value>): (r: Result<map<string, Value>>)
    ensures r.Success? <==> forall i :: 0 <= i < |RequiredAttrs| ==> Acceptable(attrs, RequiredAttrs[i])
    ensures r.Success? ==> forall i :: 0 <= i < |RequiredAttrs| ==> RequiredAttrs[i].0 in r.value
    ensures r.Success? ==> forall k :: k in attrs ==> k in r.value && r.value[k] == attrs[k]
  {
    var r := FinaliseFrom(attrs, RequiredAttrs);
    if r.Success? then
      FinaliseFromValues(attrs, RequiredAttrs);
      assert forall i :: 0 <= i < |RequiredAttrs| ==> RequiredAttrs[i].0 in KeysOf(RequiredAttrs);
      r
    else r
  }
  /** A dictionary passes `_finalise` unchanged exactly when it is a `Meta`. */
  lemma IsMetaFinalised(m: map<string, Value>)
    ensures IsMeta(m) <==> Finalise(m) == Success(m)
  {
    if IsMeta(m) {
      FinaliseAccepts(m);
    }
    if Finalise(m) == Success(m) {
      assert RequiredAttrs[0].0 == "fname";
      assert RequiredAttrs[1].0 == "proc_dm_trials";
      assert RequiredAttrs[2].0 == "num_candidates";
      assert RequiredAttrs[3].0 == "num_fold_prfs";
      assert RequiredAttrs[4].0 == "num_arv_prfs";
      assert Acceptable(m, RequiredAttrs[0]);
      assert Acceptable(m, RequiredAttrs[1]);
      assert Acceptable(m, RequiredAttrs[2]);
      assert Acceptable(m, RequiredAttrs[3]);
      assert Acceptable(m, RequiredAttrs[4]);
    }
  }


  lemma RequiredKeys()
    ensures KeysOf(RequiredAttrs) == {"fname", "proc_dm_trials", "num_candidates", "num_fold_prfs", "num_arv_prfs"}
  {
    var keys := {"fname", "proc_dm_trials", "num_candidates", "num_fold_prfs", "num_arv_prfs"};
    forall k | k in KeysOf(RequiredAttrs)
      ensures k in keys
    {
      var i :| 0 <= i < |RequiredAttrs| && RequiredAttrs[i].0 == k;
      assert i == 0 || i == 1 || i == 2 || i == 3 || i == 4;
    }
    assert RequiredAttrs[0].0 in KeysOf(RequiredAttrs);
    assert RequiredAttrs[1].0 in KeysOf(RequiredAttrs);
    assert RequiredAttrs[2].0 in KeysOf(RequiredAttrs);
    assert RequiredAttrs[3].0 in KeysOf(RequiredAttrs);
    assert RequiredAttrs[4].0 in KeysOf(RequiredAttrs);
  }

  /** Without attributes, every required key is present and `None`. */
  lemma FinaliseEmpty()
    ensures Finalise(map[]) == Success(map[
      "fname" := NoneValue, "proc_dm_trials" := NoneValue, "num_candidates" := NoneValue,
      "num_fold_prfs" := NoneValue, "num_arv_prfs" := NoneValue])
  {
    var keys := {"fname", "proc_dm_trials", "num_candidates", "num_fold_prfs", "num_arv_prfs"};
    RequiredKeys();
    FinaliseFromValues(map[], RequiredAttrs);
    var m := Finalise(map[]).value;
    var expected := map[
      "fname" := NoneValue, "proc_dm_trials" := NoneValue, "num_candidates" := NoneValue,
      "num_fold_prfs" := NoneValue, "num_arv_prfs" := NoneValue];
    assert m.Keys == keys == expected.Keys;
    forall k | k in m
      ensures m[k] == expected[k]
    {
      assert expected[k] == NoneValue;
    }
  }

  /** A finalised dictionary passes `_finalise`'s type check again unchanged. */
  lemma FinaliseIdempotent(attrs: map<string, Value>)
    requires Finalise(attrs).Success?
    ensures Finalise(Finalise(attrs).value) == Finalise(attrs)
  {
    var m := Finalise(attrs).value;
    FinaliseFromValues(attrs, RequiredAttrs);
    forall i | 0 <= i < |RequiredAttrs|
      ensures RequiredAttrs[i].0 in m && Acceptable(m, RequiredAttrs[i])
    {
      var key := RequiredAttrs[i].0;
      assert key in KeysOf(RequiredAttrs);
      assert Acceptable(attrs, RequiredAttrs[i]);
    }
    FinaliseFromIdentity(m, RequiredAttrs);
  }

  /** A `bool` is accepted where an `int` is required, a `str` is not. */
  lemma FinaliseTypeCheck(attrs: map<string, Value>)
    requires "num_candidates" in attrs
    ensures attrs["num_candidates"].BoolValue? ==> Acceptable(attrs, RequiredAttrs[2])
    ensures attrs["num_candidates"].StrValue? ==> Finalise(attrs).Failure?
  {
    if attrs["num_candidates"].StrValue? {
      assert !Acceptable(attrs, RequiredAttrs[2]);
    }
  }
}

=== FILE: monitor.dfy ===
/** The monitor's summary of a date: the configuration description, a table
    header and one row per processed file, read back from the ledger. */
module Monitor {
  import opened Wrappers
  import opened Text
  import opened Metas
  import Ledger

  /** Python truthiness of a `Meta` value. */
  predicate Truthy(v: Value)
  {
    match v
    case NoneValue => false
    case BoolValue(b) => b
    case IntValue(i) => i != 0
    case StrValue(s) => |s| > 0
    case FloatValue(f) => f != 0.0
    case OtherValue(_) => true
  }

  /** The numeric reading of `bool`, `int` and `float` values. */
  function Numeric(v: Value): Option<real>
  {
    match v
    case BoolValue(b) => Some(if b then 1.0 else 0.0)
    case IntValue(i) => Some(i as real)
    case FloatValue(f) => Some(f)
    case _ => None
  }

  /** Python `==` between `Meta` values: numbers compare by value across
      `bool`, `int` and `float`; anything else compares structurally. */
  predicate PyEq(a: Value, b: Value)
  {
    if Numeric(a).Some? && Numeric(b).Some? then Numeric(a).value == Numeric(b).value
    else a == b
  }

  lemma PyEqSymmetric(a: Value, b: Value)
    ensures PyEq(a, b) <==> PyEq(b, a)
  {
  }

  const NotDone := "Not Done."
  const Done := "Done."
  const Incomplete := "Incomplete."

  /** The status of a stage that produced `count` items out of `expected`:
      not done when it produced nothing, done when the counts agree. */
  function Status(count: Value, expected: Value): (r: string)
    ensures r == NotDone || r == Done || r == Incomplete
    ensures r == NotDone <==> !Truthy(count)
    ensures r == Done <==> Truthy(count) && PyEq(expected, count)
  {
    if !Truthy(count) then NotDone
    else if PyEq(expected, count) then Done
    else Incomplete
  }

  /** For integer counts: done exactly when a non-zero count matches. */
  lemma StatusInts(count: int, expected: int)
    ensures Status(IntValue(count), IntValue(expected)) == NotDone <==> count == 0
    ensures Status(IntValue(count), IntValue(expected)) == Done <==> count != 0 && count == expected
    ensures Status(IntValue(count), IntValue(expected)) == Incomplete <==> count != 0 && count != expected
  {
  }

  /** The folding column: not done without folded profiles, done when
      every candidate was folded. */
  function FoldStatus(m: map<string, Value>): (r: string)
    requires IsMeta(m)
    ensures r == NotDone || r == Done || r == Incomplete
    ensures r == NotDone <==> !Truthy(m["num_fold_prfs"])
    ensures r == Done <==> Truthy(m["num_fold_prfs"]) && PyEq(m["num_candidates"], m["num_fold_prfs"])
  {
    Status(m["num_fold_prfs"], m["num_candidates"])
  }

  /** The archiving column: not done without archived profiles, done when
      every folded profile was archived. */
  function ArchiveStatus(m: map<string, Value>): (r: string)
    requires IsMeta(m)
    ensures r == NotDone || r == Done || r == Incomplete
    ensures r == NotDone <==> !Truthy(m["num_arv_prfs"])
    ensures r == Done <==> Truthy(m["num_arv_prfs"]) && PyEq(m["num_fold_prfs"], m["num_arv_prfs"])
  {
    Status(m["num_arv_prfs"], m["num_fold_prfs"])
  }

  /** A file whose candidates were all folded and all folds archived shows
      both stages done. */
  lemma AllStagesDone(m: map<string, Value>, n: int)
    requires IsMeta(m) && n != 0
    requires m["num_candidates"] == IntValue(n) && m["num_fold_prfs"] == IntValue(n)
    requires m["num_arv_prfs"] == IntValue(n)
    ensures FoldStatus(m) == Done && ArchiveStatus(m) == Done
  {
  }

  /** `str()` of the values an integer key of a `Meta` can hold. */
  function PyStr(v: Value): (r: string)
    requires v.IntValue? || v.BoolValue? || v.NoneValue?
    ensures v.IntValue? && v.i >= 0 ==> AllDigits(r) && DigitsValue(r) == v.i
  {
    match v
    case NoneValue => "None"
    case BoolValue(b) => if b then "True" else "False"
    case IntValue(i) => NatToStringValue(if i < 0 then -i else i); IntToString(i)
  }

  /** Widths of the row fields before the archive flag. */
  const NameWidth := 53
  const TrialsWidth := 13
  const CandidatesWidth := 13
  const FoldWidth := 16

  function PyStrOf(m: map<string, Value>, key: string): string
    requires IsMeta(m)
    requires key in {"proc_dm_trials", "num_candidates", "num_fold_prfs", "num_arv_prfs"}
  {
    PyStr(m[key])
  }

  /** One table row; formatting a `None` file name with a width raises. */
  function Row(m: map<string, Value>): (r: Result<string>)
    requires IsMeta(m)
    ensures r.Success? <==> m["fname"].StrValue?
    ensures r.Success? ==> StartsWith(r.value, m["fname"].s)
    ensures r.Success? ==> EndsWith(r.value, ArchiveStatus(m) + "\n")
  {
    var name := m["fname"];
    if !name.StrValue? then Failure("TypeError: unsupported format string passed to NoneType.__format__")
    else
      var a := LJust(name.s, NameWidth);
      var front := a + LJust(PyStrOf(m, "proc_dm_trials"), TrialsWidth)
        + LJust(PyStrOf(m, "num_candidates"), CandidatesWidth) + LJust(FoldStatus(m), FoldWidth);
      var tail := ArchiveStatus(m) + "\n";
      assert StartsWith(front, name.s) by {
        assert front[..|name.s|] == a[..|name.s|];
      }
      StartsWithExtend(front, name.s, tail);
      StartsWithAppend(front, tail);
      EndsWithAppend(front, tail, tail);
      Success(front + tail)
  }

  /** The pieces of a five-part concatenation sit at their running offsets. */
  lemma FiveParts(a: string, b: string, c: string, d: string, e: string)
    ensures var r := a + b + c + d + e;
      && r[|a|..|a| + |b|] == b
      && r[|a| + |b|..|a| + |b| + |c|] == c
      && r[|a| + |b| + |c|..|a| + |b| + |c| + |d|] == d
      && r[|a| + |b| + |c| + |d|..] == e
  {
    var r := a + b + c + d + e;
    assert r == a + (b + (c + (d + e)));
  }

  /** Fields that fit their widths start at fixed columns: the DM trials
      at 53, the candidates at 66, the fold status at 79 and the archive
      status at 95. */
  lemma RowColumns(m: map<string, Value>)
    requires IsMeta(m) && m["fname"].StrValue?
    requires |m["fname"].s| <= NameWidth
    requires |PyStrOf(m, "proc_dm_trials")| <= TrialsWidth
    requires |PyStrOf(m, "num_candidates")| <= CandidatesWidth
    ensures var r := Row(m).value;
      && |r| == 95 + |ArchiveStatus(m)| + 1
      && r[53..66] == LJust(PyStrOf(m, "proc_dm_trials"), TrialsWidth)
      && r[66..79] == LJust(PyStrOf(m, "num_candidates"), CandidatesWidth)
      && r[79..95] == LJust(FoldStatus(m), FoldWidth)
      && r[95..] == ArchiveStatus(m) + "\n"
  {
    var a := LJust(m["fname"].s, NameWidth);
    var b := LJust(PyStrOf(m, "proc_dm_trials"), TrialsWidth);
    var c := LJust(PyStrOf(m, "num_candidates"), CandidatesWidth);
    var d := LJust(FoldStatus(m), FoldWidth);
    var e := ArchiveStatus(m) + "\n";
    var r := Row(m).value;
    assert r == a + b + c + d + e;
    assert |a| == 53 && |b| == 13 && |c| == 13 && |d| == 16;
    FiveParts(a, b, c, d, e);
  }

  /** The table header; its columns start at 0, 51, 63, 75 and 91. */
  function Header(): (r: string)
    ensures |r| == 91 + |"Archiving Status"| + 2
    ensures r[51..60] == "DM trials" && r[63..73] == "Candidates"
    ensures r[75..89] == "Folding Status" && r[91..107] == "Archiving Status"
    ensures EndsWith(r, "\n\n")
  {
    var a := LJust("Filename", 50) + " ";
    var b := LJust("DM trials", 11) + " ";
    var c := LJust("Candidates", 11) + " ";
    var d := LJust("Folding Status", 15) + " ";
    var e := "Archiving Status" + "\n\n";
    var r := a + b + c + d + e;
    assert |a| == 51 && |b| == 12 && |c| == 12 && |d| == 16;
    FiveParts(a, b, c, d, e);
    assert r[51..60] == r[51..63][..9] == b[..9];
    assert r[63..73] == r[63..75][..10] == c[..10];
    assert r[75..89] == r[75..91][..14] == d[..14];
    assert r[91..107] == r[91..][..16] == e[..16];
    r
  }

  /** The configuration part of the record, from the rendered settings. */
  function Description(nodes: string, machConfig: string, dates: string, cores: string,
                       dmLowest: string, dmHighest: string, numDms: string): (r: string)
    ensures StartsWith(r, "Current Pipeline Configuration\n")
    ensures EndsWith(r, "\n\n")
  {
    var head := "Current Pipeline Configuration\n";
    var middle := "------------------------------\n"
      + "Node(s): " + nodes + "\n"
      + "Machine configuration: " + machConfig + "\n"
      + "Dates to be analysed: " + dates + "\n"
      + "Number of cores per node: " + cores + "\n\n"
      + "DM range: " + dmLowest + " to " + dmHighest + " pc cm^-3\n"
      + "Number of DM trials: " + numDms + "\n"
      + "Period ranges searched by the FFA:\n";
    var tail := "    (0.2 to 0.5 s), (0.5 to 2s) and (2 to 100s)\n\n";
    assert tail[|tail| - 2..] == "\n\n";
    EndsWithAppend(middle, tail, "\n\n");
    EndsWithAppend(head, middle + tail, "\n\n");
    StartsWithAppend(head, middle + tail);
    head + (middle + tail)
  }

  /** Ledger entries after the first are `Meta` objects. */
  predicate MetaRecords(summary: seq<Ledger.Record>)
  {
    forall i :: 0 <= i < |summary| ==> summary[i].MetaRecord? && IsMeta(summary[i].meta)
  }

  /** The rows of `summary`, one per entry and in order. */
  function RowResults(summary: seq<Ledger.Record>): (r: seq<Result<string>>)
    requires MetaRecords(summary)
    ensures |r| == |summary|
    ensures forall i :: 0 <= i < |summary| ==> r[i] == Row(summary[i].meta)
  {
    seq(|summary|, i requires 0 <= i < |summary| => Row(summary[i].meta))
  }

  /** The values of `rs` when all succeed, else the error of the first
      failure (the loop stops at the first exception). */
  function Collect<T>(rs: seq<Result<T>>): (r: Result<seq<T>>)
    ensures r.Success? <==> forall i :: 0 <= i < |rs| ==> rs[i].Success?
    ensures r.Success? ==> |r.value| == |rs| && forall i :: 0 <= i < |rs| ==> r.value[i] == rs[i].value
    ensures r.Failure? ==>
      exists i :: (0 <= i < |rs| && rs[i].Failure? && r.error == rs[i].error
        && forall j :: 0 <= j < i ==> rs[j].Success?)
  {
    if |rs| == 0 then Success([])
    else if rs[0].Failure? then Failure(rs[0].error)
    else
      var rest := Collect(rs[1..]);
      if rest.Failure? then
        var i :| 0 <= i < |rs[1..]| && rs[1..][i].Failure? && rest.error == rs[1..][i].error
          && forall j :: 0 <= j < i ==> rs[1..][j].Success?;
        assert forall j :: 0 <= j < i + 1 ==> rs[j].Success? by {
          forall j | 0 <= j < i + 1
            ensures rs[j].Success?
          {
            if j > 0 {
              assert rs[1..][j - 1] == rs[j];
            }
          }
        }
        Failure(rest.error)
      else
        assert forall i :: 0 <= i < |rs| - 1 ==> rs[1..][i] == rs[i + 1];
        Success([rs[0].value] + rest.value)
  }

  /** `build_record(config, summary)`: the description, the header and one
      row per summary entry, in ledger order. */
  function BuildRecord(description: string, summary: seq<Ledger.Record>): (r: Result<seq<string>>)
    requires MetaRecords(summary)
    ensures r.Success? <==> forall i :: 0 <= i < |summary| ==> summary[i].meta["fname"].StrValue?
    ensures r.Success? ==>
      && |r.value| == 2 + |summary|
      && r.value[0] == description && r.value[1] == Header()
  {
    var rows := Collect(RowResults(summary));
    if rows.Failure? then Failure(rows.error) else Success([description, Header()] + rows.value)
  }

  /** After the description and the header come the rows, one per entry
      and in ledger order. */
  lemma BuildRecordRows(description: string, summary: seq<Ledger.Record>)
    requires MetaRecords(summary) && BuildRecord(description, summary).Success?
    ensures var lines := BuildRecord(description, summary).value;
      forall i :: 0 <= i < |summary| ==> Row(summary[i].meta).Success? && lines[2 + i] == Row(summary[i].meta).value
  {
    CollectAfter([description, Header()], RowResults(summary));
  }

  /** The collected values, placed after `front`, keep their positions. */
  lemma CollectAfter<T>(front: seq<T>, rs: seq<Result<T>>)
    requires Collect(rs).Success?
    ensures forall i :: 0 <= i < |rs| ==> rs[i].Success? && (front + Collect(rs).value)[|front| + i] == rs[i].value
  {
  }

  /** What the monitor shows for a date. */
  datatype Display = NoFilesYet | Summary(lines: seq<string>) | Raised(error: string)

  /** The summary command: the first ledger record is the configuration,
      the rest the summary; an empty ledger means nothing is processed yet. */
  function Show(ledger: Ledger.LedgerFile, description: string): (r: Display)
    requires |Ledger.Unpickle(ledger)| > 0 ==> MetaRecords(Ledger.Unpickle(ledger)[1..])
    ensures r.NoFilesYet? <==> |Ledger.Unpickle(ledger)| == 0
    ensures r.Summary? ==> |r.lines| == 1 + |Ledger.Unpickle(ledger)|
  {
    var records := Ledger.Unpickle(ledger);
    if |records| == 0 then NoFilesYet
    else
      var built := BuildRecord(description, records[1..]);
      if built.Failure? then Raised(built.error) else Summary(built.value)
  }

  /** A ledger holding only the configuration shows the header and no rows. */
  lemma ShowConfigOnly(first: Ledger.Record, description: string)
    ensures Show(Ledger.Present([first]), description) == Summary([description, Header()])
  {
    assert [first][1..] == [];
  }

  /** Every `Meta` the worker appends names its file, so the monitor lists
      the files in processing order, each row starting with its name. */
  lemma ShowListsFiles(ledger: Ledger.LedgerFile, description: string, i: nat, name: string)
    requires |Ledger.Unpickle(ledger)| > 0 ==> MetaRecords(Ledger.Unpickle(ledger)[1..])
    requires i + 1 < |Ledger.Unpickle(ledger)|
    requires Ledger.FnameOf(Ledger.Unpickle(ledger)[i + 1]) == Success(StrValue(name))
    requires Show(ledger, description).Summary?
    ensures StartsWith(Show(ledger, description).lines[2 + i], name)
  {
    var summary := Ledger.Unpickle(ledger)[1..];
    assert summary[i] == Ledger.Unpickle(ledger)[i + 1];
    var built := BuildRecord(description, summary);
    assert Show(ledger, description).lines == built.value;
    BuildRecordRows(description, summary);
    assert summary[i].meta["fname"] == StrValue(name);
  }
}

=== FILE: paths.dfy ===
/** POSIX path manipulation as Python's `posixpath` does it: `join` of two
    components, `dirname` and `splitext`. */
module Paths {
  import opened Text

  /** Index of the last occurrence of `c` in `s`, or -1 (`str.rfind`). */
  function LastIndexOf(s: string, c: char): (r: int)
    ensures -1 <= r < |s|
    ensures r >= 0 ==> s[r] == c
    ensures forall i :: r < i < |s| ==> s[i] != c
  {
    if |s| == 0 then -1
    else if s[|s| - 1] == c then |s| - 1
    else LastIndexOf(s[..|s| - 1], c)
  }

  /** `os.path.join(a, b)`: an absolute `b` replaces `a`; otherwise a single
      separator is inserted unless `a` is empty or already ends with one. */
  function Join(a: string, b: string): (r: string)
    ensures StartsWith(b, "/") ==> r == b
    ensures !StartsWith(b, "/") ==> EndsWith(r, b) && StartsWith(r, a)
    ensures !StartsWith(b, "/") && (|a| == 0 || EndsWith(a, "/")) ==> r == a + b
    ensures !StartsWith(b, "/") && |a| > 0 && !EndsWith(a, "/") ==> r == a + "/" + b
  {
    if StartsWith(b, "/") then b
    else if |a| == 0 || a[|a| - 1] == '/' then a + b
    else a + "/" + b
  }

  predicate AllSlashes(s: string)
  {
    forall i :: 0 <= i < |s| ==> s[i] == '/'
  }

  /** `os.path.dirname(p)`: everything up to the last separator, with the
      trailing separators removed unless that part consists of separators only. */
  function Dirname(p: string): (r: string)
    ensures StartsWith(p, r)
    ensures '/' !in p ==> r == ""
  {
    var head := p[..LastIndexOf(p, '/') + 1];
    if |head| > 0 && !AllSlashes(head) then TrimEnd(head, c => c == '/') else head
  }

  /** The directory part of a joined path is the directory it was joined
      to, when that directory has no trailing separator (or is the root) and
      the child is a plain name. */
  lemma DirnameJoin(dir: string, child: string)
    requires |child| > 0 && '/' !in child
    requires |dir| == 0 || AllSlashes(dir) || dir[|dir| - 1] != '/'
    ensures Dirname(Join(dir, child)) == dir
  {
    var p := Join(dir, child);
    assert child[0] in child;
    assert !StartsWith(child, "/");
    if |dir| == 0 {
      assert p == child;
    } else if dir[|dir| - 1] == '/' {
      assert p == dir + child;
      LastChild(dir, child);
      assert p[..|dir|] == dir;
    } else {
      assert p == (dir + "/") + child;
      LastChild(dir + "/", child);
      var head := p[..|dir| + 1];
      assert head == dir + "/";
      assert dir[|dir| - 1] != '/' && head[|dir| - 1] == dir[|dir| - 1];
      TrimOneSlash(dir);
    }
  }

  lemma LastChild(a: string, child: string)
    requires |a| > 0 && a[|a| - 1] == '/' && '/' !in child
    ensures LastIndexOf(a + child, '/') == |a| - 1
  {
    var p := a + child;
    assert p[|a| - 1] == '/';
    forall i | |a| <= i < |p|
      ensures p[i] != '/'
    {
      assert p[i] == child[i - |a|] && child[i - |a|] in child;
    }
  }

  lemma TrimOneSlash(dir: string)
    requires |dir| > 0 && dir[|dir| - 1] != '/'
    ensures TrimEnd(dir + "/", c => c == '/') == dir
  {
    var s := dir + "/";
    assert s[..|s| - 1] == dir;
  }

  /** `os.path.splitext(p)`: the extension starts at the last dot of the last
      component, unless that component consists of dots up to it (so
      ".bashrc" has no extension). */
  function SplitExt(p: string): (r: (string, string))
    ensures r.0 + r.1 == p
    ensures r.1 == "" || (r.1[0] == '.' && '/' !in r.1)
  {
    var sep := LastIndexOf(p, '/');
    var dot := LastIndexOf(p, '.');
    if dot > sep && exists i :: sep < i < dot && p[i] != '.' then
      assert p[..dot] + p[dot..] == p;
      (p[..dot], p[dot..])
    else (p, "")
  }

  /** A name that ends with ".ext" (one dot, no separator) after a character
      that is neither a dot nor a separator splits into the name without it
      and ".ext". */
  lemma SplitExtOf(stem: string, ext: string)
    requires |stem| > 0 && stem[|stem| - 1] != '.' && stem[|stem| - 1] != '/'
    requires |ext| > 0 && ext[0] == '.' && '.' !in ext[1..] && '/' !in ext
    ensures SplitExt(stem + ext) == (stem, ext)
  {
    var p := stem + ext;
    assert p[|stem|] == '.';
    forall i | |stem| < i < |p|
      ensures p[i] != '.'
    {
      assert p[i] == ext[1..][i - |stem| - 1] && ext[1..][i - |stem| - 1] in ext[1..];
    }
    forall i | |stem| - 1 <= i < |p|
      ensures p[i] != '/'
    {
      if i >= |stem| {
        assert p[i] == ext[i - |stem|] && ext[i - |stem|] in ext;
      }
    }
    var dot := LastIndexOf(p, '.');
    var sep := LastIndexOf(p, '/');
    assert dot == |stem|;
    assert sep < |stem| - 1;
    assert p[|stem| - 1] != '.';
    assert p[..dot] == stem && p[dot..] == ext;
  }
}

=== FILE: seqs.dfy ===
/** Sequence helpers shared by the pipeline model: flattening nested lists,
    element-wise mapping and the subsequence relation. */
module Seqs {

  /** Concatenation of the inner sequences in order, as the comprehension
      `[x for sub in ss for x in sub]` builds it. */
  function Flatten<T>(ss: seq<seq<T>>): seq<T>
  {
    if |ss| == 0 then [] else ss[0] + Flatten(ss[1..])
  }

  /** Sum of the lengths of the inner sequences. */
  function TotalLength<T>(ss: seq<seq<T>>): nat
  {
    if |ss| == 0 then 0 else |ss[0]| + TotalLength(ss[1..])
  }

  lemma {:induction false} FlattenLength<T>(ss: seq<seq<T>>)
    ensures |Flatten(ss)| == TotalLength(ss)
  {
    if |ss| > 0 {
      FlattenLength(ss[1..]);
    }
  }

  lemma {:induction false} FlattenAppend<T>(a: seq<seq<T>>, b: seq<seq<T>>)
    ensures Flatten(a + b) == Flatten(a) + Flatten(b)
  {
    if |a| == 0 {
      assert a + b == b;
    } else {
      assert (a + b)[1..] == a[1..] + b;
      FlattenAppend(a[1..], b);
    }
  }

  lemma {:induction false} TotalLengthAppend<T>(a: seq<seq<T>>, b: seq<seq<T>>)
    ensures TotalLength(a + b) == TotalLength(a) + TotalLength(b)
  {
    FlattenAppend(a, b);
    FlattenLength(a + b);
    FlattenLength(a);
    FlattenLength(b);
  }

  /** `[f(x) for x in s]`. */
  function Map<A, B>(f: A -> B, s: seq<A>): (r: seq<B>)
    ensures |r| == |s|
    ensures forall i :: 0 <= i < |s| ==> r[i] == f(s[i])
  {
    if |s| == 0 then [] else [f(s[0])] + Map(f, s[1..])
  }

  /** `a` can be obtained from `b` by deleting elements (leftmost matching). */
  predicate IsSubsequence<T(==)>(a: seq<T>, b: seq<T>)
    decreases |b|
  {
    if |a| == 0 then true
    else if |b| == 0 then false
    else if a[0] == b[0] then IsSubsequence(a[1..], b[1..])
    else IsSubsequence(a, b[1..])
  }

  lemma {:induction false} SubsequenceMembers<T>(a: seq<T>, b: seq<T>)
    requires IsSubsequence(a, b)
    ensures |a| <= |b|
    ensures forall x :: x in a ==> x in b
    decreases |b|
  {
    if |a| > 0 {
      if a[0] == b[0] {
        SubsequenceMembers(a[1..], b[1..]);
        forall x | x in a
          ensures x in b
        {
          if x != a[0] {
            assert x in a[1..];
          }
        }
      } else {
        SubsequenceMembers(a, b[1..]);
      }
    }
  }

  lemma {:induction false} SubsequencePrefix<T>(a: seq<T>, b: seq<T>, k: nat)
    requires IsSubsequence(a, b)
    requires k <= |a|
    ensures IsSubsequence(a[..k], b)
    decreases |b|
  {
    if k > 0 {
      if a[0] == b[0] {
        SubsequencePrefix(a[1..], b[1..], k - 1);
        assert a[..k][1..] == a[1..][..k - 1];
      } else {
        SubsequencePrefix(a, b[1..], k);
      }
    }
  }

  lemma {:induction false} SubsequenceReflexive<T>(a: seq<T>)
    ensures IsSubsequence(a, a)
    decreases |a|
  {
    if |a| > 0 {
      SubsequenceReflexive(a[1..]);
    }
  }

  lemma {:induction false} SubsequenceTail<T>(a: seq<T>, b: seq<T>)
    requires |a| > 0
    requires IsSubsequence(a, b)
    ensures IsSubsequence(a[1..], b)
    decreases |b|, 0
  {
    assert b == [b[0]] + b[1..];
    if a[0] == b[0] {
      SubsequenceWeaken(a[1..], b[1..], b[0]);
    } else {
      SubsequenceTail(a, b[1..]);
      SubsequenceWeaken(a[1..], b[1..], b[0]);
    }
  }

  /** Prepending an element to `b` keeps `a` a subsequence of it. */
  lemma {:induction false} SubsequenceWeaken<T>(a: seq<T>, b: seq<T>, x: T)
    requires IsSubsequence(a, b)
    ensures IsSubsequence(a, [x] + b)
    decreases |b|, 1
  {
    assert ([x] + b)[1..] == b;
    if |a| > 0 && a[0] == x {
      SubsequenceTail(a, b);
    }
  }

  lemma {:induction false} SubsequenceTransitive<T>(a: seq<T>, b: seq<T>, c: seq<T>)
    requires IsSubsequence(a, b) && IsSubsequence(b, c)
    ensures IsSubsequence(a, c)
    decreases |c|
  {
    if |a| > 0 && |c| > 0 {
      if b[0] == c[0] {
        if a[0] == b[0] {
          SubsequenceTransitive(a[1..], b[1..], c[1..]);
        } else {
          SubsequenceTransitive(a, b[1..], c[1..]);
        }
      } else {
        SubsequenceTransitive(a, b, c[1..]);
        if a[0] == c[0] {
          SubsequenceTail(a, c[1..]);
        }
      }
    }
  }

  /** `[x for x in s if p(x)]`, also `list(filter(p, s))`. */
  function FilterBy<T>(s: seq<T>, p: T -> bool): (r: seq<T>)
    ensures |r| <= |s|
  {
    if |s| == 0 then [] else Kept(s[0], p) + FilterBy(s[1..], p)
  }

  /** What the comprehension makes of one element. */
  function Kept<T>(x: T, p: T -> bool): (r: seq<T>)
    ensures |r| <= 1
  {
    if p(x) then [x] else []
  }

  lemma FilterByCons<T>(x: T, s: seq<T>, p: T -> bool)
    ensures FilterBy([x] + s, p) == Kept(x, p) + FilterBy(s, p)
  {
    assert ([x] + s)[1..] == s;
  }

  /** The filtered list is drawn in order from the input... */
  lemma {:induction false} FilterBySubsequence<T>(s: seq<T>, p: T -> bool)
    ensures IsSubsequence(FilterBy(s, p), s)
  {
    if |s| > 0 {
      FilterBySubsequence(s[1..], p);
      var t := FilterBy(s[1..], p);
      assert s == [s[0]] + s[1..];
      if p(s[0]) {
        assert ([s[0]] + t)[1..] == t;
      } else {
        assert FilterBy(s, p) == [] + t == t;
        SubsequenceWeaken(t, s[1..], s[0]);
      }
    }
  }

  /** ...and holds exactly the input elements that satisfy `p`. */
  lemma {:induction false} FilterByMembers<T>(s: seq<T>, p: T -> bool, x: T)
    ensures x in FilterBy(s, p) <==> x in s && p(x)
  {
    if |s| > 0 {
      FilterByMembers(s[1..], p, x);
      assert s == [s[0]] + s[1..];
    }
  }

  lemma {:induction false} FilterByAppend<T>(a: seq<T>, b: seq<T>, p: T -> bool)
    ensures FilterBy(a + b, p) == FilterBy(a, p) + FilterBy(b, p)
  {
    if |a| == 0 {
      assert a + b == b;
    } else {
      assert a + b == [a[0]] + (a[1..] + b);
      FilterByCons(a[0], a[1..] + b, p);
      FilterByAppend(a[1..], b, p);
      assert a == [a[0]] + a[1..];
      FilterByCons(a[0], a[1..], p);
    }
  }

  /** Two filters can be applied in either order. */
  lemma {:induction false} FilterByCommute<T>(s: seq<T>, p: T -> bool, q: T -> bool)
    ensures FilterBy(FilterBy(s, p), q) == FilterBy(FilterBy(s, q), p)
  {
    if |s| > 0 {
      FilterByCommute(s[1..], p, q);
      assert s == [s[0]] + s[1..];
      var x := s[0];
      FilterByAppend(Kept(x, p), FilterBy(s[1..], p), q);
      FilterByAppend(Kept(x, q), FilterBy(s[1..], q), p);
      assert FilterBy(Kept(x, p), q) == FilterBy(Kept(x, q), p);
    }
  }
}

=== FILE: sorting.dfy ===
/** Stable sorting by a real-valued key, as Python's
    `sorted(xs, key=key, reverse=True)` does it: descending by key, and
    elements with equal keys keep their original relative order. */
module Sorting {
  import opened Seqs

  predicate SortedDesc<T>(s: seq<T>, key: T -> real)
  {
    forall i, j :: 0 <= i < j < |s| ==> key(s[i]) >= key(s[j])
  }

  /** The elements of `s` whose key equals `k`, in their order in `s`.
      A sort is stable exactly when it leaves every such class unchanged. */
  function WithKey<T>(s: seq<T>, key: T -> real, k: real): seq<T>
  {
    if |s| == 0 then []
    else (if key(s[0]) == k then [s[0]] else []) + WithKey(s[1..], key, k)
  }

  lemma WithKeyCons<T>(x: T, s: seq<T>, key: T -> real, k: real)
    ensures WithKey([x] + s, key, k) == (if key(x) == k then [x] else []) + WithKey(s, key, k)
  {
    assert ([x] + s)[1..] == s;
  }

  /** Inserts `x` in front of the first element whose key is not larger. */
  function Insert<T>(x: T, s: seq<T>, key: T -> real): (r: seq<T>)
    ensures |r| == |s| + 1
  {
    if |s| == 0 || key(s[0]) <= key(x) then [x] + s
    else [s[0]] + Insert(x, s[1..], key)
  }

  /** Insertion adds `x` and loses nothing. */
  lemma {:induction false} InsertMultiset<T>(x: T, s: seq<T>, key: T -> real)
    ensures multiset(Insert(x, s, key)) == multiset(s) + multiset{x}
  {
    if |s| > 0 && key(s[0]) > key(x) {
      InsertMultiset(x, s[1..], key);
      assert s == [s[0]] + s[1..];
    }
  }

  lemma {:induction false} InsertSorted<T>(x: T, s: seq<T>, key: T -> real)
    requires SortedDesc(s, key)
    ensures SortedDesc(Insert(x, s, key), key)
  {
    if |s| == 0 || key(s[0]) <= key(x) {
    } else {
      var t := Insert(x, s[1..], key);
      InsertSorted(x, s[1..], key);
      InsertMultiset(x, s[1..], key);
      forall j | 0 <= j < |t|
        ensures key(s[0]) >= key(t[j])
      {
        assert t[j] in multiset(t);
        if t[j] != x {
          assert t[j] in multiset(s[1..]);
          var m :| 0 <= m < |s[1..]| && s[1..][m] == t[j];
          assert s[m + 1] == t[j];
        }
      }
    }
  }

  lemma {:induction false} InsertWithKey<T>(x: T, s: seq<T>, key: T -> real, k: real)
    ensures WithKey(Insert(x, s, key), key, k)
         == (if key(x) == k then [x] else []) + WithKey(s, key, k)
  {
    if |s| == 0 || key(s[0]) <= key(x) {
      WithKeyCons(x, s, key, k);
    } else {
      assert Insert(x, s, key) == [s[0]] + Insert(x, s[1..], key);
      InsertWithKey(x, s[1..], key, k);
      WithKeyCons(s[0], Insert(x, s[1..], key), key, k);
      WithKeyCons(s[0], s[1..], key, k);
      assert [s[0]] + s[1..] == s;
    }
  }

  /** Stable descending sort of `s` by `key`. */
  function SortDesc<T>(s: seq<T>, key: T -> real): (r: seq<T>)
    ensures |r| == |s|
    ensures multiset(r) == multiset(s)
    ensures SortedDesc(r, key)
    ensures forall k :: WithKey(r, key, k) == WithKey(s, key, k)
  {
    if |s| == 0 then []
    else
      var t := SortDesc(s[1..], key);
      SortStep(s, t, key);
      Insert(s[0], t, key)
  }

  /** One step of the insertion sort keeps the sort's contract. */
  lemma SortStep<T>(s: seq<T>, t: seq<T>, key: T -> real)
    requires |s| > 0
    requires multiset(t) == multiset(s[1..]) && SortedDesc(t, key)
    requires forall k :: WithKey(t, key, k) == WithKey(s[1..], key, k)
    ensures multiset(Insert(s[0], t, key)) == multiset(s)
    ensures SortedDesc(Insert(s[0], t, key), key)
    ensures forall k :: WithKey(Insert(s[0], t, key), key, k) == WithKey(s, key, k)
  {
    InsertSorted(s[0], t, key);
    InsertKeepsClasses(s, t, key);
    InsertMultiset(s[0], t, key);
    ConsMultiset(s);
  }

  lemma ConsMultiset<T>(s: seq<T>)
    requires |s| > 0
    ensures multiset(s) == multiset(s[1..]) + multiset{s[0]}
  {
    assert s == [s[0]] + s[1..];
  }

  lemma InsertKeepsClasses<T>(s: seq<T>, t: seq<T>, key: T -> real)
    requires |s| > 0
    requires forall k :: WithKey(t, key, k) == WithKey(s[1..], key, k)
    ensures forall k :: WithKey(Insert(s[0], t, key), key, k) == WithKey(s, key, k)
  {
    forall k
      ensures WithKey(Insert(s[0], t, key), key, k) == WithKey(s, key, k)
    {
      InsertWithKey(s[0], t, key, k);
      WithKeyCons(s[0], s[1..], key, k);
      assert [s[0]] + s[1..] == s;
    }
  }

  /** A subsequence of a sorted sequence is sorted. */
  lemma {:induction false} SubsequenceSorted<T>(a: seq<T>, b: seq<T>, key: T -> real)
    requires IsSubsequence(a, b)
    requires SortedDesc(b, key)
    ensures SortedDesc(a, key)
    decreases |b|
  {
    if |a| > 0 {
      if a[0] == b[0] {
        SubsequenceSorted(a[1..], b[1..], key);
        SubsequenceMembers(a[1..], b[1..]);
        forall j | 1 <= j < |a|
          ensures key(a[0]) >= key(a[j])
        {
          assert a[j] in a[1..];
          var m :| 0 <= m < |b[1..]| && b[1..][m] == a[j];
          assert b[m + 1] == a[j];
        }
      } else {
        SubsequenceSorted(a, b[1..], key);
      }
    }
  }

  /** The sort is determined by its properties: a sequence that is sorted and
      has the same equal-key classes as `s`, each in the same order, is
      `SortDesc(s)`. */
  lemma {:induction false} SortDescUnique<T>(s: seq<T>, t: seq<T>, key: T -> real)
    requires SortedDesc(t, key)
    requires forall k :: WithKey(t, key, k) == WithKey(s, key, k)
    ensures t == SortDesc(s, key)
  {
    var r := SortDesc(s, key);
    SortedSameClassesEqual(t, r, key);
  }

  lemma {:induction false} WithKeyMember<T>(s: seq<T>, key: T -> real, x: T)
    ensures x in s <==> x in WithKey(s, key, key(x))
  {
    if |s| > 0 {
      WithKeyMember(s[1..], key, x);
      assert s == [s[0]] + s[1..];
    }
  }

  lemma {:induction false} SortedSameClassesEqual<T>(a: seq<T>, b: seq<T>, key: T -> real)
    requires SortedDesc(a, key) && SortedDesc(b, key)
    requires forall k :: WithKey(a, key, k) == WithKey(b, key, k)
    ensures a == b
    decreases |a| + |b|
  {
    if |a| == 0 && |b| == 0 {
    } else if |a| == 0 {
      WithKeyMember(a, key, b[0]);
      WithKeyMember(b, key, b[0]);
    } else if |b| == 0 {
      WithKeyMember(a, key, a[0]);
      WithKeyMember(b, key, a[0]);
    } else {
      SortedHeadsEqual(a, b, key);
      SameTailClasses(a, b, key);
      SortedSameClassesEqual(a[1..], b[1..], key);
      assert a == [a[0]] + a[1..];
      assert b == [b[0]] + b[1..];
    }
  }

  /** Both heads carry the largest key of the common element set, and are
      the first of that key's class. */
  lemma SortedHeadsEqual<T>(a: seq<T>, b: seq<T>, key: T -> real)
    requires |a| > 0 && |b| > 0
    requires SortedDesc(a, key) && SortedDesc(b, key)
    requires forall k :: WithKey(a, key, k) == WithKey(b, key, k)
    ensures a[0] == b[0]
  {
    HeadKeyLargest(a, b, key);
    HeadKeyLargest(b, a, key);
    var m := key(a[0]);
    WithKeyHead(a, key);
    WithKeyHead(b, key);
    assert WithKey(a, key, m) == WithKey(b, key, m);
  }

  /** The head of a sorted sequence has a key no smaller than that of any
      element of a sequence with the same classes. */
  lemma HeadKeyLargest<T>(a: seq<T>, b: seq<T>, key: T -> real)
    requires |a| > 0 && |b| > 0 && SortedDesc(a, key)
    requires forall k :: WithKey(a, key, k) == WithKey(b, key, k)
    ensures key(a[0]) >= key(b[0])
  {
    WithKeyMember(b, key, b[0]);
    WithKeyMember(a, key, b[0]);
    var i :| 0 <= i < |a| && a[i] == b[0];
  }

  /** A sequence's head opens the class of its own key. */
  lemma WithKeyHead<T>(a: seq<T>, key: T -> real)
    requires |a| > 0
    ensures |WithKey(a, key, key(a[0]))| > 0 && WithKey(a, key, key(a[0]))[0] == a[0]
  {
    WithKeyCons(a[0], a[1..], key, key(a[0]));
    assert a == [a[0]] + a[1..];
  }

  /** Dropping a common head keeps the classes equal. */
  lemma SameTailClasses<T>(a: seq<T>, b: seq<T>, key: T -> real)
    requires |a| > 0 && |b| > 0 && a[0] == b[0]
    requires forall k :: WithKey(a, key, k) == WithKey(b, key, k)
    ensures forall k :: WithKey(a[1..], key, k) == WithKey(b[1..], key, k)
  {
    forall k
      ensures WithKey(a[1..], key, k) == WithKey(b[1..], key, k)
    {
      WithKeyCons(a[0], a[1..], key, k);
      WithKeyCons(b[0], b[1..], key, k);
      assert a == [a[0]] + a[1..];
      assert b == [b[0]] + b[1..];
      var p := if key(a[0]) == k then [a[0]] else [];
      assert WithKey(a[1..], key, k) == (p + WithKey(a[1..], key, k))[|p|..];
      assert WithKey(b[1..], key, k) == (p + WithKey(b[1..], key, k))[|p|..];
    }
  }

  lemma {:induction false} WithKeyAppend<T>(a: seq<T>, b: seq<T>, key: T -> real, k: real)
    ensures WithKey(a + b, key, k) == WithKey(a, key, k) + WithKey(b, key, k)
  {
    if |a| == 0 {
      assert a + b == b;
    } else {
      assert a + b == [a[0]] + (a[1..] + b);
      WithKeyCons(a[0], a[1..] + b, key, k);
      WithKeyAppend(a[1..], b, key, k);
      assert a == [a[0]] + a[1..];
      WithKeyCons(a[0], a[1..], key, k);
    }
  }

  /** Filtering keeps every equal-key class in order. */
  lemma {:induction false} FilterByWithKey<T>(s: seq<T>, p: T -> bool, key: T -> real, k: real)
    ensures WithKey(FilterBy(s, p), key, k) == FilterBy(WithKey(s, key, k), p)
  {
    if |s| > 0 {
      FilterByWithKey(s[1..], p, key, k);
      var x := s[0];
      assert s == [x] + s[1..];
      FilterByCons(x, s[1..], p);
      WithKeyCons(x, s[1..], key, k);
      WithKeyAppend(Kept(x, p), FilterBy(s[1..], p), key, k);
      FilterByAppend(if key(x) == k then [x] else [], WithKey(s[1..], key, k), p);
      assert WithKey(Kept(x, p), key, k) == FilterBy(if key(x) == k then [x] else [], p);
    }
  }

  /** Filtering a stably sorted list gives the stably sorted filtered list. */
  lemma FilterBySortDesc<T>(s: seq<T>, p: T -> bool, key: T -> real)
    ensures FilterBy(SortDesc(s, key), p) == SortDesc(FilterBy(s, p), key)
  {
    var sorted := SortDesc(s, key);
    var t := FilterBy(sorted, p);
    FilterBySubsequence(sorted, p);
    SubsequenceSorted(t, sorted, key);
    forall k
      ensures WithKey(t, key, k) == WithKey(FilterBy(s, p), key, k)
    {
      FilterByWithKey(sorted, p, key, k);
      FilterByWithKey(s, p, key, k);
    }
    SortDescUnique(FilterBy(s, p), t, key);
  }
}

=== FILE: text.dfy ===
/** Python string operations the pipeline relies on, written out exactly:
    `strip`, `rstrip(ch)`, `split(sep)`, `join`, `startswith`/`endswith`,
    `replace`, `lower` (ASCII), `str()` of integers, zero padding and `ljust`. */
module Text {

  /** Python's `str.isspace()` for one character. */
  predicate IsSpace(c: char)
  {
    || c == ' ' || c == '\t' || c == '\n' || c == '\r'
    || c == '\U{000B}' || c == '\U{000C}'
    || ('\U{001C}' <= c <= '\U{001F}')
    || c == '\U{0085}' || c == '\U{00A0}' || c == '\U{1680}'
    || ('\U{2000}' <= c <= '\U{200A}')
    || c == '\U{2028}' || c == '\U{2029}' || c == '\U{202F}' || c == '\U{205F}' || c == '\U{3000}'
  }

  /** Drops the longest prefix of characters satisfying `drop`. */
  function TrimStart(s: string, drop: char -> bool): (r: string)
    ensures |r| <= |s| && r == s[|s| - |r|..]
    ensures forall i :: 0 <= i < |s| - |r| ==> drop(s[i])
    ensures |r| > 0 ==> !drop(r[0])
  {
    s[SkipFrom(s, drop, 0)..]
  }

  /** The first index at or after `i` whose character `drop` keeps. */
  function SkipFrom(s: string, drop: char -> bool, i: nat): (r: nat)
    requires i <= |s|
    ensures i <= r <= |s|
    ensures forall k :: i <= k < r ==> drop(s[k])
    ensures r < |s| ==> !drop(s[r])
    decreases |s| - i
  {
    if i < |s| && drop(s[i]) then SkipFrom(s, drop, i + 1) else i
  }

  /** Drops the longest suffix of characters satisfying `drop`
      (Python's `rstrip(chars)`). */
  function TrimEnd(s: string, drop: char -> bool): (r: string)
    ensures |r| <= |s| && r == s[..|r|]
    ensures forall i :: |r| <= i < |s| ==> drop(s[i])
    ensures |r| > 0 ==> !drop(r[|r| - 1])
  {
    if |s| > 0 && drop(s[|s| - 1]) then TrimEnd(s[..|s| - 1], drop) else s
  }

  /** Python's `str.strip()`. */
  function Strip(s: string): (r: string)
    ensures |r| <= |s|
    ensures |r| > 0 ==> !IsSpace(r[0]) && !IsSpace(r[|r| - 1])
    ensures |s| == 0 || (!IsSpace(s[0]) && !IsSpace(s[|s| - 1])) ==> r == s
  {
    TrimEnd(TrimStart(s, IsSpace), IsSpace)
  }

  predicate StartsWith(s: string, prefix: string)
  {
    |prefix| <= |s| && s[..|prefix|] == prefix
  }

  predicate EndsWith(s: string, suffix: string)
  {
    |suffix| <= |s| && s[|s| - |suffix|..] == suffix
  }

  lemma StartsWithAppend(a: string, b: string)
    ensures StartsWith(a + b, a)
  {
    assert (a + b)[..|a|] == a;
  }

  lemma StartsWithExtend(a: string, prefix: string, b: string)
    requires StartsWith(a, prefix)
    ensures StartsWith(a + b, prefix)
  {
    assert (a + b)[..|prefix|] == a[..|prefix|];
  }

  lemma EndsWithAppend(a: string, b: string, suffix: string)
    requires EndsWith(b, suffix)
    ensures EndsWith(a + b, suffix)
  {
    assert (a + b)[|a + b| - |suffix|..] == b[|b| - |suffix|..];
  }

  /** Number of occurrences of `c` in `s`. */
  function Count(s: string, c: char): nat
  {
    if |s| == 0 then 0 else (if s[0] == c then 1 else 0) + Count(s[1..], c)
  }

  lemma {:induction false} CountZero(s: string, c: char)
    ensures Count(s, c) == 0 <==> c !in s
  {
    if |s| > 0 {
      CountZero(s[1..], c);
      assert s == [s[0]] + s[1..];
    }
  }

  /** Python's `s.split(sep)` for a one-character separator: the fields
      between separators, including empty ones. */
  function Split(s: string, sep: char): (r: seq<string>)
    ensures |r| == Count(s, sep) + 1
    ensures forall i :: 0 <= i < |r| ==> sep !in r[i]
  {
    if |s| == 0 then [""]
    else
      var rest := Split(s[1..], sep);
      if s[0] == sep then [""] + rest
      else [[s[0]] + rest[0]] + rest[1..]
  }

  /** Python's `sep.join(parts)` for a one-character separator and at least one part. */
  function Join(parts: seq<string>, sep: char): string
    requires |parts| > 0
  {
    if |parts| == 1 then parts[0] else parts[0] + [sep] + Join(parts[1..], sep)
  }

  /** Joining the fields of a split gives back the original string. */
  lemma {:induction false} JoinSplit(s: string, sep: char)
    ensures Join(Split(s, sep), sep) == s
  {
    if |s| > 0 {
      var rest := Split(s[1..], sep);
      JoinSplit(s[1..], sep);
      if s[0] == sep {
        assert ([""] + rest)[1..] == rest;
      } else {
        var r := [[s[0]] + rest[0]] + rest[1..];
        if |rest| > 1 {
          assert r[1..] == rest[1..];
          assert Join(rest, sep) == rest[0] + [sep] + Join(rest[1..], sep);
        }
        assert s == [s[0]] + s[1..];
      }
    }
  }

  /** Splitting a string without separators yields it as the only field. */
  lemma {:induction false} SplitNoSep(a: string, sep: char)
    requires sep !in a
    ensures Split(a, sep) == [a]
  {
    if |a| > 0 {
      SplitNoSep(a[1..], sep);
      assert a == [a[0]] + a[1..];
    }
  }

  /** A field followed by a separator splits off as the first field. */
  lemma {:induction false} SplitField(a: string, sep: char, b: string)
    requires sep !in a
    ensures Split(a + [sep] + b, sep) == [a] + Split(b, sep)
  {
    if |a| == 0 {
      assert a + [sep] + b == [sep] + b;
      assert ([sep] + b)[1..] == b;
    } else {
      SplitField(a[1..], sep, b);
      assert (a + [sep] + b)[1..] == a[1..] + [sep] + b;
      assert a == [a[0]] + a[1..];
    }
  }

  /** Splitting a join of separator-free fields gives the fields back. */
  lemma {:induction false} SplitJoin(parts: seq<string>, sep: char)
    requires |parts| > 0
    requires forall i :: 0 <= i < |parts| ==> sep !in parts[i]
    ensures Split(Join(parts, sep), sep) == parts
  {
    if |parts| == 1 {
      SplitNoSep(parts[0], sep);
    } else {
      SplitJoin(parts[1..], sep);
      SplitField(parts[0], sep, Join(parts[1..], sep));
      assert parts == [parts[0]] + parts[1..];
    }
  }

  function ToLowerAscii(c: char): char
  {
    if 'A' <= c <= 'Z' then (c as int - 'A' as int + 'a' as int) as char else c
  }

  /** Python's `str.lower()` restricted to ASCII letters. */
  function LowerAscii(s: string): (r: string)
    ensures |r| == |s|
    ensures forall i :: 0 <= i < |s| ==> r[i] == ToLowerAscii(s[i])
  {
    if |s| == 0 then [] else [ToLowerAscii(s[0])] + LowerAscii(s[1..])
  }

  /** Python's `s.replace(pat, rep)`: every non-overlapping occurrence of
      `pat`, scanning left to right, is replaced. */
  function Replace(s: string, pat: string, rep: string): string
    requires |pat| > 0
    decreases |s|
  {
    if |s| < |pat| then s
    else if s[..|pat|] == pat then rep + Replace(s[|pat|..], pat, rep)
    else [s[0]] + Replace(s[1..], pat, rep)
  }

  /** No proper prefix of `w` is also a suffix of it, so two occurrences of
      `w` never overlap. */
  predicate SelfOverlapFree(w: string)
  {
    forall k :: 0 < k < |w| ==> w[k..] != w[..|w| - k]
  }

  /** When `s` ends with an overlap-free `pat`, that last occurrence is
      replaced, so the result ends with `rep`. */
  lemma {:induction false} ReplaceKeepsSuffix(s: string, pat: string, rep: string)
    requires |pat| > 0 && SelfOverlapFree(pat)
    requires EndsWith(s, pat)
    ensures EndsWith(Replace(s, pat, rep), rep)
    decreases |s|
  {
    if |s| == |pat| {
      assert s[..|pat|] == s == pat;
      assert s[|pat|..] == [];
    } else if s[..|pat|] == pat {
      var t := s[|pat|..];
      if |t| < |pat| {
        // `s` would then start and end with overlapping copies of `pat`.
        BorderOf(s, pat);
        assert false;
      }
      assert t[|t| - |pat|..] == s[|s| - |pat|..];
      ReplaceKeepsSuffix(t, pat, rep);
      EndsWithAppend(rep, Replace(t, pat, rep), rep);
    } else {
      assert s[1..][|s| - 1 - |pat|..] == s[|s| - |pat|..];
      ReplaceKeepsSuffix(s[1..], pat, rep);
      EndsWithAppend([s[0]], Replace(s[1..], pat, rep), rep);
    }
  }

  /** A string that starts and ends with `pat` but is shorter than two
      copies of it shows a proper prefix of `pat` that is also a suffix. */
  lemma BorderOf(s: string, pat: string)
    requires StartsWith(s, pat) && EndsWith(s, pat)
    requires |pat| < |s| < 2 * |pat|
    ensures pat[|s| - |pat|..] == pat[..2 * |pat| - |s|]
  {
    var k := |s| - |pat|;
    forall i | 0 <= i < |pat| - k
      ensures pat[k..][i] == pat[..|pat| - k][i]
    {
      assert s[..|pat|][k + i] == s[k + i] == s[|s| - |pat|..][i];
    }
  }

  /** `pat` occurs in `s` starting at index `i`. */
  predicate OccursAt(s: string, pat: string, i: int)
  {
    0 <= i && i + |pat| <= |s| && s[i..i + |pat|] == pat
  }

  /** A string without any occurrence of `pat` is left unchanged. */
  lemma {:induction false} ReplaceAbsent(s: string, pat: string, rep: string)
    requires |pat| > 0
    requires forall i :: !OccursAt(s, pat, i)
    ensures Replace(s, pat, rep) == s
    decreases |s|
  {
    if |s| >= |pat| {
      assert !OccursAt(s, pat, 0);
      forall i
        ensures !OccursAt(s[1..], pat, i)
      {
        assert !OccursAt(s, pat, i + 1);
        if 0 <= i && i + |pat| <= |s[1..]| {
          assert s[1..][i..i + |pat|] == s[i + 1..i + 1 + |pat|];
        }
      }
      ReplaceAbsent(s[1..], pat, rep);
      assert s == [s[0]] + s[1..];
    }
  }

  /** When `pat` occurs in `t + pat` only as its suffix, replacing it keeps
      the stem `t` and swaps the suffix for `rep`. */
  lemma {:induction false} ReplaceOnlySuffix(t: string, pat: string, rep: string)
    requires |pat| > 0
    requires forall i :: 0 <= i < |t| ==> !OccursAt(t + pat, pat, i)
    ensures Replace(t + pat, pat, rep) == t + rep
    decreases |t|
  {
    var s := t + pat;
    if |t| == 0 {
      assert s[..|pat|] == pat && s[|pat|..] == [];
    } else {
      assert !OccursAt(s, pat, 0);
      assert s[1..] == t[1..] + pat;
      forall i | 0 <= i < |t[1..]|
        ensures !OccursAt(t[1..] + pat, pat, i)
      {
        assert !OccursAt(s, pat, i + 1);
        assert (t[1..] + pat)[i..i + |pat|] == s[i + 1..i + 1 + |pat|];
      }
      ReplaceOnlySuffix(t[1..], pat, rep);
      assert t + rep == [t[0]] + (t[1..] + rep);
    }
  }

  predicate IsDigit(c: char)
  {
    '0' <= c <= '9'
  }

  predicate AllDigits(s: string)
  {
    forall i :: 0 <= i < |s| ==> IsDigit(s[i])
  }

  function DigitChar(d: nat): (c: char)
    requires d < 10
    ensures IsDigit(c)
  {
    (d + '0' as int) as char
  }

  /** Decimal digits of `n`, most significant first, as `str(n)` prints them. */
  function NatToString(n: nat): (r: string)
    ensures |r| > 0 && AllDigits(r)
    decreases n
  {
    if n < 10 then [DigitChar(n)] else NatToString(n / 10) + [DigitChar(n % 10)]
  }

  /** Value of a string of decimal digits (leading zeros allowed). */
  function DigitsValue(s: string): nat
    requires AllDigits(s)
  {
    if |s| == 0 then 0
    else DigitsValue(s[..|s| - 1]) * 10 + (s[|s| - 1] as int - '0' as int)
  }

  /** Reading back the digits of `n` gives `n`. */
  lemma {:induction false} NatToStringValue(n: nat)
    ensures DigitsValue(NatToString(n)) == n
    decreases n
  {
    if n >= 10 {
      NatToStringValue(n / 10);
      var s := NatToString(n);
      assert s[..|s| - 1] == NatToString(n / 10);
    }
  }

  /** Python's `str(i)` for an integer. */
  function IntToString(i: int): string
  {
    if i < 0 then "-" + NatToString(-i) else NatToString(i)
  }

  /** `n` copies of `c`; none when `n` is not positive. */
  function Repeat(c: char, n: int): (r: string)
    ensures |r| == if n > 0 then n else 0
    ensures forall i :: 0 <= i < |r| ==> r[i] == c
    decreases n
  {
    if n <= 0 then [] else [c] + Repeat(c, n - 1)
  }

  /** Leading zeros do not change the value of a digit string. */
  lemma {:induction false} LeadingZerosValue(k: nat, s: string)
    requires AllDigits(s)
    ensures AllDigits(Repeat('0', k) + s)
    ensures DigitsValue(Repeat('0', k) + s) == DigitsValue(s)
    decreases |s|
  {
    var z := Repeat('0', k);
    if |s| == 0 {
      assert z + s == z;
      ZerosValue(k);
    } else {
      LeadingZerosValue(k, s[..|s| - 1]);
      assert (z + s)[..|z + s| - 1] == z + s[..|s| - 1];
    }
  }

  lemma {:induction false} ZerosValue(k: nat)
    ensures AllDigits(Repeat('0', k))
    ensures DigitsValue(Repeat('0', k)) == 0
  {
    if k > 0 {
      ZerosValue(k - 1);
      var z := Repeat('0', k);
      var y := z[..|z| - 1];
      assert forall i :: 0 <= i < |y| ==> y[i] == '0';
      assert y == Repeat('0', k - 1);
    }
  }

  /** Python's `"{:0Wd}".format(n)` for a non-negative `n`: zeros on the left
      up to `width` characters, never truncated. */
  function ZeroPad(n: nat, width: int): (r: string)
    ensures AllDigits(r) && DigitsValue(r) == n
    ensures |r| == if width > |NatToString(n)| then width else |NatToString(n)|
  {
    var digits := NatToString(n);
    var k: nat := if width > |digits| then width - |digits| else 0;
    LeadingZerosValue(k, digits);
    NatToStringValue(n);
    Repeat('0', k) + digits
  }

  /** Python's `s.ljust(width)` (and the `{:<W}` format spec): pads with
      spaces on the right up to `width`, never truncates. */
  function LJust(s: string, width: int): (r: string)
    ensures |r| == if width > |s| then width else |s|
    ensures r[..|s|] == s
    ensures forall i :: |s| <= i < |r| ==> r[i] == ' '
  {
    s + Repeat(' ', width - |s|)
  }
}

=== FILE: wrappers.dfy ===
/** Failure-compatible result types.  `Option` stands for a Python value that
    may be `None`; `Result` stands for a call that either returns or raises. */
module Wrappers {

  datatype Option<+T> = None | Some(value: T)

  /** `Failure` carries a short description of the exception the source raises. */
  datatype Result<+T> = Success(value: T) | Failure(error: string)
}
